=== FILE: README.md ===
# School records API — a Dafny model

This project models the core of a small school-records REST API built on
Django and Django REST Framework. The API stores teachers, classes and
students. A class has an optional teacher. A student belongs to exactly one
class. The API exposes one list/create/retrieve/update/delete endpoint per
record kind, behind token authentication.

The model is an in-memory, immutable record store with pure functions over
it. It has three layers.

- **Storage** (`models.dfy`, module `Models`). The three record kinds and
  their column widths. The unique columns: teacher email, class name,
  student roll number, student email. The two foreign keys: SET_NULL from a
  class to its teacher, CASCADE from a student to its class. `Valid(store)`
  holds every guarantee the database gives. Each INSERT, UPDATE and DELETE
  either refuses the row or keeps `Valid`.
- **Representation** (`serializers.dfy`, modules `Serializers` and `Saving`;
  `shapes.dfy`, module `Shapes`). This layer follows the field pipeline a
  serializer runs: presence, null, blank, trimming, length, null characters,
  email syntax,
  unique and reference checks, then the serializer's own `validate_<field>`
  method. Every failing field is reported under its wire name. Wire and
  storage names are mapped (`rollNumber`, `classId`, `teacherId`), and
  reference keys are rendered as strings. The class detail shape nests the
  class's teacher and its students, ordered by name.
- **Views** (`views.dfy`, module `Views`). The query pipeline has four
  steps:
  - ascending-key tables;
  - the bespoke `classId` filter in `get_queryset`;
  - search over the resource's search fields, which refuses a `?search=`
    holding a null character with a 400 (the framework release whose
    `get_object` 404 names the model; earlier releases removed the
    character instead);
  - the equality filters.

  Then page-number pagination (default 10, at most 100) and `get_object`.
  The five viewset actions are modelled, as is the choice of serializer for
  class retrieve. `Handle` runs one request: the permission check first,
  then the action.

Other files hold properties that cover several layers:
- `roundtrip.dfy`: reading a record and writing it back changes nothing.
- `endpoints.dfy`: the client-visible behaviour of the query parameters, of
  lookups and of deletion.
- `refusals.dfy`: the 400s for unique and reference violations.
- `scenarios.dfy`: the API's own test scenarios, restated.
- `findings.dfy`: the roll-number length finding below.

Support modules:
- `results.dfy`: Option and Result.
- `wire.dfy`: JSON values.
- `text.dfy`: Python's `strip`, `int()`, `str()`, substring and the
  search-term split.
- `keys.dfy`: ascending key lists.

Email syntax is not interpreted. It is a parameter `emailOk: string -> bool`
of every operation that validates an email.

Where the code and its description disagree, the model follows the code.
- A store-level refusal (`IntegrityError`, `DataError`) is not turned into a
  400 anywhere in the code, so it is a 500 (`ServerError`). On a valid store
  the model proves that this never happens through the serializers. That
  holds for the roll-number field bounded by its column, which is the field
  the model validates with; with the field as declared, an over-long roll
  number reaches the column (see Findings).
- The custom messages "Name is required.", "Subject is required.", "Roll
  number is required." and "Class name is required." cannot be reached. The
  `CharField` trims the value first and refuses a blank one with "This field
  may not be blank." before the `validate_<field>` method runs. The methods
  are modelled, and the pipeline reaches them only with non-blank input.
- `?classId=` agrees with `?class_assigned=` only for the key of a stored
  class. Any other value differs:
  - `class_assigned` answers 400 "Select a valid choice…";
  - `classId` answers an empty list when the value is an integer, and a 500
    otherwise, because `int()` raises inside `get_queryset`.
- A detail route has two kinds of 404:
  - a key that is not an integer gives "Not found.";
  - an integer key with no row gives "No Teacher matches the given query."
    (and likewise for the other models).
  Detail routes also apply the list filters, so a query parameter can hide a
  row from retrieve, update and delete.

## Model

| member | source | states |
|---|---|---|
| Models.Valid | core/models.py:3-61 | What the tables guarantee: keys below each table's counter, every row within its column widths, teacher emails, class names, roll numbers and student emails each unique, and every teacher and class reference stored |
| Models.InsertTeacher | core/models.py:3-12 | A teacher row is stored exactly when it fits its columns and its email is not held by another teacher; it lands under the next key with nothing else changed, and a valid store stays valid |
| Models.UpdateTeacher | core/models.py:3-12 | Rewriting a teacher succeeds exactly when the new row fits and its email is free among the other teachers; only that row changes and validity is kept |
| Models.InsertClass | core/models.py:22-35 | A class row is stored exactly when its name fits and is unused and its teacher, if any, exists; validity is kept |
| Models.UpdateClass | core/models.py:22-35 | Rewriting a class succeeds exactly when the name fits and is free among the other classes and the teacher reference exists |
| Models.InsertStudent | core/models.py:45-61 | A student row is stored exactly when it fits, its roll number and email are unused among students, and its class exists |
| Models.UpdateStudent | core/models.py:45-61 | Rewriting a student succeeds under the same conditions, the row itself not counting as a clash |
| Models.DeleteTeacher | core/models.py:28-35 | SET_NULL: the teacher goes, every class keeps existing, the classes that named it lose their teacher, all other classes and all students are unchanged |
| Models.DeleteTeacherKeepsValid | core/models.py:28-35 | After a teacher is deleted no class refers to it and the store is valid |
| Models.DeleteClass | core/models.py:56-61 | CASCADE: the class goes with exactly the students that reference it; other students, other classes and all teachers are unchanged |
| Models.DeleteClassKeepsValid | core/models.py:56-61 | Deleting a class keeps every uniqueness rule and every reference valid |
| Models.DeleteStudent | core/models.py:45-61 | Deleting a student removes that row only and keeps validity |
| Text.Trim | core/serializers.py:26-30 | `strip()`: the result is trimmed, no longer than the input, empty exactly when the input is all whitespace, and the input itself when already trimmed |
| Text.TrimSplits | core/serializers.py:26-30 | `strip()` only removes whitespace from the two ends: the input is leading whitespace, then the result, then trailing whitespace |
| Text.TrimKeeps | core/serializers.py:26-30 | `strip()` keeps every character that is not whitespace |
| Text.TrimNulFree | core/serializers.py:26-30 | The stripped value holds a null character exactly when the input does |
| Text.TrimIdempotent | core/serializers.py:26-30 | Stripping an already stripped value changes nothing, so a `validate_<field>` method that strips again keeps the field's value |
| Text.Contains | core/views.py:28-29 | The substring test behind search holds exactly when the term occurs at some position |
| Text.Terms | core/views.py:28-29 | The search parameter splits into non-empty, separator-free terms, and into none exactly when it is all separators |
| Text.TermsSplit | core/views.py:28-29 | The search parameter is the terms woven with runs of separators: separators only between and around them, at least one between two terms |
| Text.SplitUnique | core/views.py:28-29 | Any such weave of the parameter has exactly the terms that `Terms` returns |
| Text.TermsAreRuns | core/views.py:28-29 | A list is the parameter's terms exactly when the parameter splits into it and separator runs, so the terms are the maximal separator-free runs, in order |
| Text.SingleTerm | core/views.py:28-29 | A search parameter without separators is one term, itself |
| Text.ParseInt | core/views.py:45-46 | `int()` on text reads exactly an optional sign followed by one or more ASCII digits; the value's magnitude is the digits' value and it is negative only after a minus sign |
| Text.IntToString | core/serializers.py:64-68 | `str()` of an integer is such a numeral, with a minus sign exactly when the integer is negative and never a plus sign |
| Text.ParseIntOfIntToString | core/serializers.py:64-68 | `int(str(i)) == i` for every integer, negative ones included |
| Text.ParseIntToString | core/serializers.py:64-68 | A key rendered with `str()` reads back through `int()` as the same key |
| Text.NoLaterTotal | core/models.py:63-64 | Name order compares any two names |
| Text.NoLaterAntisymmetric | core/models.py:63-64 | Two names each no later than the other are equal |
| Text.NoLaterTransitive | core/models.py:63-64 | Name order is transitive |
| Keys.IdsBelow | core/views.py:26 | The keys of a table below a bound, in strictly ascending order, each exactly once |
| Keys.FilterIncreasing | core/views.py:36 | Filtering an ascending key list keeps it ascending |
| Keys.IncreasingUnique | core/views.py:52 | Two ascending key lists with the same members are the same list, so `order_by('id')` fixes the order |
| Serializers.ValidateName | core/serializers.py:26-30 | `validate_name` fails with "Name is required." exactly when the value is all whitespace, and otherwise returns the trimmed, non-empty value |
| Serializers.ValidateSubject | core/serializers.py:32-36 | The same rule for the subject, with its own message |
| Serializers.ValidateRollNumber | core/serializers.py:76-80 | The same rule for the roll number, with its own message |
| Serializers.ValidateClassName | core/serializers.py:102-106 | The same rule for the class name, with its own message |
| Serializers.TextField | core/serializers.py:16-24 | One text field: absent is skipped or "required", null and blank are refused unless allowed, a boolean, array or object is refused with "Not a valid string." or, on an email field, "Enter a valid email address.", otherwise the trimmed value is clean exactly when no length, null-character, email or unique rule is broken, and the errors are those rules' messages |
| Serializers.IntTextField | core/serializers.py:16-24 | An integer given to a text field is checked as its `str()`: refused exactly when that text breaks a rule, with those rules' messages, and otherwise kept as that text |
| Serializers.PkField | core/serializers.py:49-53 | A reference field is clean exactly when the key (an integer or its decimal string) names a stored record; a non-numeric string is a type error; an empty string counts as null |
| Serializers.TeacherErrors | core/serializers.py:16-24 | The error map has one entry per rejected teacher field, keyed by the wire name, holding that field's messages |
| Serializers.ValidateTeacher | core/serializers.py:16-36 | A teacher body is valid exactly when no field is rejected, and otherwise every failing field is reported; valid data is trimmed, non-blank and within the column widths, its email is well formed and held by no other teacher, it holds exactly the fields the body supplied, and a full (non-partial) body supplies name, subject and email |
| Serializers.ValidateStudent | core/serializers.py:38-80 | The same for students: `rollNumber` unique, `classId` a stored class, email unique among students only |
| Serializers.ValidateClass | core/serializers.py:82-106 | The same for classes: name unique, `teacherId` optional, null or a stored teacher |
| Saving.CreateTeacher | core/serializers.py:16-24 | On a valid store a create succeeds exactly when the body validates; it stores the validated data under the next key and leaves the other tables alone; failures are field errors |
| Saving.ChangeTeacher | core/serializers.py:16-24 | An update writes the validated fields over the stored teacher, keeping the fields a partial body leaves out, and keeps validity |
| Saving.CreateClass | core/serializers.py:82-100 | A class create succeeds on a valid store exactly when the body validates, stores it under the next key, and never reaches a store refusal |
| Saving.ChangeClass | core/serializers.py:82-100 | A class update writes exactly the validated fields and keeps validity |
| Saving.CreateStudent | core/serializers.py:38-68 | A student create succeeds on a valid store exactly when the body validates and stores the referenced class key |
| Saving.ChangeStudent | core/serializers.py:38-68 | A student update writes exactly the validated fields; a new `classId` moves the student |
| Saving.CreatedTeacherClean | core/serializers.py:16-36 | A created teacher is clean: its text trimmed and free of NUL, name, subject and email non-blank, the email accepted by the email check |
| Saving.ChangedTeacherClean | core/serializers.py:16-36 | Updating a clean teacher leaves it clean |
| Saving.CreatedClassClean | core/serializers.py:82-106 | A created class has a non-blank, trimmed, NUL-free name |
| Saving.ChangedClassClean | core/serializers.py:82-106 | Updating a clean class leaves it clean |
| Saving.CreatedStudentClean | core/serializers.py:38-80 | A created student has a non-blank, trimmed, NUL-free name, roll number and email, the email accepted by the email check |
| Saving.ChangedStudentClean | core/serializers.py:38-80 | Updating a clean student leaves it clean |
| Saving.CreatedTeacherHolds | core/serializers.py:16-24 | A created teacher holds the body's trimmed name, subject and email, and its trimmed phone or none when the phone is absent or null |
| Saving.ChangedTeacherHolds | core/serializers.py:16-24 | An updated teacher holds the trimmed value of every field the body sends and keeps every field it leaves out |
| Saving.CreatedClassHolds | core/serializers.py:82-100 | A created class holds the trimmed name, and the sent teacher key or no teacher when `teacherId` is absent, null or empty |
| Saving.ChangedClassHolds | core/serializers.py:82-100 | An updated class holds the sent name and teacher and keeps what the body leaves out |
| Saving.CreatedStudentHolds | core/serializers.py:38-68 | A created student holds the trimmed name, roll number and email, and the class that `classId` names as an integer or a decimal string |
| Saving.ChangedStudentHolds | core/serializers.py:38-68 | An updated student holds the sent fields, `classId` read as an integer or decimal string, and keeps what the body leaves out |
| Shapes.TeacherShapeWire | core/serializers.py:16-19 | A teacher is shown with exactly the keys id, name, subject, email and phone; the phone is null exactly when there is none |
| Shapes.StudentShapeWire | core/serializers.py:38-68 | A student is shown with exactly id, name, `rollNumber`, email and `classId`, the class key as a string that reads back as the key |
| Shapes.ClassShapeWire | core/serializers.py:82-100 | A class is shown with exactly id, name and `teacherId`, null exactly without a teacher and otherwise a string that reads back as its key |
| Shapes.BriefShapes | core/serializers.py:4-14 | The nested teacher has exactly id, name, subject and email; a nested student has exactly id, name, `roll_number` and email |
| Shapes.DetailExtendsClassShape | core/serializers.py:108-122 | The detail shape has exactly the class shape's id, name and `teacherId`, plus `teacher`, the brief of the class's teacher or null, and `students` |
| Shapes.RefJsonParses | core/serializers.py:96-100 | A rendered reference is a non-empty decimal string that reads back as the key |
| Shapes.SortByName | core/models.py:63-64 | The students of a class are put in name order, as a rearrangement of the same keys |
| Shapes.InsertByName | core/models.py:63-64 | Inserting a student into a name-ordered list keeps it name-ordered and adds exactly that student |
| Shapes.ByNameUnique | core/models.py:63-64 | Two name-ordered lists of the same students are equal, so the nested order is fully determined |
| Shapes.Enrolled | core/serializers.py:113-117 | The nested student keys are stored students of the class, in name order, and (on a store whose keys are below its counter) every student of the class is among them |
| Shapes.StudentBriefs | core/serializers.py:10-14 | Each nested student is shown as id, name, `roll_number` and email, in list order |
| Shapes.DetailListsClassStudents | core/serializers.py:108-122 | The detail shape lists every student of the class exactly once, nothing else, each in its brief shape |
| Views.Table | core/views.py:26 | A table's keys are ascending, and on a valid store they are exactly its rows |
| Views.FilterSet | core/views.py:30-55 | `?subject=` is stripped, no filter when blank, a 400 "Null characters are not allowed." under `subject` when it holds one, and otherwise selects that subject; classes filter on `teacher`, students on `class_assigned` |
| Views.ChoiceOf | core/views.py:55 | A model-choice filter is absent when empty, keeps rows with that reference for a stored key, and is a 400 under the parameter's name otherwise |
| Views.ClassIdScope | core/views.py:43-47 | A non-empty `classId` keeps exactly the students whose class key equals its integer value, in order; a non-integer raises (500) |
| Views.Search | core/views.py:29 | Search keeps exactly the rows in which every term occurs in some search field, in order, and keeps everything when there are no terms |
| Views.Restrict | core/views.py:30 | The equality filter keeps exactly the rows it selects, in order |
| Views.Rows | core/views.py:43-47 | The rows before search and filtering are ascending, stored and in the `classId` class when one is given; on a valid store every such row is there; a non-integer `classId` on students is a 500 |
| Views.ScopeSelects | core/views.py:24-56 | On a valid store, a row is in a successful queryset exactly when it is stored, matches the search, passes the equality filter and, for students, is in the `classId` class |
| Views.Scope | core/views.py:24-56 | The queryset is ascending and stored; it fails with 500 exactly for a non-integer `classId` on students, otherwise with a 400 listing "Null characters are not allowed." exactly when `?search=` holds a null character, and otherwise with the filter's 400 |
| Views.PageSize | core/views.py:18-21 | The page size is the requested positive `page_size` capped at 100, and 10 when absent or unusable |
| Views.NumPages | core/views.py:18-21 | The page count is at least one and is the least count of pages that holds every row |
| Views.PageNumber | core/views.py:18-21 | Empty means page 1, `last` the last page, an integer must be an existing page, anything else is invalid |
| Views.PagePosition | core/views.py:18-21 | Row i is on page i / size + 1 at position i mod size: every row is on exactly one page, in order |
| Views.PageSizes | core/views.py:18-21 | Every page but the last is full and the last holds the remainder |
| Views.NextMeansMore | core/views.py:18-21 | There is a next page exactly when rows remain after this one |
| Views.Paginate | core/views.py:18-21 | An invalid page is a 404 "Invalid page."; a valid one yields the window of rows for that page |
| Views.PageAt | core/views.py:18-21 | A page reports the total count, this page's rows in order, a next link exactly when rows remain, and a previous link exactly after page 1 |
| Views.ListPage | core/views.py:24-56 | `list` answers the page of the queryset or the error that built it, and is a 500 exactly for a non-integer `classId` |
| Views.Locate | core/views.py:43-47 | Lookup answers a row of the queryset whose key the path names; a non-integer key is "Not found.", an unmatched integer names the model |
| Views.CreateTeacherIn | core/views.py:24-31 | `POST /teachers/` answers 201, 400 or 500; only a 201 changes the store; on a valid store it keeps validity, is never a 500, and a 201 shows the new teacher under a key that was free |
| Views.CreateClassIn | core/views.py:50-56 | `POST /classes/` answers the same way, a 201 showing the new class with its teacher key as a string |
| Views.CreateStudentIn | core/views.py:34-41 | `POST /students/` answers the same way, a 201 showing the new student with `rollNumber` and a string `classId` |
| Views.UpdateTeacherIn | core/views.py:24-31 | `PUT`/`PATCH` of a teacher answers 200, 400 or 500; only a 200 changes the store; on a valid store it keeps validity and is never a 500, and a 200 shows the teacher as stored |
| Views.UpdateClassIn | core/views.py:50-56 | The same for a class |
| Views.UpdateStudentIn | core/views.py:34-41 | The same for a student |
| Views.DestroyIn | core/views.py:24-31 | `destroy` removes the row with its referential actions and keeps validity |
| Views.RetrieveAt | core/views.py:58-61 | `retrieve` answers the located row, a class in the detail shape and everything else in the standard shape |
| Views.UpdateAt | core/views.py:24-31 | Update by key: a failed lookup answers its error and changes nothing; on a valid store a 500 only comes from a bad `classId` |
| Views.DestroyAt | core/views.py:24-31 | Delete by key: a failed lookup changes nothing; otherwise 204 after the delete |
| Views.Handle | core/views.py:25 | Without authentication every request is 401 and changes nothing; reads never change the store; a non-success answer changes nothing; validity is kept; on a valid store a 500 only comes from a bad `classId` |
| Endpoints.SubjectSelects | core/views.py:30 | On a valid store `?subject=X` lists exactly the teachers whose subject is X stripped |
| Endpoints.BlankSubjectListsAll | core/views.py:30 | A blank `?subject=` lists every teacher |
| Endpoints.NulSubjectRefused | core/views.py:30 | A `?subject=` holding a null character is a 400 under `subject` |
| Endpoints.ClassIdSelects | core/views.py:43-47 | With an integer `classId` and no other selection, the student list holds exactly the students of that class |
| Endpoints.ClassAssignedSelects | core/views.py:41 | With a stored class in `class_assigned` and no other selection, the student list holds exactly the students of that class |
| Endpoints.ByClassId | core/views.py:43-47 | `?classId=<key>` of a stored class lists exactly its students |
| Endpoints.ByClassAssigned | core/views.py:41 | `?class_assigned=<key>` of a stored class lists exactly its students |
| Endpoints.ClassIdAgreesWithFilter | core/views.py:41-47 | For a stored class, `?classId=` and `?class_assigned=` select the same students |
| Endpoints.ClassIdDiverges | core/views.py:41-47 | For any other value, `class_assigned` is a 400 while `classId` is an empty list or a 500 |
| Endpoints.OneWordSearch | core/views.py:29 | A one-word search without a null character keeps exactly the stored rows with the word in one of their search fields |
| Endpoints.NulSearchRefused | core/views.py:28-29 | A `?search=` holding a null character is a 400 listing "Null characters are not allowed.", for the queryset and for `list` |
| Endpoints.LocateStored | core/views.py:24-56 | The rendered key of a stored row locates that row |
| Endpoints.RetrieveShape | core/views.py:58-61 | Retrieving a stored row answers it in the detail shape for classes and the standard shape otherwise |
| Endpoints.MissingRowNotFound | core/views.py:24-32 | A key naming no row is a 404, plain for a non-integer key, naming the model for an integer one |
| Endpoints.DeletingTeacherKeepsClasses | core/models.py:28-35 | `DELETE` of a teacher answers 204, keeps every class and student, and leaves no class referring to it |
| Endpoints.DeletingClassDropsStudents | core/models.py:56-61 | `DELETE` of a class answers 204 and removes exactly its students |
| RoundTrips.TextFieldKeeps | core/serializers.py:16-24 | A trimmed value that breaks no rule is cleaned to itself |
| RoundTrips.PkFieldKeeps | core/serializers.py:49-53 | A rendered stored key is read back as the same reference |
| RoundTrips.TeacherPutBack | core/serializers.py:16-24 | Reading a clean teacher and sending it back as PUT or PATCH leaves the store exactly as it was |
| RoundTrips.StudentPutBack | core/serializers.py:38-68 | The same for students, through the `rollNumber` and `classId` renamings and the string key |
| RoundTrips.ClassPutBack | core/serializers.py:82-100 | The same for classes, through `teacherId` and a null teacher |
| Refusals.TakenTeacherEmailRefused | core/models.py:6 | A teacher whose email is another teacher's is refused under `email` and nothing is stored |
| Refusals.TakenClassNameRefused | core/models.py:23-27 | A class whose name is another class's is refused under `name` and nothing is stored |
| Refusals.TakenStudentEmailRefused | core/models.py:52-55 | A student whose email is another student's is refused under `email` |
| Refusals.UnknownClassRefused | core/serializers.py:49-53 | A student create naming no stored class is refused under `classId` and nothing is stored |
| Refusals.UnknownClassKeepsStudent | core/serializers.py:49-53 | A student update naming no stored class is refused and the student keeps its class |
| Refusals.NulTextRejected | core/serializers.py:16-24 | A text value holding a null character is refused with "Null characters are not allowed." |
| Refusals.NonTextTeacherEmailRefused | core/models.py:6 | A teacher email given as a boolean, array or object is a 400 with exactly "Enter a valid email address." under `email`, and nothing is stored |
| Refusals.NonTextStudentEmailRefused | core/models.py:52-55 | The same for a student email |
| Refusals.UnknownTeacherRefused | core/serializers.py:83-89 | A class naming no stored teacher is refused under `teacherId` |
| Scenarios.ClassDetailScenario | core/tests/test_views.py:59-65 | The fixture class's detail names the class and its teacher and lists its one student |
| Scenarios.CreateTeacherScenario | core/tests/test_views.py:47-57 | Creating Jane Smith stores a second teacher under key 2 |
| Scenarios.CreateStudentScenario | core/tests/test_views.py:67-78 | Creating Bob Johnson in the fixture class stores a second student there |
| Scenarios.PatchPhoneScenario | core/tests/test_views.py:80-86 | Patching the phone sets it and leaves name, subject and email as they were |
| Scenarios.DeleteStudentScenario | core/tests/test_views.py:88-92 | Deleting the only student answers 204 and leaves no student |
| Scenarios.InvalidTeacherScenario | core/tests/test_views.py:94-101 | A blank name, a blank subject and a malformed email give errors under exactly those three keys, and nothing is stored |
| Scenarios.DuplicateRollScenario | core/tests/test_views.py:103-121 | A taken roll number is refused under `rollNumber` with its message and nothing is stored |
| Scenarios.ClassWithoutTeacherScenario | core/tests/test_views.py:123-128 | A class created without `teacherId` is stored with no teacher |
| Scenarios.NonexistentTeacherScenario | core/tests/test_views.py:136-139 | Teacher 999 is a 404 naming the model |
| Scenarios.MoveWrites | core/serializers.py:49-68 | A partial update that validates to a class change alone writes just that class and answers it as a string |
| Scenarios.MoveStudentScenario | core/tests/test_views.py:147-154 | Patching `classId` moves the student to the new class, shown as the string "2" |
| Scenarios.PaginationScenario | core/tests/test_views.py:156-175 | Sixteen rows make a first page of 10 with a next link and a second page of 6 with a previous link |
| Findings.LongRollSlipsThrough | core/serializers.py:39-48 | As declared, a 51-character roll number passes the field, while the table refuses any row that carries it |
| Findings.AsWrittenAcceptsLong | core/serializers.py:39-48 | As declared, the roll-number field accepts any trimmed, unused, null-free roll number of any length |
| Findings.BoundedRejectsLong | core/models.py:47-50 | Bounded by its column, the field refuses an over-long roll number with the length message, followed by the null-character message when it holds one |
| Findings.BoundedMatchesColumn | core/models.py:47-50 | The bounded field accepts a trimmed, unused roll number exactly when the column can hold it and it holds no null character |
| Findings.LongRollIsFieldError | core/models.py:47-50 | With the bounded field, a create with an over-long roll number is a 400 under `rollNumber`, never a store refusal |

## Left out

- Authentication is a boolean on the request: whether the bearer token verified. Token issuance, refresh and signature checks are JWT plumbing outside this core.
- Routing, URL configuration, the schema pages and the admin site have no logic of their own. A detail route's path segment is given to the model as the `key` string.
- Email syntax is the parameter `emailOk`. Django's email validator is a large regular expression that is not part of this model.
- Search compares strings case-sensitively. The database's `icontains` folds case, and Unicode case folding is not modelled.
- Search terms split on whitespace and commas only. The quoted-phrase handling of newer framework versions is not modelled.
- `ParseInt` reads an optional sign and ASCII digits. Python's `int()` also accepts surrounding whitespace, underscores between digits and non-ASCII digits; these inputs are treated as non-integers.
- The `next` and `previous` links are page numbers rather than absolute URLs. The URL text depends on the request host.
- Transactions, concurrency and races on unique columns are not modelled. Each request is one atomic step on an immutable store.
- Request bodies that are not JSON objects, form-encoded bodies and content negotiation are not modelled. A body is a map from field names to JSON values without fractions: null, booleans, integers, strings, arrays and objects.
- `Meta.ordering`, `verbose_name`, `__str__` and `help_text` are left out. They are display metadata, and the views' `order_by('id')` overrides them for lists. The name ordering is kept where it matters: the nested students of the class detail.
- Serializers.ValidateStudent: `rollNumber` is validated with the field bounded by its 50-character column (`Serializers.RollNumberSpec`), the corrected half of the finding below; with the field as declared a longer roll number passes validation.
- Saving.CreateStudent: "succeeds exactly when the body validates" holds for the bounded `rollNumber` field; with the field as declared a longer roll number validates and the store refuses the row.
- Saving.ChangeStudent: the same; with the declared field an over-long roll number validates and the update is refused by the store.
- Views.CreateStudentIn: "never a 500 on a valid store" holds for the bounded `rollNumber` field; as declared, an over-long roll number is a 500 where the database enforces column widths (see `Findings.LongRollSlipsThrough`).
- Views.UpdateStudentIn: the same as `Views.CreateStudentIn`, for `PUT` and `PATCH`.
- Views.UpdateAt: "a 500 only comes from a bad `classId`" holds for the bounded `rollNumber` field; as declared, an over-long roll number is a second source of 500s.
- Views.Handle: the same as `Views.UpdateAt`, for every request.
- Shapes.SortByName: `ORDER BY name` compares by the database's collation (the locale on PostgreSQL) and leaves equal names in an order the database chooses; the model compares by code point and breaks ties by key.
- Serializers.TextField: the surrogate-character check of the framework's text field is not modelled; a Dafny `char` is a Unicode scalar value, so a lone surrogate cannot occur.
- Serializers.TextField: JSON numbers with a fraction or an exponent are not modelled. The framework's text field accepts such a float and keeps Python's `str()` of it (`{"name": 1.5}` stores "1.5"), which depends on the shortest decimal form of an IEEE 754 double.
- Serializers.PkField: a float reference is not modelled either; the framework passes it to the database lookup unchanged.
- Keys are unbounded naturals, and the 64-bit limit of the database's integer keys is not modelled.
- The search test (`?search=Jane`, `?search=Chemistry`) is not restated with concrete strings. `Endpoints.OneWordSearch` states the same property for any store and word.

## Findings

| source | as written | input that shows it | evidently intended | confidence | as-written member | corrected member |
|---|---|---|---|---|---|---|
| core/serializers.py:39-48 | `rollNumber` is declared as an explicit `CharField` with only the unique validator, which drops the model field's `max_length=50` | a student body with a 51-character roll number (`LongRoll`) and otherwise valid fields | the field refuses the value with "Ensure this field has no more than 50 characters." as a 400 under `rollNumber`, like every other column width | not executed | Findings.LongRollSlipsThrough | Findings.LongRollIsFieldError |

The model validates roll numbers with the bounded field (`Serializers.RollNumberSpec`), so on a valid store no create or update reaches a store refusal. With the field as declared (`Serializers.RollNumberSpecAsWritten`), the over-long value passes validation and only the 50-character column refuses it. On a database that enforces column widths this is an unhandled error, a 500. On SQLite, which does not enforce them, the value is stored.

=== FILE: endpoints.dfy ===
/** Properties of the endpoints as a client sees them: what the `classId`
    shortcut and the `class_assigned` filter have in common and where they
    part, what a one-word search keeps, which shape `retrieve` answers in,
    the two kinds of 404, and deletion through a request. */
module Endpoints {
  import opened Results
  import opened Text
  import opened Wire
  import opened Models
  import opened Keys
  import opened Serializers
  import opened Shapes
  import opened Views

  /** A query whose `classId` reads as `c`, with no `class_assigned` and no
      search terms, lists exactly the students of class `c`. */
  lemma ClassIdSelects(s: Store, q: Query, c: Id, k: Id)
    requires Valid(s)
    requires Param(q, "classId") != "" && ParseInt(Param(q, "classId")) == Some(c)
    requires Param(q, "class_assigned") == "" && Terms(Param(q, "search")) == []
    ensures Scope(s, Students, q).Success?
    ensures k in Scope(s, Students, q).value <==> k in s.students && s.students[k].classAssigned == c
  {
    assert FilterSet(s, Students, q) == Success(Everything);
    ScopeSelects(s, Students, q, Everything, k);
  }

  /** A query whose `class_assigned` reads as a stored class `c`, with no
      `classId` and no search terms, lists exactly the students of `c`. */
  lemma ClassAssignedSelects(s: Store, q: Query, c: Id, k: Id)
    requires Valid(s) && c in s.classes
    requires Param(q, "class_assigned") != "" && ParseInt(Param(q, "class_assigned")) == Some(c)
    requires Param(q, "classId") == "" && Terms(Param(q, "search")) == []
    ensures Scope(s, Students, q).Success?
    ensures k in Scope(s, Students, q).value <==> k in s.students && s.students[k].classAssigned == c
  {
    assert FilterSet(s, Students, q) == Success(ByRef(c));
    ScopeSelects(s, Students, q, ByRef(c), k);
  }

  /** `?subject=<x>` lists exactly the teachers whose subject is `x`
      trimmed. */
  lemma SubjectSelects(s: Store, x: string, k: Id)
    requires Valid(s) && !AllSpace(x) && NulFree(x)
    ensures var q := map["subject" := x];
      && Scope(s, Teachers, q).Success?
      && (k in Scope(s, Teachers, q).value <==> k in s.teachers && s.teachers[k].subject == Trim(x))
  {
    var q := map["subject" := x];
    assert Param(q, "subject") == x && Param(q, "search") == "";
    var n := FilterSet(s, Teachers, q);
    assert n == Success(BySubject(Trim(x)));
    ScopeSelects(s, Teachers, q, BySubject(Trim(x)), k);
  }

  /** A blank `?subject=` filters nothing: every teacher is listed. */
  lemma BlankSubjectListsAll(s: Store, x: string, k: Id)
    requires Valid(s) && AllSpace(x)
    ensures var q := map["subject" := x];
      && Scope(s, Teachers, q).Success?
      && (k in Scope(s, Teachers, q).value <==> k in s.teachers)
  {
    var q := map["subject" := x];
    assert Param(q, "subject") == x && Param(q, "search") == "";
    ScopeSelects(s, Teachers, q, Everything, k);
  }

  /** A `?subject=` holding a NUL is a 400 naming `subject`. */
  lemma NulSubjectRefused(s: Store, x: string)
    requires !NulFree(x)
    ensures Scope(s, Teachers, map["subject" := x]) == Failure(BadRequest(map["subject" := [NulCharMsg]]))
  {
    var q := map["subject" := x];
    assert Param(q, "subject") == x;
  }

  /** `?classId=<id>` for a stored class lists exactly its students. */
  lemma ByClassId(s: Store, c: Id, k: Id)
    requires Valid(s) && c in s.classes
    ensures var q := map["classId" := NatToString(c)];
      && Scope(s, Students, q).Success?
      && (k in Scope(s, Students, q).value <==> k in s.students && s.students[k].classAssigned == c)
  {
    var q := map["classId" := NatToString(c)];
    ParseIntToString(c);
    assert Param(q, "class_assigned") == "" && Param(q, "search") == "";
    ClassIdSelects(s, q, c, k);
  }

  /** `?class_assigned=<id>` for a stored class lists exactly its students. */
  lemma ByClassAssigned(s: Store, c: Id, k: Id)
    requires Valid(s) && c in s.classes
    ensures var q := map["class_assigned" := NatToString(c)];
      && Scope(s, Students, q).Success?
      && (k in Scope(s, Students, q).value <==> k in s.students && s.students[k].classAssigned == c)
  {
    var q := map["class_assigned" := NatToString(c)];
    ParseIntToString(c);
    assert Param(q, "classId") == "" && Param(q, "search") == "";
    ClassAssignedSelects(s, q, c, k);
  }

  /** For a stored class, `?classId=<id>` and `?class_assigned=<id>` list
      the same students (both lists are in key order, so they are equal
      as lists too). */
  lemma ClassIdAgreesWithFilter(s: Store, c: Id, k: Id)
    requires Valid(s) && c in s.classes
    ensures var byShortcut := map["classId" := NatToString(c)];
      var byFilter := map["class_assigned" := NatToString(c)];
      && Scope(s, Students, byShortcut).Success? && Scope(s, Students, byFilter).Success?
      && (k in Scope(s, Students, byShortcut).value <==> k in Scope(s, Students, byFilter).value)
  {
    ByClassId(s, c, k);
    ByClassAssigned(s, c, k);
  }

  /** For anything that is not the key of a stored class, the filter is a
      400 naming the parameter, while the shortcut either raises (500) or
      lists nobody. */
  lemma ClassIdDiverges(s: Store, v: string)
    requires Valid(s) && v != []
    requires ParseInt(v).None? || ParseInt(v).value < 0 || ParseInt(v).value !in s.classes
    ensures Scope(s, Students, map["class_assigned" := v])
      == Failure(BadRequest(map["class_assigned" := [InvalidChoiceMsg]]))
    ensures ParseInt(v).None? ==> Scope(s, Students, map["classId" := v]) == Failure(ServerError)
    ensures ParseInt(v).Some? ==> Scope(s, Students, map["classId" := v]) == Success([])
  {
    var q1 := map["classId" := v];
    var q2 := map["class_assigned" := v];
    assert Param(q2, "class_assigned") == v && Param(q2, "classId") == "";
    assert Param(q1, "classId") == v;
    if ParseInt(v).Some? {
      assert FilterSet(s, Students, q1) == Success(Everything) by {
        assert Param(q1, "class_assigned") == "";
      }
      var r := Scope(s, Students, q1).value;
      if r != [] {
        ScopeSelects(s, Students, q1, Everything, r[0]);
        assert false;
      }
    }
  }

  lemma MatchesOne(fields: seq<string>, t: string)
    ensures MatchesAll(fields, [t]) <==> AnyContains(fields, t)
  {
    assert [t][0] == t;
  }

  /** A search for one word keeps exactly the rows that have the word in
      one of their search fields. */
  lemma OneWordSearch(s: Store, res: Resource, t: string, k: Id)
    requires Valid(s) && t != [] && NoSeparator(t) && NulFree(t)
    ensures Scope(s, res, map["search" := t]).Success?
    ensures k in Scope(s, res, map["search" := t]).value <==>
      (Exists(s, res, k) && AnyContains(SearchText(s, res, k), t))
  {
    var q := map["search" := t];
    SingleTerm(t);
    assert Param(q, "search") == t;
    assert Param(q, "classId") == "";
    assert Param(q, "subject") == "" && Param(q, "teacher") == "" && Param(q, "class_assigned") == "";
    if Exists(s, res, k) {
      MatchesOne(SearchText(s, res, k), t);
      assert Found(s, res, q, k) <==> AnyContains(SearchText(s, res, k), t);
    }
    match res
    case Teachers => ScopeSelects(s, Teachers, q, Everything, k);
    case Classes => ScopeSelects(s, Classes, q, Everything, k);
    case Students => ScopeSelects(s, Students, q, Everything, k);
  }

  /** A `?search=` holding a NUL, even amid whitespace, is a 400 whose body
      is the null-character message alone, whatever the store holds. */
  lemma NulSearchRefused(s: Store, res: Resource, x: string)
    requires !NulFree(x)
    ensures Scope(s, res, map["search" := x]) == Failure(BadQuery([NulCharMsg]))
    ensures ListPage(s, res, map["search" := x]) == BadQuery([NulCharMsg])
  {
    var q := map["search" := x];
    assert Param(q, "search") == x && Param(q, "classId") == "";
  }

  /** With no parameters, every stored row is in the scope. */
  lemma PlainScope(s: Store, res: Resource, k: Id)
    requires Valid(s)
    ensures Scope(s, res, map[]).Success?
    ensures k in Scope(s, res, map[]).value <==> Exists(s, res, k)
  {
    var q: Query := map[];
    assert Terms(Param(q, "search")) == [];
    assert Param(q, "subject") == "";
    ScopeSelects(s, res, q, Everything, k);
  }

  /** The key a stored row is rendered with locates that row. */
  lemma LocateStored(s: Store, res: Resource, id: Id)
    requires Valid(s) && Exists(s, res, id)
    ensures Locate(s, res, NatToString(id), map[]) == Success(id)
  {
    ParseIntToString(id);
    match res
    case Teachers => PlainScope(s, Teachers, id);
    case Classes => PlainScope(s, Classes, id);
    case Students => PlainScope(s, Students, id);
  }

  /** `GET /<resource>/<id>/` of a stored row answers with the row, a class
      in its detail shape and the others in their standard shape. */
  lemma RetrieveShape(s: Store, res: Resource, id: Id)
    requires Valid(s) && Exists(s, res, id)
    ensures RetrieveAt(s, res, NatToString(id), map[]) == Ok(RenderBody(s, res, id, true))
    ensures res.Classes? ==> RenderBody(s, res, id, true) == ClassDetailShape(s, id, s.classes[id])
    ensures res.Students? ==> RenderBody(s, res, id, true) == StudentShape(id, s.students[id])
    ensures res.Teachers? ==> RenderBody(s, res, id, true) == TeacherShape(id, s.teachers[id])
  {
    LocateStored(s, res, id);
  }

  /** A key that is an integer but names no row is a 404 naming the model;
      a key that is not an integer is a plain 404. */
  lemma MissingRowNotFound(s: Store, res: Resource, key: string)
    requires Valid(s)
    requires ParseInt(key).None? || ParseInt(key).value < 0 || !Exists(s, res, ParseInt(key).value)
    ensures ParseInt(key).None? ==> Locate(s, res, key, map[]) == Failure(NotFound(NotFoundMsg))
    ensures ParseInt(key).Some? ==> Locate(s, res, key, map[]) == Failure(NotFound(NoMatchMsg(res)))
  {
    if ParseInt(key).Some? && ParseInt(key).value >= 0 {
      PlainScope(s, res, ParseInt(key).value);
    } else {
      PlainScope(s, res, 0);
    }
  }

  /** `DELETE` of a teacher keeps its classes, now without a teacher. */
  lemma DeletingTeacherKeepsClasses(s: Store, id: Id)
    requires Valid(s) && id in s.teachers
    ensures var (s', r) := DestroyAt(s, Teachers, NatToString(id), map[]);
      && r == NoContent && id !in s'.teachers && Valid(s')
      && s'.classes.Keys == s.classes.Keys && s'.students == s.students
      && forall c :: c in s'.classes ==> s'.classes[c].teacher != Some(id)
  {
    LocateStored(s, Teachers, id);
    DeleteTeacherKeepsValid(s, id);
  }

  /** `DELETE` of a class takes its students with it, and only them. */
  lemma DeletingClassDropsStudents(s: Store, id: Id)
    requires Valid(s) && id in s.classes
    ensures var (s', r) := DestroyAt(s, Classes, NatToString(id), map[]);
      && r == NoContent && id !in s'.classes && Valid(s')
      && s'.teachers == s.teachers
      && forall k :: k in s'.students <==> k in s.students && s.students[k].classAssigned != id
  {
    LocateStored(s, Classes, id);
  }
}

=== FILE: findings.dfy ===
/** The roll-number field and its column: as declared, the serializer field
    has no maximum length, so an over-long roll number passes validation and
    only the table refuses it; bounded by the column width, the field
    refuses it itself, with a field error. */
module Findings {
  import opened Results
  import opened Text
  import opened Wire
  import opened Models
  import opened Serializers
  import opened Saving
  import opened RoundTrips

  /** A roll number one character wider than its column. */
  const LongRoll: string := seq(RollNumberMax + 1, _ => 'S')

  lemma LongRollShape()
    ensures LongRoll != [] && Trimmed(LongRoll) && NulFree(LongRoll) && |LongRoll| == 51
  {
    assert LongRoll[0] == 'S' && LongRoll[|LongRoll| - 1] == 'S';
    assert forall i :: 0 <= i < |LongRoll| ==> LongRoll[i] == 'S';
  }

  /** As declared: any non-blank, trimmed, unused roll number without a
      NUL is accepted by the field, however long. */
  lemma AsWrittenAcceptsLong(x: string, partial: bool, taken: set<string>, emailOk: string -> bool)
    requires x != [] && Trimmed(x) && NulFree(x) && x !in taken
    ensures TextField(Some(JStr(x)), RollNumberSpecAsWritten, partial, taken, emailOk) == Clean(Some(x))
  {
    TextFieldKeeps(x, RollNumberSpecAsWritten, partial, taken, emailOk);
  }

  /** The discrepancy on a concrete input: the 51-character roll number
      passes the field as declared, while the table refuses any row
      carrying it, whatever the rest of the row. */
  lemma LongRollSlipsThrough(s: Store, name: string, email: string, c: Id, emailOk: string -> bool)
    ensures TextField(Some(JStr(LongRoll)), RollNumberSpecAsWritten, false, {}, emailOk) == Clean(Some(LongRoll))
    ensures InsertStudent(s, Student(name, LongRoll, email, c)).Failure?
  {
    LongRollShape();
    AsWrittenAcceptsLong(LongRoll, false, {}, emailOk);
  }

  /** Bounded by the column: an over-long roll number is a field error
      naming the limit, followed by the null-character message when it
      holds a NUL. */
  lemma BoundedRejectsLong(x: string, partial: bool, taken: set<string>, emailOk: string -> bool)
    requires x != [] && Trimmed(x) && x !in taken && |x| > RollNumberMax
    ensures TextField(Some(JStr(x)), RollNumberSpec, partial, taken, emailOk)
      == Rejected([MaxLengthMsg(RollNumberMax)] + (if NulFree(x) then [] else [NulCharMsg]))
  {
    assert !IsSpace(x[0]);
    assert Trim(x) == x;
  }

  /** The bounded field accepts exactly what the column can hold: a
      trimmed, unused roll number is clean if and only if it fits and has
      no NUL. */
  lemma BoundedMatchesColumn(x: string, partial: bool, taken: set<string>, emailOk: string -> bool)
    requires x != [] && Trimmed(x) && x !in taken
    ensures TextField(Some(JStr(x)), RollNumberSpec, partial, taken, emailOk).Clean? <==>
      |x| <= RollNumberMax && NulFree(x)
  {
    if |x| > RollNumberMax {
      BoundedRejectsLong(x, partial, taken, emailOk);
    } else if NulFree(x) {
      TextFieldKeeps(x, RollNumberSpec, partial, taken, emailOk);
    } else {
      assert !IsSpace(x[0]);
      assert Trim(x) == x;
    }
  }

  /** With the bounded field, a student create carrying the long roll number
      is a 400 naming `rollNumber`, never a store refusal. */
  lemma LongRollIsFieldError(s: Store, body: Body, emailOk: string -> bool)
    requires Valid(s) && Get(body, "rollNumber") == Some(JStr(LongRoll))
    ensures var v := ValidateStudent(s, body, false, None, emailOk);
      && v.Failure? && "rollNumber" in v.error
      && MaxLengthMsg(RollNumberMax) in v.error["rollNumber"]
    ensures CreateStudent(s, body, emailOk).Failure? && CreateStudent(s, body, emailOk).error.Invalid?
  {
    LongRollShape();
    var taken := RollNumbers(s, None);
    var f := TextField(Some(JStr(LongRoll)), RollNumberSpec, false, taken, emailOk);
    assert f.Rejected? && MaxLengthMsg(RollNumberMax) in f.messages by {
      assert !IsSpace(LongRoll[0]);
      assert Trim(LongRoll) == LongRoll;
    }
    assert CleanStudentFields(s, body, false, None, emailOk).rollNumber == f;
  }
}

=== FILE: keys.dfy ===
/** Ordered key lists: the ascending-id order every list endpoint uses, and
    order-preserving filtering of such lists. */
module Keys {

  /** Strictly ascending, hence also free of duplicates. */
  predicate Increasing(xs: seq<nat>) {
    forall i, j :: 0 <= i < j < |xs| ==> xs[i] < xs[j]
  }

  /** The keys of `m` below `n`, in ascending order. */
  function IdsBelow<V>(m: map<nat, V>, n: nat): (r: seq<nat>)
    ensures Increasing(r)
    ensures forall k :: k in r <==> k in m && k < n
    ensures forall i :: 0 <= i < |r| ==> r[i] < n
  {
    if n == 0 then
      []
    else
      var r := IdsBelow(m, n - 1);
      if n - 1 in m then r + [n - 1] else r
  }

  /** The elements of `xs` that satisfy `p`, in their original order. */
  function Filter(xs: seq<nat>, p: nat -> bool): (r: seq<nat>)
    ensures forall x :: x in r <==> x in xs && p(x)
    ensures |r| <= |xs|
  {
    if xs == [] then
      []
    else
      var rest := Filter(xs[1..], p);
      assert forall x :: x in xs <==> x == xs[0] || x in xs[1..];
      if p(xs[0]) then [xs[0]] + rest else rest
  }

  /** Filtering keeps ascending order. */
  lemma {:induction false} FilterIncreasing(xs: seq<nat>, p: nat -> bool)
    requires Increasing(xs)
    ensures Increasing(Filter(xs, p))
  {
    if xs != [] {
      var rest := Filter(xs[1..], p);
      assert Increasing(xs[1..]);
      FilterIncreasing(xs[1..], p);
      if p(xs[0]) {
        forall j | 0 <= j < |rest|
          ensures xs[0] < rest[j]
        {
          assert rest[j] in xs[1..];
        }
        var r := [xs[0]] + rest;
        forall i, j | 0 <= i < j < |r|
          ensures r[i] < r[j]
        {
          if i > 0 {
            assert r[i] == rest[i - 1] && r[j] == rest[j - 1];
          }
        }
      }
    }
  }

  lemma NonEmptyHasHead(xs: seq<nat>)
    ensures xs == [] || xs[0] in xs
  {
  }

  /** In an ascending list, membership fixes the position, so two ascending
      lists with the same elements are equal. */
  lemma {:induction false} IncreasingUnique(xs: seq<nat>, ys: seq<nat>)
    requires Increasing(xs) && Increasing(ys)
    requires forall x :: x in xs <==> x in ys
    ensures xs == ys
  {
    if xs == [] || ys == [] {
      NonEmptyHasHead(xs);
      NonEmptyHasHead(ys);
    } else {
      assert xs[0] in ys;
      var i :| 0 <= i < |ys| && ys[i] == xs[0];
      assert ys[0] in xs;
      var j :| 0 <= j < |xs| && xs[j] == ys[0];
      assert ys[0] <= ys[i] && xs[0] <= xs[j];
      forall x
        ensures x in xs[1..] <==> x in ys[1..]
      {
        if x in xs[1..] {
          assert x in xs && x != ys[0];
          var k :| 0 <= k < |ys| && ys[k] == x;
          assert ys[1..][k - 1] == x;
        }
        if x in ys[1..] {
          assert x in ys && x != xs[0];
          var k :| 0 <= k < |xs| && xs[k] == x;
          assert xs[1..][k - 1] == x;
        }
      }
      assert Increasing(xs[1..]) && Increasing(ys[1..]);
      IncreasingUnique(xs[1..], ys[1..]);
      assert xs == [xs[0]] + xs[1..];
      assert ys == [ys[0]] + ys[1..];
    }
  }
}

=== FILE: models.dfy ===
/** The storage schema: the three record kinds, the store that holds them,
    the constraints the database enforces (column lengths, uniqueness,
    foreign keys) and the referential actions run on delete. */
module Models {
  import opened Results

  /** A surrogate primary key. Keys start at 1 and are never reused. */
  type Id = nat

  datatype Teacher = Teacher(name: string, subject: string, email: string, phone: Option<string>)

  /** `teacher` is the nullable foreign key to Teacher. */
  datatype SchoolClass = SchoolClass(name: string, teacher: Option<Id>)

  /** `classAssigned` is the mandatory foreign key to SchoolClass. */
  datatype Student = Student(name: string, rollNumber: string, email: string, classAssigned: Id)

  /** One table per record kind, each with the key its next insert gets. */
  datatype Store = Store(
    teachers: map<Id, Teacher>,
    classes: map<Id, SchoolClass>,
    students: map<Id, Student>,
    nextTeacher: Id,
    nextClass: Id,
    nextStudent: Id)

  const EmptyStore: Store := Store(map[], map[], map[], 1, 1, 1)

  // Column widths, as declared by `max_length`; an EmailField is 254 wide
  // unless declared otherwise.
  const NameMax: nat := 100
  const SubjectMax: nat := 100
  const EmailMax: nat := 254
  const PhoneMax: nat := 20
  const ClassNameMax: nat := 100
  const RollNumberMax: nat := 50

  predicate TeacherFits(t: Teacher) {
    && |t.name| <= NameMax
    && |t.subject| <= SubjectMax
    && |t.email| <= EmailMax
    && (t.phone.None? || |t.phone.value| <= PhoneMax)
  }

  predicate ClassFits(c: SchoolClass) {
    |c.name| <= ClassNameMax
  }

  predicate StudentFits(s: Student) {
    && |s.name| <= NameMax
    && |s.rollNumber| <= RollNumberMax
    && |s.email| <= EmailMax
  }

  predicate KeysBelow<V>(m: map<Id, V>, next: Id) {
    forall k :: k in m ==> 1 <= k < next
  }

  // The unique constraints. Each is scoped to its own table, so a student
  // and a teacher may share an email.

  predicate TeacherEmailsUnique(m: map<Id, Teacher>) {
    forall a, b :: a in m && b in m && m[a].email == m[b].email ==> a == b
  }

  predicate ClassNamesUnique(m: map<Id, SchoolClass>) {
    forall a, b :: a in m && b in m && m[a].name == m[b].name ==> a == b
  }

  predicate RollNumbersUnique(m: map<Id, Student>) {
    forall a, b :: a in m && b in m && m[a].rollNumber == m[b].rollNumber ==> a == b
  }

  predicate StudentEmailsUnique(m: map<Id, Student>) {
    forall a, b :: a in m && b in m && m[a].email == m[b].email ==> a == b
  }

  /** Every class's teacher reference is null or a stored teacher. */
  predicate TeacherRefsExist(s: Store) {
    forall c :: c in s.classes && s.classes[c].teacher.Some? ==> s.classes[c].teacher.value in s.teachers
  }

  /** Every student's class reference is a stored class. */
  predicate ClassRefsExist(s: Store) {
    forall k :: k in s.students ==> s.students[k].classAssigned in s.classes
  }

  /** Everything the database guarantees about its contents. */
  predicate Valid(s: Store) {
    && 1 <= s.nextTeacher && 1 <= s.nextClass && 1 <= s.nextStudent
    && KeysBelow(s.teachers, s.nextTeacher)
    && KeysBelow(s.classes, s.nextClass)
    && KeysBelow(s.students, s.nextStudent)
    && (forall k :: k in s.teachers ==> TeacherFits(s.teachers[k]))
    && (forall k :: k in s.classes ==> ClassFits(s.classes[k]))
    && (forall k :: k in s.students ==> StudentFits(s.students[k]))
    && TeacherEmailsUnique(s.teachers)
    && ClassNamesUnique(s.classes)
    && RollNumbersUnique(s.students)
    && StudentEmailsUnique(s.students)
    && TeacherRefsExist(s)
    && ClassRefsExist(s)
  }

  lemma EmptyStoreValid()
    ensures Valid(EmptyStore)
  {
  }

  /** Why the database refuses a row: a value wider than its column, or a
      unique or foreign-key constraint. */
  datatype StoreError = DataError(column: string) | IntegrityError(constraint: string)

  // Row checks. `self` is the key the row is written under; the row it
  // replaces does not count as a clash.

  predicate TeacherEmailFree(m: map<Id, Teacher>, email: string, self: Id) {
    forall k :: k in m && k != self ==> m[k].email != email
  }

  predicate ClassNameFree(m: map<Id, SchoolClass>, name: string, self: Id) {
    forall k :: k in m && k != self ==> m[k].name != name
  }

  predicate RollNumberFree(m: map<Id, Student>, roll: string, self: Id) {
    forall k :: k in m && k != self ==> m[k].rollNumber != roll
  }

  predicate StudentEmailFree(m: map<Id, Student>, email: string, self: Id) {
    forall k :: k in m && k != self ==> m[k].email != email
  }

  function CheckTeacher(s: Store, self: Id, t: Teacher): Option<StoreError> {
    if !TeacherFits(t) then Some(DataError("teacher"))
    else if !TeacherEmailFree(s.teachers, t.email, self) then Some(IntegrityError("teacher.email"))
    else None
  }

  function CheckClass(s: Store, self: Id, c: SchoolClass): Option<StoreError> {
    if !ClassFits(c) then Some(DataError("schoolclass.name"))
    else if !ClassNameFree(s.classes, c.name, self) then Some(IntegrityError("schoolclass.name"))
    else if c.teacher.Some? && c.teacher.value !in s.teachers then Some(IntegrityError("schoolclass.teacher_id"))
    else None
  }

  function CheckStudent(s: Store, self: Id, st: Student): Option<StoreError> {
    if !StudentFits(st) then Some(DataError("student"))
    else if !RollNumberFree(s.students, st.rollNumber, self) then Some(IntegrityError("student.roll_number"))
    else if !StudentEmailFree(s.students, st.email, self) then Some(IntegrityError("student.email"))
    else if st.classAssigned !in s.classes then Some(IntegrityError("student.class_assigned_id"))
    else None
  }

  /** INSERT of a teacher row under the next key. */
  function InsertTeacher(s: Store, t: Teacher): (r: Result<(Store, Id), StoreError>)
    ensures r.Success? <==> TeacherFits(t) && TeacherEmailFree(s.teachers, t.email, s.nextTeacher)
    ensures r.Success? ==> var (s', id) := r.value;
      && id == s.nextTeacher
      && s'.teachers == s.teachers[id := t] && s'.nextTeacher == id + 1
      && s'.classes == s.classes && s'.students == s.students
      && s'.nextClass == s.nextClass && s'.nextStudent == s.nextStudent
    ensures Valid(s) && r.Success? ==> Valid(r.value.0) && r.value.1 !in s.teachers
  {
    match CheckTeacher(s, s.nextTeacher, t)
    case Some(e) => Failure(e)
    case None =>
      var id := s.nextTeacher;
      Success((s.(teachers := s.teachers[id := t], nextTeacher := id + 1), id))
  }

  /** UPDATE of the stored teacher `id`: every column is rewritten. */
  function UpdateTeacher(s: Store, id: Id, t: Teacher): (r: Result<Store, StoreError>)
    requires id in s.teachers
    ensures r.Success? <==> TeacherFits(t) && TeacherEmailFree(s.teachers, t.email, id)
    ensures r.Success? ==> r.value == s.(teachers := s.teachers[id := t])
    ensures Valid(s) && r.Success? ==> Valid(r.value)
  {
    match CheckTeacher(s, id, t)
    case Some(e) => Failure(e)
    case None => Success(s.(teachers := s.teachers[id := t]))
  }

  function InsertClass(s: Store, c: SchoolClass): (r: Result<(Store, Id), StoreError>)
    ensures r.Success? <==> ClassFits(c) && ClassNameFree(s.classes, c.name, s.nextClass)
                            && (c.teacher.None? || c.teacher.value in s.teachers)
    ensures r.Success? ==> var (s', id) := r.value;
      && id == s.nextClass
      && s'.classes == s.classes[id := c] && s'.nextClass == id + 1
      && s'.teachers == s.teachers && s'.students == s.students
      && s'.nextTeacher == s.nextTeacher && s'.nextStudent == s.nextStudent
    ensures Valid(s) && r.Success? ==> Valid(r.value.0) && r.value.1 !in s.classes
  {
    match CheckClass(s, s.nextClass, c)
    case Some(e) => Failure(e)
    case None =>
      var id := s.nextClass;
      Success((s.(classes := s.classes[id := c], nextClass := id + 1), id))
  }

  function UpdateClass(s: Store, id: Id, c: SchoolClass): (r: Result<Store, StoreError>)
    requires id in s.classes
    ensures r.Success? <==> ClassFits(c) && ClassNameFree(s.classes, c.name, id)
                            && (c.teacher.None? || c.teacher.value in s.teachers)
    ensures r.Success? ==> r.value == s.(classes := s.classes[id := c])
    ensures Valid(s) && r.Success? ==> Valid(r.value)
  {
    match CheckClass(s, id, c)
    case Some(e) => Failure(e)
    case None => Success(s.(classes := s.classes[id := c]))
  }

  function InsertStudent(s: Store, st: Student): (r: Result<(Store, Id), StoreError>)
    ensures r.Success? <==> StudentFits(st) && st.classAssigned in s.classes
                            && RollNumberFree(s.students, st.rollNumber, s.nextStudent)
                            && StudentEmailFree(s.students, st.email, s.nextStudent)
    ensures r.Success? ==> var (s', id) := r.value;
      && id == s.nextStudent
      && s'.students == s.students[id := st] && s'.nextStudent == id + 1
      && s'.teachers == s.teachers && s'.classes == s.classes
      && s'.nextTeacher == s.nextTeacher && s'.nextClass == s.nextClass
    ensures Valid(s) && r.Success? ==> Valid(r.value.0) && r.value.1 !in s.students
  {
    match CheckStudent(s, s.nextStudent, st)
    case Some(e) => Failure(e)
    case None =>
      var id := s.nextStudent;
      Success((s.(students := s.students[id := st], nextStudent := id + 1), id))
  }

  function UpdateStudent(s: Store, id: Id, st: Student): (r: Result<Store, StoreError>)
    requires id in s.students
    ensures r.Success? <==> StudentFits(st) && st.classAssigned in s.classes
                            && RollNumberFree(s.students, st.rollNumber, id)
                            && StudentEmailFree(s.students, st.email, id)
    ensures r.Success? ==> r.value == s.(students := s.students[id := st])
    ensures Valid(s) && r.Success? ==> Valid(r.value)
  {
    match CheckStudent(s, id, st)
    case Some(e) => Failure(e)
    case None => Success(s.(students := s.students[id := st]))
  }

  /** DELETE of a teacher. The foreign key from classes is SET_NULL: every
      class that named this teacher keeps existing, with no teacher. */
  function DeleteTeacher(s: Store, id: Id): (r: Store)
    requires id in s.teachers
    ensures r.teachers.Keys == s.teachers.Keys - {id}
    ensures forall k :: k in r.teachers ==> r.teachers[k] == s.teachers[k]
    ensures r.classes.Keys == s.classes.Keys
    ensures forall c :: c in s.classes && s.classes[c].teacher == Some(id) ==>
      r.classes[c] == SchoolClass(s.classes[c].name, None)
    ensures forall c :: c in s.classes && s.classes[c].teacher != Some(id) ==>
      r.classes[c] == s.classes[c]
    ensures r.students == s.students
    ensures r.nextTeacher == s.nextTeacher && r.nextClass == s.nextClass && r.nextStudent == s.nextStudent
  {
    var classes := map c | c in s.classes ::
      if s.classes[c].teacher == Some(id) then s.classes[c].(teacher := None) else s.classes[c];
    s.(teachers := s.teachers - {id}, classes := classes)
  }

  /** After a teacher is deleted no class names it, and the store is still
      valid. */
  lemma DeleteTeacherKeepsValid(s: Store, id: Id)
    requires Valid(s) && id in s.teachers
    ensures Valid(DeleteTeacher(s, id))
    ensures forall c :: c in DeleteTeacher(s, id).classes ==> DeleteTeacher(s, id).classes[c].teacher != Some(id)
  {
    var r := DeleteTeacher(s, id);
    forall a, b | a in r.classes && b in r.classes && r.classes[a].name == r.classes[b].name
      ensures a == b
    {
      assert s.classes[a].name == s.classes[b].name;
    }
    assert ClassNamesUnique(r.classes);
    assert TeacherRefsExist(r);
  }

  /** DELETE of a class. The foreign key from students is CASCADE: exactly
      the students of this class go with it. */
  function DeleteClass(s: Store, id: Id): (r: Store)
    requires id in s.classes
    ensures r.classes.Keys == s.classes.Keys - {id}
    ensures forall k :: k in r.classes ==> r.classes[k] == s.classes[k]
    ensures forall k :: k in r.students <==> k in s.students && s.students[k].classAssigned != id
    ensures forall k :: k in r.students ==> r.students[k] == s.students[k]
    ensures r.teachers == s.teachers
    ensures r.nextTeacher == s.nextTeacher && r.nextClass == s.nextClass && r.nextStudent == s.nextStudent
  {
    var students := map k | k in s.students && s.students[k].classAssigned != id :: s.students[k];
    s.(classes := s.classes - {id}, students := students)
  }

  lemma DeleteClassKeepsValid(s: Store, id: Id)
    requires Valid(s) && id in s.classes
    ensures Valid(DeleteClass(s, id))
  {
    var r := DeleteClass(s, id);
    assert ClassRefsExist(r);
    assert RollNumbersUnique(r.students);
    assert StudentEmailsUnique(r.students);
  }

  /** DELETE of a student; nothing refers to students. */
  function DeleteStudent(s: Store, id: Id): (r: Store)
    requires id in s.students
    ensures r.students.Keys == s.students.Keys - {id}
    ensures forall k :: k in r.students ==> r.students[k] == s.students[k]
    ensures r.teachers == s.teachers && r.classes == s.classes
    ensures r.nextTeacher == s.nextTeacher && r.nextClass == s.nextClass && r.nextStudent == s.nextStudent
    ensures Valid(s) ==> Valid(r)
  {
    s.(students := s.students - {id})
  }
}

=== FILE: refusals.dfy ===
/** Requests the serializers refuse, for any store: a value another record
    already holds under a unique column, a reference to a record that does
    not exist, a value holding a NUL and an email that is not text. Each
    is a 400 keyed by the wire name of the field, and the store is left as
    it was. */
module Refusals {
  import opened Results
  import opened Text
  import opened Wire
  import opened Models
  import opened Serializers
  import opened Saving
  import opened Views

  /** A text value that trims to one in `taken` is refused with the field's
      unique message among its errors. */
  lemma TakenTextRejected(w: string, spec: TextSpec, partial: bool, taken: set<string>, emailOk: string -> bool)
    requires !AllSpace(w) && Trim(w) in taken && spec.unique.Some?
    ensures var f := TextField(Some(JStr(w)), spec, partial, taken, emailOk);
      f.Rejected? && spec.unique.value in f.messages
  {
    var t := Trim(w);
    assert Violations(t, spec, taken, emailOk)[0] == spec.unique.value;
  }

  /** A text value holding a NUL, however it is trimmed, is refused with
      the null-character message among its errors, whatever the field. */
  lemma NulTextRejected(w: string, spec: TextSpec, partial: bool, taken: set<string>, emailOk: string -> bool)
    requires !AllSpace(w) && !NulFree(w)
    ensures var f := TextField(Some(JStr(w)), spec, partial, taken, emailOk);
      f.Rejected? && NulCharMsg in f.messages
  {
    TrimKeeps(w, '\0');
  }

  /** A teacher email that is a boolean, an array or an object is refused
      under `email` with the email field's own message, and nothing is
      stored. */
  lemma NonTextTeacherEmailRefused(s: Store, body: Body, v: Json, emailOk: string -> bool)
    requires Get(body, "email") == Some(v) && (v.JBool? || v.JArr? || v.JObj?)
    ensures var (s', r) := CreateTeacherIn(s, body, emailOk);
      && s' == s && r.BadRequest? && "email" in r.errors && r.errors["email"] == [InvalidEmailMsg]
  {
    var f := CleanTeacherFields(s, body, false, None, emailOk);
    assert f.email == Rejected([InvalidEmailMsg]);
  }

  /** The same for a student email. */
  lemma NonTextStudentEmailRefused(s: Store, body: Body, v: Json, emailOk: string -> bool)
    requires Get(body, "email") == Some(v) && (v.JBool? || v.JArr? || v.JObj?)
    ensures var (s', r) := CreateStudentIn(s, body, emailOk);
      && s' == s && r.BadRequest? && "email" in r.errors && r.errors["email"] == [InvalidEmailMsg]
  {
    var g := CleanStudentFields(s, body, false, None, emailOk);
    assert g.email == Rejected([InvalidEmailMsg]);
    StudentEmailReported(s, body, emailOk);
  }

  /** A teacher whose email, once trimmed, is another teacher's email is
      refused under `email`, and nothing is stored. */
  lemma TakenTeacherEmailRefused(s: Store, body: Body, w: string, k: Id, emailOk: string -> bool)
    requires Get(body, "email") == Some(JStr(w)) && !AllSpace(w)
    requires k in s.teachers && Trim(w) == s.teachers[k].email
    ensures var (s', r) := CreateTeacherIn(s, body, emailOk);
      && s' == s && r.BadRequest? && "email" in r.errors && TeacherEmailTakenMsg in r.errors["email"]
  {
    assert Trim(w) in TeacherEmails(s, None);
    TakenTextRejected(w, TeacherEmailSpec, false, TeacherEmails(s, None), emailOk);
    var f := CleanTeacherFields(s, body, false, None, emailOk);
    assert f.email.Rejected?;
  }

  /** A class whose name, once trimmed, is another class's name is refused
      under `name`, and nothing is stored. */
  lemma TakenClassNameRefused(s: Store, body: Body, w: string, k: Id, emailOk: string -> bool)
    requires Get(body, "name") == Some(JStr(w)) && !AllSpace(w)
    requires k in s.classes && Trim(w) == s.classes[k].name
    ensures var (s', r) := CreateClassIn(s, body, emailOk);
      && s' == s && r.BadRequest? && "name" in r.errors && ClassNameTakenMsg in r.errors["name"]
  {
    assert Trim(w) in ClassNames(s, None);
    TakenTextRejected(w, ClassNameSpec, false, ClassNames(s, None), emailOk);
    var f := CleanClassFields(s, body, false, None, emailOk);
    assert f.name.Rejected?;
  }

  /** A student whose email, once trimmed, is another student's email is
      refused under `email`, whatever the teachers' emails are. */
  lemma TakenStudentEmailRefused(s: Store, body: Body, w: string, k: Id, emailOk: string -> bool)
    requires Get(body, "email") == Some(JStr(w)) && !AllSpace(w)
    requires k in s.students && Trim(w) == s.students[k].email
    ensures var (s', r) := CreateStudentIn(s, body, emailOk);
      && s' == s && r.BadRequest? && "email" in r.errors && StudentEmailTakenMsg in r.errors["email"]
  {
    assert Trim(w) in StudentEmails(s, None);
    TakenTextRejected(w, StudentEmailSpec, false, StudentEmails(s, None), emailOk);
    StudentEmailReported(s, body, emailOk);
  }

  /** A student create whose email field is rejected answers those
      messages under `email`, and nothing is stored. */
  lemma StudentEmailReported(s: Store, body: Body, emailOk: string -> bool)
    requires CleanStudentFields(s, body, false, None, emailOk).email.Rejected?
    ensures var (s', r) := CreateStudentIn(s, body, emailOk);
      && s' == s && r.BadRequest? && "email" in r.errors
      && r.errors["email"] == CleanStudentFields(s, body, false, None, emailOk).email.messages
  {
  }

  /** A student create naming a class key no class has is refused under
      `classId`, and nothing is stored. */
  lemma UnknownClassRefused(s: Store, body: Body, c: int, emailOk: string -> bool)
    requires Get(body, "classId") == Some(JInt(c)) && (c < 0 || c !in s.classes)
    ensures var (s', r) := CreateStudentIn(s, body, emailOk);
      s' == s && r.BadRequest? && "classId" in r.errors
  {
    var f := CleanStudentFields(s, body, false, None, emailOk);
    assert f.classId.Rejected?;
  }

  /** The same on update, full or partial: the stored student keeps its
      class. */
  lemma UnknownClassKeepsStudent(s: Store, id: Id, body: Body, partial: bool, c: int, emailOk: string -> bool)
    requires id in s.students
    requires Get(body, "classId") == Some(JInt(c)) && (c < 0 || c !in s.classes)
    ensures var (s', r) := UpdateStudentIn(s, id, body, partial, emailOk);
      s' == s && r.BadRequest? && "classId" in r.errors
  {
    var f := CleanStudentFields(s, body, partial, Some(id), emailOk);
    assert f.classId.Rejected?;
  }

  /** A class naming a teacher key no teacher has is refused under
      `teacherId`, and nothing is stored. */
  lemma UnknownTeacherRefused(s: Store, body: Body, t: int, emailOk: string -> bool)
    requires Get(body, "teacherId") == Some(JInt(t)) && (t < 0 || t !in s.teachers)
    ensures var (s', r) := CreateClassIn(s, body, emailOk);
      s' == s && r.BadRequest? && "teacherId" in r.errors
  {
    var f := CleanClassFields(s, body, false, None, emailOk);
    assert f.teacherId.Rejected?;
  }
}

=== FILE: results.dfy ===
/** Failure-compatible wrappers used throughout the model: an optional value
    and a result that is either a value or an error. */
module Results {

  datatype Option<+T> = None | Some(value: T) {

    /** The wrapped value, or `default` when there is none. */
    function GetOr(default: T): T {
      match this
      case Some(v) => v
      case None => default
    }
  }

  datatype Result<+T, +E> = Success(value: T) | Failure(error: E) {

    predicate IsFailure() {
      Failure?
    }

    function PropagateFailure<U>(): Result<U, E>
      requires Failure?
    {
      Failure(error)
    }

    function Extract(): T
      requires Success?
    {
      value
    }
  }
}

=== FILE: roundtrip.dfy ===
/** Rendering and writing back: a record rendered in its standard shape and
    sent back as a PUT or PATCH body leaves the store exactly as it was. */
module RoundTrips {
  import opened Results
  import opened Text
  import opened Wire
  import opened Models
  import opened Serializers
  import opened Saving
  import opened Shapes

  /** A clean string that passes its validators is cleaned to itself. */
  lemma TextFieldKeeps(x: string, spec: TextSpec, partial: bool, taken: set<string>, emailOk: string -> bool)
    requires x != [] && Trimmed(x)
    requires Violations(x, spec, taken, emailOk) == []
    ensures TextField(Some(JStr(x)), spec, partial, taken, emailOk) == Clean(Some(x))
  {
    assert !IsSpace(x[0]);
    assert Trim(x) == x;
  }

  /** A stored key, rendered, is read back as the same reference. */
  lemma PkFieldKeeps(id: Id, spec: PkSpec, partial: bool, ids: set<Id>)
    requires id in ids
    ensures PkField(Some(RefJson(id)), spec, partial, ids) == Clean(Some(id))
  {
    RefJsonParses(id);
  }

  lemma TeacherFieldsEcho(s: Store, id: Id, partial: bool, emailOk: string -> bool)
    requires Valid(s) && id in s.teachers && CleanTeacher(s.teachers[id], emailOk)
    ensures var t := s.teachers[id];
      CleanTeacherFields(s, TeacherShape(id, t), partial, Some(id), emailOk)
        == TeacherFields(Clean(Some(t.name)), Clean(Some(t.subject)), Clean(Some(t.email)), Clean(t.phone))
  {
    var t := s.teachers[id];
    var body := TeacherShape(id, t);
    assert Get(body, "name") == Some(JStr(t.name));
    assert Get(body, "subject") == Some(JStr(t.subject));
    assert Get(body, "email") == Some(JStr(t.email));
    assert Get(body, "phone") == Some(OptionalText(t.phone));
    assert TeacherFits(t);
    assert t.email !in TeacherEmails(s, Some(id));
    TextFieldKeeps(t.name, TeacherNameSpec, partial, {}, emailOk);
    TextFieldKeeps(t.subject, SubjectSpec, partial, {}, emailOk);
    TextFieldKeeps(t.email, TeacherEmailSpec, partial, TeacherEmails(s, Some(id)), emailOk);
    if t.phone.Some? && t.phone.value != [] {
      TextFieldKeeps(t.phone.value, PhoneSpec, partial, {}, emailOk);
    }
  }

  lemma TeacherDataEcho(s: Store, id: Id, partial: bool, emailOk: string -> bool)
    requires Valid(s) && id in s.teachers && CleanTeacher(s.teachers[id], emailOk)
    ensures var t := s.teachers[id];
      ValidateTeacher(s, TeacherShape(id, t), partial, Some(id), emailOk)
        == Success(TeacherData(Some(t.name), Some(t.subject), Some(t.email), Some(t.phone)))
  {
    TeacherFieldsEcho(s, id, partial, emailOk);
  }

  /** GET then PUT (or PATCH) of the same teacher changes nothing. */
  lemma TeacherPutBack(s: Store, id: Id, partial: bool, emailOk: string -> bool)
    requires Valid(s) && id in s.teachers && CleanTeacher(s.teachers[id], emailOk)
    ensures ChangeTeacher(s, id, TeacherShape(id, s.teachers[id]), partial, emailOk) == Success(s)
  {
    TeacherDataEcho(s, id, partial, emailOk);
    assert s.teachers[id := s.teachers[id]] == s.teachers;
  }

  lemma StudentFieldsEcho(s: Store, id: Id, partial: bool, emailOk: string -> bool)
    requires Valid(s) && id in s.students && CleanStudent(s.students[id], emailOk)
    ensures var st := s.students[id];
      CleanStudentFields(s, StudentShape(id, st), partial, Some(id), emailOk)
        == StudentFields(Clean(Some(st.name)), Clean(Some(st.rollNumber)), Clean(Some(st.email)),
                         Clean(Some(st.classAssigned)))
  {
    var st := s.students[id];
    var body := StudentShape(id, st);
    assert Get(body, "name") == Some(JStr(st.name));
    assert Get(body, "rollNumber") == Some(JStr(st.rollNumber));
    assert Get(body, "email") == Some(JStr(st.email));
    assert Get(body, "classId") == Some(RefJson(st.classAssigned));
    assert StudentFits(st);
    assert st.rollNumber !in RollNumbers(s, Some(id));
    assert st.email !in StudentEmails(s, Some(id));
    TextFieldKeeps(st.name, StudentNameSpec, partial, {}, emailOk);
    TextFieldKeeps(st.rollNumber, RollNumberSpec, partial, RollNumbers(s, Some(id)), emailOk);
    TextFieldKeeps(st.email, StudentEmailSpec, partial, StudentEmails(s, Some(id)), emailOk);
    PkFieldKeeps(st.classAssigned, ClassIdSpec, partial, s.classes.Keys);
  }

  lemma StudentDataEcho(s: Store, id: Id, partial: bool, emailOk: string -> bool)
    requires Valid(s) && id in s.students && CleanStudent(s.students[id], emailOk)
    ensures var st := s.students[id];
      ValidateStudent(s, StudentShape(id, st), partial, Some(id), emailOk)
        == Success(StudentData(Some(st.name), Some(st.rollNumber), Some(st.email), Some(st.classAssigned)))
  {
    StudentFieldsEcho(s, id, partial, emailOk);
  }

  /** On a valid store, an update whose body validates to `d` writes
      exactly `d` over the stored student. */
  lemma ChangeStudentWrites(s: Store, id: Id, body: Body, partial: bool, emailOk: string -> bool, d: StudentData)
    requires Valid(s) && id in s.students
    requires ValidateStudent(s, body, partial, Some(id), emailOk) == Success(d)
    ensures ChangeStudent(s, id, body, partial, emailOk)
      == Success(s.(students := s.students[id := ApplyStudent(s.students[id], d)]))
  {
  }

  /** GET then PUT (or PATCH) of the same student changes nothing. */
  lemma StudentPutBack(s: Store, id: Id, partial: bool, emailOk: string -> bool)
    requires Valid(s) && id in s.students && CleanStudent(s.students[id], emailOk)
    ensures ChangeStudent(s, id, StudentShape(id, s.students[id]), partial, emailOk) == Success(s)
  {
    var st := s.students[id];
    StudentDataEcho(s, id, partial, emailOk);
    var d := StudentData(Some(st.name), Some(st.rollNumber), Some(st.email), Some(st.classAssigned));
    ChangeStudentWrites(s, id, StudentShape(id, st), partial, emailOk, d);
    assert ApplyStudent(st, d) == st;
    assert s.students[id := st] == s.students;
  }

  lemma ClassDataEcho(s: Store, id: Id, partial: bool, emailOk: string -> bool)
    requires Valid(s) && id in s.classes && CleanClass(s.classes[id])
    ensures var c := s.classes[id];
      ValidateClass(s, ClassShape(id, c), partial, Some(id), emailOk) == Success(ClassData(Some(c.name), Some(c.teacher)))
  {
    var c := s.classes[id];
    var body := ClassShape(id, c);
    assert Get(body, "name") == Some(JStr(c.name));
    assert Get(body, "teacherId") == Some(if c.teacher.Some? then RefJson(c.teacher.value) else JNull);
    assert ClassFits(c);
    assert c.name !in ClassNames(s, Some(id));
    TextFieldKeeps(c.name, ClassNameSpec, partial, ClassNames(s, Some(id)), emailOk);
    if c.teacher.Some? {
      PkFieldKeeps(c.teacher.value, TeacherIdSpec, partial, s.teachers.Keys);
    }
  }

  /** GET then PUT (or PATCH) of the same class changes nothing. */
  lemma ClassPutBack(s: Store, id: Id, partial: bool, emailOk: string -> bool)
    requires Valid(s) && id in s.classes && CleanClass(s.classes[id])
    ensures ChangeClass(s, id, ClassShape(id, s.classes[id]), partial, emailOk) == Success(s)
  {
    ClassDataEcho(s, id, partial, emailOk);
    assert s.classes[id := s.classes[id]] == s.classes;
  }
}

=== FILE: scenarios.dfy ===
/** The API's own test scenarios, restated over the model: the fixture
    store (one teacher, one class taught by them, one student in it) and
    what each request against it answers. Email syntax is a parameter, so
    each scenario states which addresses it takes to be well formed. */
module Scenarios {
  import opened Results
  import opened Text
  import opened Wire
  import opened Models
  import opened Keys
  import opened Serializers
  import opened Saving
  import opened Shapes
  import opened Views
  import opened Endpoints
  import opened RoundTrips

  const John := Teacher("John Doe", "Mathematics", "john.doe@example.com", None)
  const ClassA := SchoolClass("Class 10-A", Some(1))
  const Alice := Student("Alice Smith", "S1024", "alice@example.com", 1)

  /** The fixture: each table holds one row, under key 1. */
  const Fixture := Store(map[1 := John], map[1 := ClassA], map[1 := Alice], 2, 2, 2)

  lemma FixtureValid()
    ensures Valid(Fixture)
  {
    assert TeacherFits(John) && ClassFits(ClassA) && StudentFits(Alice);
  }

  /** Two strings that differ at some position are different. */
  lemma DifferAt(a: string, b: string, i: nat)
    requires i < |a| && i < |b| && a[i] != b[i]
    ensures a != b
  {
  }

  /** The fixture class enrolls the fixture student, and only them. */
  lemma FixtureEnrolled()
    ensures Enrolled(Fixture, 1) == [1]
  {
    var m := Fixture.students;
    assert IdsBelow(m, 1) == [];
    assert IdsBelow(m, 2) == [1];
    var p := (k: nat) => k in m && m[k].classAssigned == 1;
    assert Filter([1], p) == [1];
    assert SortByName(m, [1]) == [1];
  }

  /** The class detail names the class and its teacher, and lists its one
      student. */
  lemma ClassDetailScenario()
    ensures var d := ClassDetailShape(Fixture, 1, ClassA);
      && d["name"] == JStr("Class 10-A")
      && d["teacher"] == TeacherBrief(1, John)
      && d["students"] == JArr([StudentBrief(1, Alice)])
  {
    FixtureEnrolled();
    var briefs := StudentBriefs(Fixture.students, [1]);
    assert briefs == [StudentBrief(1, Alice)];
    assert TeacherOf(Fixture, ClassA) == TeacherBrief(1, John);
    DetailKeys(1, ClassA, TeacherOf(Fixture, ClassA), JArr(briefs));
  }

  /** The trimmed email is already trimmed, and is not taken. */
  lemma MalformedEmailField(emailOk: string -> bool)
    requires !emailOk("invalid-email")
    ensures TextField(Some(JStr("invalid-email")), TeacherEmailSpec, false, TeacherEmails(Fixture, None), emailOk)
      == Rejected([InvalidEmailMsg])
  {
    var e := "invalid-email";
    assert !IsSpace(e[0]) && !IsSpace(e[|e| - 1]);
    assert Trim(e) == e;
    assert TeacherEmails(Fixture, None) == {"john.doe@example.com"};
    assert Violations(e, TeacherEmailSpec, TeacherEmails(Fixture, None), emailOk) == [InvalidEmailMsg];
  }

  /** The body of the invalid-creation scenario. */
  const BadTeacherBody: Body := map["name" := JStr(""), "subject" := JStr(""), "email" := JStr("invalid-email")]

  lemma BadTeacherFields(emailOk: string -> bool)
    requires !emailOk("invalid-email")
    ensures CleanTeacherFields(Fixture, BadTeacherBody, false, None, emailOk)
      == TeacherFields(Rejected([BlankMsg]), Rejected([BlankMsg]), Rejected([InvalidEmailMsg]), Skipped)
  {
    var body := BadTeacherBody;
    assert Get(body, "name") == Some(JStr("")) && Get(body, "subject") == Some(JStr(""));
    assert Get(body, "email") == Some(JStr("invalid-email")) && Get(body, "phone") == None;
    MalformedEmailField(emailOk);
  }

  /** A teacher with a blank name, a blank subject and a malformed email is
      refused with an error under each of the three fields, and nothing is
      stored. */
  lemma InvalidTeacherScenario(emailOk: string -> bool)
    requires !emailOk("invalid-email")
    ensures var (s', r) := CreateTeacherIn(Fixture, BadTeacherBody, emailOk);
      && s' == Fixture && r.BadRequest?
      && r.errors.Keys == {"name", "subject", "email"}
      && r.errors["name"] == [BlankMsg] && r.errors["subject"] == [BlankMsg]
      && r.errors["email"] == [InvalidEmailMsg]
  {
    BadTeacherFields(emailOk);
    var f := TeacherFields(Rejected([BlankMsg]), Rejected([BlankMsg]), Rejected([InvalidEmailMsg]), Skipped);
    var e := TeacherErrors(f);
    assert "phone" !in e;
    assert ValidateTeacher(Fixture, BadTeacherBody, false, None, emailOk) == Failure(e);
  }

  /** The fixture plus a second student holding roll number `S9999`. */
  const WithS9999 := Fixture.(students := Fixture.students[2 := Student("Existing Student", "S9999", "existing@example.com", 1)],
                              nextStudent := 3)

  const DuplicateRollBody: Body := map["name" := JStr("Duplicate Roll"), "rollNumber" := JStr("S9999"),
                                       "email" := JStr("duplicate@example.com"), "classId" := JInt(1)]

  lemma TakenRollField(emailOk: string -> bool)
    ensures TextField(Some(JStr("S9999")), RollNumberSpec, false, RollNumbers(WithS9999, None), emailOk)
      == Rejected([RollNumberTakenMsg])
  {
    var r := "S9999";
    assert !IsSpace(r[0]) && !IsSpace(r[|r| - 1]);
    assert Trim(r) == r;
    assert r in RollNumbers(WithS9999, None) by {
      assert WithS9999.students[2].rollNumber == r;
    }
  }

  lemma DuplicateRollInvalid(emailOk: string -> bool)
    ensures var v := ValidateStudent(WithS9999, DuplicateRollBody, false, None, emailOk);
      v.Failure? && "rollNumber" in v.error && v.error["rollNumber"] == [RollNumberTakenMsg]
  {
    TakenRollField(emailOk);
    assert Get(DuplicateRollBody, "rollNumber") == Some(JStr("S9999"));
    var f := CleanStudentFields(WithS9999, DuplicateRollBody, false, None, emailOk);
    assert f.rollNumber == Rejected([RollNumberTakenMsg]);
  }

  /** A second student with a roll number already taken is refused, with
      the error under `rollNumber`, and nothing is stored. */
  lemma DuplicateRollScenario(emailOk: string -> bool)
    ensures var (s', r) := CreateStudentIn(WithS9999, DuplicateRollBody, emailOk);
      && s' == WithS9999 && r.BadRequest?
      && "rollNumber" in r.errors && r.errors["rollNumber"] == [RollNumberTakenMsg]
  {
    DuplicateRollInvalid(emailOk);
  }

  // Creating a class without a teacher

  const ClassBBody: Body := map["name" := JStr("Class 10-B")]

  lemma ClassBValid(emailOk: string -> bool)
    ensures ValidateClass(Fixture, ClassBBody, false, None, emailOk) == Success(ClassData(Some("Class 10-B"), None))
  {
    assert Get(ClassBBody, "name") == Some(JStr("Class 10-B")) && Get(ClassBBody, "teacherId") == None;
    assert ClassNames(Fixture, None) == {"Class 10-A"};
    TextFieldKeeps("Class 10-B", ClassNameSpec, false, ClassNames(Fixture, None), emailOk);
  }

  /** A class body that validates on a valid store is stored under the
      next free key, and answered in the standard class shape. */
  lemma NewClassStored(s: Store, body: Body, emailOk: string -> bool, d: ClassData)
    requires Valid(s) && ValidateClass(s, body, false, None, emailOk) == Success(d)
    ensures var (s', r) := CreateClassIn(s, body, emailOk);
      && r.Created? && s'.classes.Keys == s.classes.Keys + {s.nextClass}
      && s'.classes[s.nextClass] == ApplyClass(BlankClass, d)
      && r.body == ClassShape(s.nextClass, s'.classes[s.nextClass])
  {
  }

  lemma ClassBAccepted(emailOk: string -> bool)
    ensures Valid(Fixture) && Fixture.nextClass == 2 && Fixture.classes.Keys == {1}
    ensures ValidateClass(Fixture, ClassBBody, false, None, emailOk) == Success(ClassData(Some("Class 10-B"), None))
  {
    FixtureValid();
    ClassBValid(emailOk);
  }

  /** A class created without `teacherId` is stored with no teacher. */
  lemma ClassWithoutTeacherScenario(emailOk: string -> bool)
    ensures var (s', r) := CreateClassIn(Fixture, ClassBBody, emailOk);
      && r.Created? && s'.classes.Keys == {1, 2}
      && s'.classes[2] == SchoolClass("Class 10-B", None)
      && r.body == ClassShape(2, s'.classes[2])
  {
    var d := ClassData(Some("Class 10-B"), None);
    ClassBAccepted(emailOk);
    NewClassStored(Fixture, ClassBBody, emailOk, d);
    assert ApplyClass(BlankClass, d) == SchoolClass("Class 10-B", None);
  }

  // Creating a teacher

  /** A body that names each required teacher field and no phone, each
      accepted as it is, validates to exactly those fields. */
  lemma NewTeacherValid(s: Store, body: Body, n: string, sub: string, e: string, emailOk: string -> bool)
    requires Get(body, "name") == Some(JStr(n)) && Get(body, "subject") == Some(JStr(sub))
    requires Get(body, "email") == Some(JStr(e)) && Get(body, "phone") == None
    requires TextField(Some(JStr(n)), TeacherNameSpec, false, {}, emailOk) == Clean(Some(n))
    requires TextField(Some(JStr(sub)), SubjectSpec, false, {}, emailOk) == Clean(Some(sub))
    requires TextField(Some(JStr(e)), TeacherEmailSpec, false, TeacherEmails(s, None), emailOk) == Clean(Some(e))
    ensures ValidateTeacher(s, body, false, None, emailOk) == Success(TeacherData(Some(n), Some(sub), Some(e), None))
  {
    assert CleanTeacherFields(s, body, false, None, emailOk)
      == TeacherFields(Clean(Some(n)), Clean(Some(sub)), Clean(Some(e)), Skipped);
  }

  /** A teacher body that validates on a valid store is stored under the
      next free key, as the validated data says. */
  lemma NewTeacherStored(s: Store, body: Body, emailOk: string -> bool, d: TeacherData)
    requires Valid(s) && ValidateTeacher(s, body, false, None, emailOk) == Success(d)
    ensures var (s', r) := CreateTeacherIn(s, body, emailOk);
      && r.Created? && s'.teachers.Keys == s.teachers.Keys + {s.nextTeacher}
      && s'.teachers[s.nextTeacher] == ApplyTeacher(BlankTeacher, d)
  {
  }

  const JaneBody: Body := map["name" := JStr("Jane Smith"), "subject" := JStr("Science"),
                              "email" := JStr("jane.smith@example.com")]

  lemma JaneNameField(emailOk: string -> bool)
    ensures TextField(Some(JStr("Jane Smith")), TeacherNameSpec, false, {}, emailOk) == Clean(Some("Jane Smith"))
  {
    TextFieldKeeps("Jane Smith", TeacherNameSpec, false, {}, emailOk);
  }

  lemma JaneSubjectField(emailOk: string -> bool)
    ensures TextField(Some(JStr("Science")), SubjectSpec, false, {}, emailOk) == Clean(Some("Science"))
  {
    TextFieldKeeps("Science", SubjectSpec, false, {}, emailOk);
  }

  /** Jane's email is non-blank, trimmed, fits its column and has no NUL. */
  lemma JaneEmailText()
    ensures var x := "jane.smith@example.com"; x != [] && Trimmed(x) && |x| <= EmailMax && NulFree(x)
  {
  }

  /** No fixture teacher holds Jane's email. */
  lemma JaneEmailFree()
    ensures "jane.smith@example.com" !in TeacherEmails(Fixture, None)
  {
    assert TeacherEmails(Fixture, None) == {"john.doe@example.com"};
    DifferAt("jane.smith@example.com", "john.doe@example.com", 1);
  }

  lemma JaneEmailField(emailOk: string -> bool)
    requires emailOk("jane.smith@example.com")
    ensures TextField(Some(JStr("jane.smith@example.com")), TeacherEmailSpec, false, TeacherEmails(Fixture, None), emailOk)
      == Clean(Some("jane.smith@example.com"))
  {
    var x, taken := "jane.smith@example.com", TeacherEmails(Fixture, None);
    JaneEmailText();
    JaneEmailFree();
    assert Violations(x, TeacherEmailSpec, taken, emailOk) == [];
    TextFieldKeeps(x, TeacherEmailSpec, false, taken, emailOk);
  }

  lemma JaneFields()
    ensures Get(JaneBody, "name") == Some(JStr("Jane Smith")) && Get(JaneBody, "subject") == Some(JStr("Science"))
    ensures Get(JaneBody, "email") == Some(JStr("jane.smith@example.com")) && Get(JaneBody, "phone") == None
  {
  }

  lemma JaneValid(emailOk: string -> bool)
    requires emailOk("jane.smith@example.com")
    ensures ValidateTeacher(Fixture, JaneBody, false, None, emailOk)
      == Success(TeacherData(Some("Jane Smith"), Some("Science"), Some("jane.smith@example.com"), None))
  {
    JaneNameField(emailOk);
    JaneSubjectField(emailOk);
    JaneEmailField(emailOk);
    JaneFields();
    NewTeacherValid(Fixture, JaneBody, "Jane Smith", "Science", "jane.smith@example.com", emailOk);
  }

  lemma JaneAccepted(emailOk: string -> bool)
    requires emailOk("jane.smith@example.com")
    ensures Valid(Fixture) && Fixture.nextTeacher == 2 && Fixture.teachers.Keys == {1}
    ensures ValidateTeacher(Fixture, JaneBody, false, None, emailOk)
      == Success(TeacherData(Some("Jane Smith"), Some("Science"), Some("jane.smith@example.com"), None))
  {
    FixtureValid();
    JaneValid(emailOk);
  }

  /** A well-formed teacher is stored as the second teacher, under key 2. */
  lemma CreateTeacherScenario(emailOk: string -> bool)
    requires emailOk("jane.smith@example.com")
    ensures var (s', r) := CreateTeacherIn(Fixture, JaneBody, emailOk);
      && r.Created? && s'.teachers.Keys == {1, 2}
      && s'.teachers[2] == Teacher("Jane Smith", "Science", "jane.smith@example.com", None)
  {
    var d := TeacherData(Some("Jane Smith"), Some("Science"), Some("jane.smith@example.com"), None);
    JaneAccepted(emailOk);
    NewTeacherStored(Fixture, JaneBody, emailOk, d);
    assert ApplyTeacher(BlankTeacher, d) == Teacher("Jane Smith", "Science", "jane.smith@example.com", None);
  }

  // Creating a student

  /** A body that names each student field, each accepted as it is,
      validates to exactly those fields. */
  lemma NewStudentValid(s: Store, body: Body, n: string, roll: string, e: string, c: Id, emailOk: string -> bool)
    requires Get(body, "name") == Some(JStr(n)) && Get(body, "rollNumber") == Some(JStr(roll))
    requires Get(body, "email") == Some(JStr(e)) && Get(body, "classId") == Some(JInt(c))
    requires TextField(Some(JStr(n)), StudentNameSpec, false, {}, emailOk) == Clean(Some(n))
    requires TextField(Some(JStr(roll)), RollNumberSpec, false, RollNumbers(s, None), emailOk) == Clean(Some(roll))
    requires TextField(Some(JStr(e)), StudentEmailSpec, false, StudentEmails(s, None), emailOk) == Clean(Some(e))
    requires c in s.classes
    ensures ValidateStudent(s, body, false, None, emailOk) == Success(StudentData(Some(n), Some(roll), Some(e), Some(c)))
  {
    assert CleanStudentFields(s, body, false, None, emailOk)
      == StudentFields(Clean(Some(n)), Clean(Some(roll)), Clean(Some(e)), Clean(Some(c)));
  }

  lemma NewStudentStored(s: Store, body: Body, emailOk: string -> bool, d: StudentData)
    requires Valid(s) && ValidateStudent(s, body, false, None, emailOk) == Success(d)
    ensures var (s', r) := CreateStudentIn(s, body, emailOk);
      && r.Created? && s'.students.Keys == s.students.Keys + {s.nextStudent}
      && s'.students[s.nextStudent] == ApplyStudent(BlankStudent, d)
  {
  }

  const BobBody: Body := map["name" := JStr("Bob Johnson"), "rollNumber" := JStr("S1002"),
                             "email" := JStr("bob@example.com"), "classId" := JInt(1)]

  lemma BobNameField(emailOk: string -> bool)
    ensures TextField(Some(JStr("Bob Johnson")), StudentNameSpec, false, {}, emailOk) == Clean(Some("Bob Johnson"))
  {
    TextFieldKeeps("Bob Johnson", StudentNameSpec, false, {}, emailOk);
  }

  lemma BobRollField(emailOk: string -> bool)
    ensures TextField(Some(JStr("S1002")), RollNumberSpec, false, RollNumbers(Fixture, None), emailOk) == Clean(Some("S1002"))
  {
    assert RollNumbers(Fixture, None) == {"S1024"};
    DifferAt("S1002", "S1024", 3);
    TextFieldKeeps("S1002", RollNumberSpec, false, RollNumbers(Fixture, None), emailOk);
  }

  lemma BobEmailField(emailOk: string -> bool)
    requires emailOk("bob@example.com")
    ensures TextField(Some(JStr("bob@example.com")), StudentEmailSpec, false, StudentEmails(Fixture, None), emailOk)
      == Clean(Some("bob@example.com"))
  {
    assert StudentEmails(Fixture, None) == {"alice@example.com"};
    DifferAt("bob@example.com", "alice@example.com", 0);
    TextFieldKeeps("bob@example.com", StudentEmailSpec, false, StudentEmails(Fixture, None), emailOk);
  }

  lemma BobFields()
    ensures Get(BobBody, "name") == Some(JStr("Bob Johnson")) && Get(BobBody, "rollNumber") == Some(JStr("S1002"))
    ensures Get(BobBody, "email") == Some(JStr("bob@example.com")) && Get(BobBody, "classId") == Some(JInt(1))
  {
  }

  lemma BobFieldsClean(emailOk: string -> bool)
    requires emailOk("bob@example.com")
    ensures TextField(Some(JStr("Bob Johnson")), StudentNameSpec, false, {}, emailOk) == Clean(Some("Bob Johnson"))
    ensures TextField(Some(JStr("S1002")), RollNumberSpec, false, RollNumbers(Fixture, None), emailOk) == Clean(Some("S1002"))
    ensures TextField(Some(JStr("bob@example.com")), StudentEmailSpec, false, StudentEmails(Fixture, None), emailOk)
      == Clean(Some("bob@example.com"))
    ensures 1 in Fixture.classes
  {
    BobNameField(emailOk);
    BobRollField(emailOk);
    BobEmailField(emailOk);
  }

  lemma BobValid(emailOk: string -> bool)
    requires emailOk("bob@example.com")
    ensures ValidateStudent(Fixture, BobBody, false, None, emailOk)
      == Success(StudentData(Some("Bob Johnson"), Some("S1002"), Some("bob@example.com"), Some(1)))
  {
    BobFields();
    BobFieldsClean(emailOk);
    NewStudentValid(Fixture, BobBody, "Bob Johnson", "S1002", "bob@example.com", 1, emailOk);
  }

  lemma BobAccepted(emailOk: string -> bool)
    requires emailOk("bob@example.com")
    ensures Valid(Fixture) && Fixture.nextStudent == 2 && Fixture.students.Keys == {1}
    ensures ValidateStudent(Fixture, BobBody, false, None, emailOk)
      == Success(StudentData(Some("Bob Johnson"), Some("S1002"), Some("bob@example.com"), Some(1)))
  {
    FixtureValid();
    BobValid(emailOk);
  }

  /** A well-formed student naming a stored class is stored, in that class. */
  lemma CreateStudentScenario(emailOk: string -> bool)
    requires emailOk("bob@example.com")
    ensures var (s', r) := CreateStudentIn(Fixture, BobBody, emailOk);
      && r.Created? && s'.students.Keys == {1, 2}
      && s'.students[2] == Student("Bob Johnson", "S1002", "bob@example.com", 1)
  {
    var d := StudentData(Some("Bob Johnson"), Some("S1002"), Some("bob@example.com"), Some(1));
    BobAccepted(emailOk);
    NewStudentStored(Fixture, BobBody, emailOk, d);
    assert ApplyStudent(BlankStudent, d) == Student("Bob Johnson", "S1002", "bob@example.com", 1);
  }

  // Reading, changing and deleting by key

  lemma KeyOne()
    ensures NatToString(1) == "1"
  {
  }

  /** `GET /teachers/999/` on the fixture is a 404 naming the model. */
  lemma NonexistentTeacherScenario()
    ensures RetrieveAt(Fixture, Teachers, "999", map[]) == NotFound("No Teacher matches the given query.")
  {
    FixtureValid();
    assert NatToString(999) == "999";
    ParseIntToString(999);
    MissingRowNotFound(Fixture, Teachers, "999");
  }

  /** `DELETE /students/1/` answers 204 and leaves no student. */
  lemma DeleteStudentScenario()
    ensures var (s', r) := DestroyAt(Fixture, Students, "1", map[]);
      r == NoContent && s'.students == map[] && s'.classes == Fixture.classes
  {
    FixtureValid();
    KeyOne();
    LocateStored(Fixture, Students, 1);
  }

  /** On a valid store, a teacher body that validates to `d` is written
      over the stored teacher and answered in the standard shape. */
  lemma TeacherChanged(s: Store, id: Id, body: Body, partial: bool, emailOk: string -> bool, d: TeacherData, t: Teacher)
    requires Valid(s) && id in s.teachers
    requires ValidateTeacher(s, body, partial, Some(id), emailOk) == Success(d)
    requires ApplyTeacher(s.teachers[id], d) == t
    ensures var (s', r) := UpdateTeacherIn(s, id, body, partial, emailOk);
      id in s'.teachers && s'.teachers[id] == t && r == Ok(TeacherShape(id, t))
  {
  }

  const PhoneBody: Body := map["phone" := JStr("+1234567890")]

  lemma PhoneGets()
    ensures Get(PhoneBody, "name") == None && Get(PhoneBody, "subject") == None
    ensures Get(PhoneBody, "email") == None && Get(PhoneBody, "phone") == Some(JStr("+1234567890"))
  {
  }

  lemma PhoneField(emailOk: string -> bool)
    ensures TextField(Some(JStr("+1234567890")), PhoneSpec, true, {}, emailOk) == Clean(Some("+1234567890"))
  {
    TextFieldKeeps("+1234567890", PhoneSpec, true, {}, emailOk);
  }

  /** A partial body naming only the phone validates to the phone alone. */
  lemma PhoneOnlyValid(s: Store, body: Body, p: string, id: Id, emailOk: string -> bool)
    requires Get(body, "name") == None && Get(body, "subject") == None
    requires Get(body, "email") == None && Get(body, "phone") == Some(JStr(p))
    requires TextField(Some(JStr(p)), PhoneSpec, true, {}, emailOk) == Clean(Some(p))
    ensures ValidateTeacher(s, body, true, Some(id), emailOk) == Success(TeacherData(None, None, None, Some(Some(p))))
  {
    assert CleanTeacherFields(s, body, true, Some(id), emailOk) == TeacherFields(Skipped, Skipped, Skipped, Clean(Some(p)));
  }

  const PatchedJohn := Teacher("John Doe", "Mathematics", "john.doe@example.com", Some("+1234567890"))

  lemma PhonePatched(emailOk: string -> bool)
    ensures var (s', r) := UpdateTeacherIn(Fixture, 1, PhoneBody, true, emailOk);
      1 in s'.teachers && s'.teachers[1] == PatchedJohn && r == Ok(TeacherShape(1, PatchedJohn))
  {
    FixtureValid();
    PhoneGets();
    PhoneField(emailOk);
    PhoneOnlyValid(Fixture, PhoneBody, "+1234567890", 1, emailOk);
    TeacherChanged(Fixture, 1, PhoneBody, true, emailOk, TeacherData(None, None, None, Some(Some("+1234567890"))), PatchedJohn);
  }

  /** `PATCH /teachers/1/` with a phone: the key names the fixture's
      teacher, whose phone is set while nothing else changes. */
  lemma PatchPhoneScenario(emailOk: string -> bool)
    ensures Locate(Fixture, Teachers, "1", map[]) == Success(1)
    ensures var (s', r) := UpdateTeacherIn(Fixture, 1, PhoneBody, true, emailOk);
      && r.Ok? && 1 in s'.teachers
      && s'.teachers[1] == Teacher("John Doe", "Mathematics", "john.doe@example.com", Some("+1234567890"))
      && r.body["phone"] == JStr("+1234567890")
  {
    FixtureValid();
    KeyOne();
    LocateStored(Fixture, Teachers, 1);
    PhonePatched(emailOk);
  }

  /** The fixture plus a second class, without a teacher. */
  const WithClassB := Fixture.(classes := Fixture.classes[2 := SchoolClass("Class 10-B", None)], nextClass := 3)

  lemma WithClassBValid()
    ensures Valid(WithClassB)
  {
    FixtureValid();
    assert ClassFits(SchoolClass("Class 10-B", None));
    DifferAt("Class 10-B", "Class 10-A", 9);
  }

  const MoveBody: Body := map["classId" := JInt(2)]

  lemma MoveGets()
    ensures Get(MoveBody, "name") == None && Get(MoveBody, "rollNumber") == None
    ensures Get(MoveBody, "email") == None && Get(MoveBody, "classId") == Some(JInt(2))
  {
  }

  /** A partial body naming only the class validates to the class alone. */
  lemma ClassOnlyValid(s: Store, body: Body, c: Id, id: Id, emailOk: string -> bool)
    requires Get(body, "name") == None && Get(body, "rollNumber") == None
    requires Get(body, "email") == None && Get(body, "classId") == Some(JInt(c))
    requires c in s.classes
    ensures ValidateStudent(s, body, true, Some(id), emailOk) == Success(StudentData(None, None, None, Some(c)))
  {
    assert CleanStudentFields(s, body, true, Some(id), emailOk) == StudentFields(Skipped, Skipped, Skipped, Clean(Some(c)));
  }

  lemma MoveAccepted(emailOk: string -> bool)
    ensures Valid(WithClassB) && 1 in WithClassB.students
    ensures Locate(WithClassB, Students, "1", map[]) == Success(1)
    ensures ValidateStudent(WithClassB, MoveBody, true, Some(1), emailOk) == Success(StudentData(None, None, None, Some(2)))
  {
    WithClassBValid();
    KeyOne();
    LocateStored(WithClassB, Students, 1);
    MoveGets();
    ClassOnlyValid(WithClassB, MoveBody, 2, 1, emailOk);
  }

  /** A partial update that validates to a class change alone writes that
      class, and the answer carries it as a string. */
  lemma MoveWrites(s: Store, key: string, id: Id, body: Body, c: Id, emailOk: string -> bool)
    requires Valid(s) && id in s.students && Locate(s, Students, key, map[]) == Success(id)
    requires ValidateStudent(s, body, true, Some(id), emailOk) == Success(StudentData(None, None, None, Some(c)))
    ensures var (s', r) := UpdateAt(s, Students, key, body, true, map[], emailOk);
      && r.Ok? && id in s'.students
      && s'.students[id] == s.students[id].(classAssigned := c)
      && "classId" in r.body && r.body["classId"] == JStr(NatToString(c))
  {
    var moved := s.students[id].(classAssigned := c);
    ChangeStudentWrites(s, id, body, true, emailOk, StudentData(None, None, None, Some(c)));
    var s2 := s.(students := s.students[id := moved]);
    assert UpdateAt(s, Students, key, body, true, map[], emailOk) == (s2, Ok(StudentShape(id, moved)));
  }

  /** `PATCH /students/1/` with another class's key moves the student
      there, and the answer shows the new class as a string. */
  lemma MoveStudentScenario(emailOk: string -> bool)
    ensures var (s', r) := UpdateAt(WithClassB, Students, "1", MoveBody, true, map[], emailOk);
      && r.Ok? && 1 in s'.students
      && s'.students[1] == Alice.(classAssigned := 2)
      && "classId" in r.body && r.body["classId"] == JStr("2")
  {
    MoveAccepted(emailOk);
    MoveWrites(WithClassB, "1", 1, MoveBody, 2, emailOk);
    assert NatToString(2) == "2";
  }

  // Pagination

  /** Sixteen rows (the fixture's teacher and fifteen more) make two pages
      of the default size: ten rows with a link forward, then six with a
      link back. */
  lemma PaginationScenario(s: Store, res: Resource, ids: seq<Id>)
    requires AllExist(s, res, ids) && |ids| == 16
    ensures var r := PageOf(s, res, ids, map["page" := "1"]);
      && r.Listed? && r.page.count == 16 && |r.page.results| == 10
      && r.page.next == Some(2) && r.page.previous == None
    ensures var r := PageOf(s, res, ids, map["page" := "2"]);
      && r.Listed? && r.page.count == 16 && |r.page.results| == 6
      && r.page.next == None && r.page.previous == Some(1)
  {
    PageQuery("1", 1);
    PageQuery("2", 2);
    assert NumPages(16, 10) == 2;
    PageSizes(ids, 10, 1);
    PageSizes(ids, 10, 2);
  }

  /** A query naming only the page takes the default page size and selects
      the page it names. */
  lemma PageQuery(v: string, k: nat)
    requires NatToString(k) == v && 1 <= k <= 2
    ensures PageSize(map["page" := v]) == PageSizeDefault
    ensures PageNumber(map["page" := v], NumPages(16, PageSizeDefault)) == Some(k)
  {
    var q := map["page" := v];
    assert Param(q, "page_size") == "";
    assert Param(q, "page") == v;
    ParseIntToString(k);
    assert NumPages(16, 10) == 2;
  }
}

=== FILE: serializers.dfy ===
/** The representation layer: how a request body becomes validated data
    (presence, null and blank checks, trimming, column widths, unique and
    reference checks, then each serializer's `validate_<field>` method), how
    validated data is written, and how stored records are rendered. */
module Serializers {
  import opened Results
  import opened Text
  import opened Wire
  import opened Models
  import opened Keys

  /** A 400 response body: wire field name to its messages. */
  type Errors = map<string, seq<string>>

  const RequiredMsg := "This field is required."
  const NullMsg := "This field may not be null."
  const BlankMsg := "This field may not be blank."
  const NotStringMsg := "Not a valid string."
  const InvalidEmailMsg := "Enter a valid email address."
  const NulCharMsg := "Null characters are not allowed."

  const NameRequiredMsg := "Name is required."
  const SubjectRequiredMsg := "Subject is required."
  const RollNumberRequiredMsg := "Roll number is required."
  const ClassNameRequiredMsg := "Class name is required."

  const TeacherEmailTakenMsg := "Teacher with this email already exists."
  const StudentEmailTakenMsg := "Student with this email already exists."
  const RollNumberTakenMsg := "A student with this roll number already exists."
  const ClassNameTakenMsg := "Class with this name already exists."

  function MaxLengthMsg(n: nat): string {
    "Ensure this field has no more than " + NatToString(n) + " characters."
  }

  function DoesNotExistMsg(pk: string): string {
    "Invalid pk \"" + pk + "\" - object does not exist."
  }

  function IncorrectTypeMsg(typeName: string): string {
    "Incorrect type. Expected pk value, received " + typeName + "."
  }

  // ---------------------------------------------------------------------
  // The serializers' own `validate_<field>` methods.
  // ---------------------------------------------------------------------

  function StripRequired(value: string, message: string): (r: Result<string, string>)
    ensures r.Failure? <==> AllSpace(value)
    ensures r.Failure? ==> r.error == message
    ensures r.Success? ==> r.value == Trim(value) && r.value != [] && Trimmed(r.value)
  {
    var v := Trim(value);
    if v == [] then Failure(message) else Success(v)
  }

  /** `validate_name` of the teacher and of the student serializer. */
  function ValidateName(value: string): (r: Result<string, string>)
    ensures r.Failure? <==> AllSpace(value)
    ensures r.Failure? ==> r.error == "Name is required."
    ensures r.Success? ==> r.value == Trim(value) && r.value != []
  {
    StripRequired(value, NameRequiredMsg)
  }

  function ValidateSubject(value: string): (r: Result<string, string>)
    ensures r.Failure? <==> AllSpace(value)
    ensures r.Failure? ==> r.error == "Subject is required."
    ensures r.Success? ==> r.value == Trim(value) && r.value != []
  {
    StripRequired(value, SubjectRequiredMsg)
  }

  function ValidateRollNumber(value: string): (r: Result<string, string>)
    ensures r.Failure? <==> AllSpace(value)
    ensures r.Failure? ==> r.error == "Roll number is required."
    ensures r.Success? ==> r.value == Trim(value) && r.value != []
  {
    StripRequired(value, RollNumberRequiredMsg)
  }

  /** `validate_name` of the class serializer. */
  function ValidateClassName(value: string): (r: Result<string, string>)
    ensures r.Failure? <==> AllSpace(value)
    ensures r.Failure? ==> r.error == "Class name is required."
    ensures r.Success? ==> r.value == Trim(value) && r.value != []
  {
    StripRequired(value, ClassNameRequiredMsg)
  }

  // ---------------------------------------------------------------------
  // Field pipeline.
  // ---------------------------------------------------------------------

  /** What one field contributes to validated data: nothing (the request
      left it out and it may be left out), a cleaned value, or its errors. */
  datatype Field<+T> = Skipped | Clean(value: T) | Rejected(messages: seq<string>)

  datatype Method = NoMethod | NameMethod | SubjectMethod | RollNumberMethod | ClassNameMethod

  /** The declared options of a text field. `unique` holds the message of
      its unique validator, if it has one. */
  datatype TextSpec = TextSpec(
    required: bool,
    allowBlank: bool,
    allowNull: bool,
    maxLength: Option<nat>,
    isEmail: bool,
    unique: Option<string>,
    custom: Method)

  /** Runs the serializer's `validate_<field>` method, if the field has one. */
  function RunMethod(m: Method, value: string): (r: Result<string, string>)
    ensures m.NoMethod? ==> r == Success(value)
    ensures !m.NoMethod? ==> (r.Failure? <==> AllSpace(value)) && (r.Success? ==> r.value == Trim(value))
  {
    match m
    case NoMethod => Success(value)
    case NameMethod => ValidateName(value)
    case SubjectMethod => ValidateSubject(value)
    case RollNumberMethod => ValidateRollNumber(value)
    case ClassNameMethod => ValidateClassName(value)
  }

  /** The messages of the field's validators on the trimmed value, in the
      order they are attached: unique, maximum length, the null-character
      check every text field carries, email syntax. `taken` holds the
      values other rows already use. */
  function Violations(t: string, spec: TextSpec, taken: set<string>, emailOk: string -> bool): (r: seq<string>)
    ensures r == [] <==>
      && (spec.unique.Some? ==> t !in taken)
      && (spec.maxLength.Some? ==> |t| <= spec.maxLength.value)
      && NulFree(t)
      && (spec.isEmail ==> emailOk(t))
    ensures !NulFree(t) ==> NulCharMsg in r
  {
    (if spec.unique.Some? && t in taken then [spec.unique.value] else [])
    + (if spec.maxLength.Some? && |t| > spec.maxLength.value then [MaxLengthMsg(spec.maxLength.value)] else [])
    + (if !NulFree(t) then [NulCharMsg] else [])
    + (if spec.isEmail && !emailOk(t) then [InvalidEmailMsg] else [])
  }

  /** A present, non-blank value: trimmed, then checked by the validators,
      then by the serializer's method, which cannot fail on it. */
  function CleanText(text: string, spec: TextSpec, taken: set<string>, emailOk: string -> bool): (r: Field<Option<string>>)
    requires !AllSpace(text)
    ensures var t := Trim(text);
      && t != [] && Trimmed(t)
      && (r.Rejected? <==> Violations(t, spec, taken, emailOk) != [])
      && (r.Rejected? ==> r.messages == Violations(t, spec, taken, emailOk))
      && (r.Clean? ==> r.value == Some(t))
      && !r.Skipped?
  {
    var t := Trim(text);
    var problems := Violations(t, spec, taken, emailOk);
    if problems != [] then
      Rejected(problems)
    else
      assert !IsSpace(t[0]);
      Finish(RunMethod(spec.custom, t))
  }

  /** What a text field answers for a value that is neither text nor an
      integer (a boolean, an array, an object): its `invalid` message, which
      an email field replaces with the email message. */
  function NotTextMsg(spec: TextSpec): string {
    if spec.isEmail then InvalidEmailMsg else NotStringMsg
  }

  /** One text field, as the field and then the serializer's method see it:
      absent, blank (empty once trimmed), null, not a string, otherwise
      trimmed and passed to the validators and the method. */
  function TextField(raw: Option<Json>, spec: TextSpec, partial: bool,
                     taken: set<string>, emailOk: string -> bool): (r: Field<Option<string>>)
    ensures r.Skipped? <==> raw.None? && (partial || !spec.required)
    ensures raw.None? && !partial && spec.required ==> r == Rejected([RequiredMsg])
    ensures raw == Some(JNull) ==> r == (if spec.allowNull then Clean(None) else Rejected([NullMsg]))
    ensures raw.Some? && (raw.value.JBool? || raw.value.JArr? || raw.value.JObj?) ==>
      r == Rejected([if spec.isEmail then InvalidEmailMsg else NotStringMsg])
    ensures raw.Some? && raw.value.JStr? && AllSpace(raw.value.s) && !spec.allowBlank ==>
      r == Rejected([BlankMsg])
    ensures raw.Some? && raw.value.JStr? && !AllSpace(raw.value.s) ==>
      var t := Trim(raw.value.s);
      && (r.Rejected? <==> Violations(t, spec, taken, emailOk) != [])
      && (r.Rejected? ==> r.messages == Violations(t, spec, taken, emailOk))
      && (r.Clean? ==> r.value == Some(t))
    ensures r.Clean? && r.value.None? ==> spec.allowNull
    ensures r.Clean? && r.value.Some? ==>
      var t := r.value.value;
      && Trimmed(t)
      && (t == [] ==> spec.allowBlank)
      && (t != [] ==> Violations(t, spec, taken, emailOk) == [])
  {
    match raw
    case None =>
      if partial || !spec.required then Skipped else Rejected([RequiredMsg])
    case Some(v) =>
      match v
      case JStr(text) =>
        if AllSpace(text) then
          if !spec.allowBlank then Rejected([BlankMsg]) else Finish(RunMethod(spec.custom, ""))
        else
          CleanText(text, spec, taken, emailOk)
      case JInt(i) =>
        IntToStringNotBlank(i);
        CleanText(IntToString(i), spec, taken, emailOk)
      case JNull =>
        if spec.allowNull then Clean(None) else Rejected([NullMsg])
      case _ => Rejected([NotTextMsg(spec)])
  }

  /** An integer given to a text field is checked as its decimal text,
      which needs no trimming. */
  lemma IntTextField(i: int, spec: TextSpec, partial: bool, taken: set<string>, emailOk: string -> bool)
    ensures var t, r := IntToString(i), TextField(Some(JInt(i)), spec, partial, taken, emailOk);
      && (r.Rejected? <==> Violations(t, spec, taken, emailOk) != [])
      && (r.Rejected? ==> r.messages == Violations(t, spec, taken, emailOk))
      && (r.Clean? ==> r.value == Some(t))
  {
    IntToStringNotBlank(i);
  }

  function Finish(m: Result<string, string>): Field<Option<string>> {
    match m
    case Success(v) => Clean(Some(v))
    case Failure(e) => Rejected([e])
  }

  /** The declared options of a primary-key reference field. */
  datatype PkSpec = PkSpec(required: bool, allowNull: bool)

  /** A primary-key reference field: the given key must name a stored
      record. An empty string counts as null. */
  function PkField(raw: Option<Json>, spec: PkSpec, partial: bool, ids: set<Id>): (r: Field<Option<Id>>)
    ensures r.Skipped? <==> raw.None? && (partial || !spec.required)
    ensures raw.None? && !partial && spec.required ==> r == Rejected([RequiredMsg])
    ensures raw == Some(JNull) || raw == Some(JStr("")) ==>
      r == (if spec.allowNull then Clean(None) else Rejected([NullMsg]))
    ensures forall i: int :: raw == Some(JInt(i)) ==> (r.Clean? <==> i >= 0 && i in ids)
    ensures raw.Some? && raw.value.JStr? && ParseInt(raw.value.s).Some? ==>
      (r.Clean? <==> ParseInt(raw.value.s).value >= 0 && ParseInt(raw.value.s).value in ids)
    ensures raw.Some? && raw.value.JStr? && raw.value.s != "" && ParseInt(raw.value.s).None? ==>
      r == Rejected([IncorrectTypeMsg("str")])
    ensures r.Clean? && r.value.Some? ==> r.value.value in ids
    ensures r.Clean? && r.value.None? ==> spec.allowNull
    ensures r.Clean? && raw.Some? && raw.value.JInt? ==> r.value == Some(raw.value.i as nat)
    ensures r.Clean? && raw.Some? && raw.value.JStr? && raw.value.s != "" ==>
      r.value.Some? && ParseInt(raw.value.s) == Some(r.value.value)
  {
    match raw
    case None =>
      if partial || !spec.required then Skipped else Rejected([RequiredMsg])
    case Some(v) =>
      match v
      case JNull =>
        if spec.allowNull then Clean(None) else Rejected([NullMsg])
      case JStr(s) =>
        if s == "" then
          if spec.allowNull then Clean(None) else Rejected([NullMsg])
        else
          (match ParseInt(s)
           case Some(n) => if n >= 0 && n in ids then Clean(Some(n)) else Rejected([DoesNotExistMsg(s)])
           case None => Rejected([IncorrectTypeMsg("str")]))
      case JInt(i) =>
        if i >= 0 && i in ids then Clean(Some(i)) else Rejected([DoesNotExistMsg(IntToString(i))])
      case JBool(_) => Rejected([IncorrectTypeMsg("bool")])
      case JArr(_) => Rejected([IncorrectTypeMsg("list")])
      case JObj(_) => Rejected([IncorrectTypeMsg("dict")])
  }

  function Get(body: Body, key: string): Option<Json> {
    if key in body then Some(body[key]) else None
  }

  /** The error-map entry of one field: present exactly when it is rejected. */
  function Report<T>(key: string, f: Field<T>): (r: Errors)
    ensures r.Keys == if f.Rejected? then {key} else {}
    ensures f.Rejected? ==> r[key] == f.messages
  {
    if f.Rejected? then map[key := f.messages] else map[]
  }

  /** The value a field puts into validated data, if it puts one. */
  function Supplied<T>(f: Field<T>): Option<T> {
    if f.Clean? then Some(f.value) else None
  }

  /** For a non-nullable text field, the supplied string itself. */
  function SuppliedText(f: Field<Option<string>>): Option<string> {
    if f.Clean? && f.value.Some? then Some(f.value.value) else None
  }

  // ---------------------------------------------------------------------
  // TeacherSerializer
  // ---------------------------------------------------------------------

  const TeacherNameSpec := TextSpec(true, false, false, Some(NameMax), false, None, NameMethod)
  const SubjectSpec := TextSpec(true, false, false, Some(SubjectMax), false, None, SubjectMethod)
  const TeacherEmailSpec := TextSpec(true, false, false, Some(EmailMax), true, Some(TeacherEmailTakenMsg), NoMethod)
  const PhoneSpec := TextSpec(false, true, true, Some(PhoneMax), false, None, NoMethod)

  datatype TeacherFields = TeacherFields(
    name: Field<Option<string>>,
    subject: Field<Option<string>>,
    email: Field<Option<string>>,
    phone: Field<Option<string>>)

  /** The emails of the teachers other than `self`. */
  function TeacherEmails(s: Store, self: Option<Id>): set<string> {
    set k | k in s.teachers && Some(k) != self :: s.teachers[k].email
  }

  /** Every field of a teacher body, each validated on its own. */
  function CleanTeacherFields(s: Store, body: Body, partial: bool, self: Option<Id>,
                              emailOk: string -> bool): TeacherFields {
    TeacherFields(
      TextField(Get(body, "name"), TeacherNameSpec, partial, {}, emailOk),
      TextField(Get(body, "subject"), SubjectSpec, partial, {}, emailOk),
      TextField(Get(body, "email"), TeacherEmailSpec, partial, TeacherEmails(s, self), emailOk),
      TextField(Get(body, "phone"), PhoneSpec, partial, {}, emailOk))
  }

  /** Validated data of a teacher: the fields the request supplied. */
  datatype TeacherData = TeacherData(
    name: Option<string>,
    subject: Option<string>,
    email: Option<string>,
    phone: Option<Option<string>>)

  /** What validated teacher data guarantees: trimmed, non-blank where
      blank is refused, within the column widths, a fresh valid email. */
  predicate TeacherDataSound(s: Store, d: TeacherData, self: Option<Id>, emailOk: string -> bool) {
    && (d.name.Some? ==> d.name.value != [] && Trimmed(d.name.value) && NulFree(d.name.value) && |d.name.value| <= NameMax)
    && (d.subject.Some? ==> d.subject.value != [] && Trimmed(d.subject.value) && NulFree(d.subject.value) && |d.subject.value| <= SubjectMax)
    && (d.email.Some? ==>
          && d.email.value != [] && Trimmed(d.email.value) && NulFree(d.email.value) && |d.email.value| <= EmailMax
          && emailOk(d.email.value) && d.email.value !in TeacherEmails(s, self))
    && (d.phone.Some? && d.phone.value.Some? ==> Trimmed(d.phone.value.value) && NulFree(d.phone.value.value) && |d.phone.value.value| <= PhoneMax)
  }

  /** The error map of a teacher body: one entry per rejected field. */
  function TeacherErrors(f: TeacherFields): (e: Errors)
    ensures e.Keys <= {"name", "subject", "email", "phone"}
    ensures ("name" in e <==> f.name.Rejected?) && ("subject" in e <==> f.subject.Rejected?)
    ensures ("email" in e <==> f.email.Rejected?) && ("phone" in e <==> f.phone.Rejected?)
    ensures f.name.Rejected? ==> e["name"] == f.name.messages
    ensures f.subject.Rejected? ==> e["subject"] == f.subject.messages
    ensures f.email.Rejected? ==> e["email"] == f.email.messages
  {
    Report("name", f.name) + Report("subject", f.subject)
    + Report("email", f.email) + Report("phone", f.phone)
  }

  /** `TeacherSerializer.is_valid()`: every field is checked and every
      failing field is reported, keyed by its wire name. */
  function ValidateTeacher(s: Store, body: Body, partial: bool, self: Option<Id>,
                           emailOk: string -> bool): (r: Result<TeacherData, Errors>)
    ensures var f := CleanTeacherFields(s, body, partial, self, emailOk);
      && (r.Failure? <==> f.name.Rejected? || f.subject.Rejected? || f.email.Rejected? || f.phone.Rejected?)
      && (r.Failure? ==> r.error == TeacherErrors(f))
    ensures r.Success? ==> TeacherDataSound(s, r.value, self, emailOk)
    ensures r.Success? ==>
      && (r.value.name.Some? <==> "name" in body)
      && (r.value.subject.Some? <==> "subject" in body)
      && (r.value.email.Some? <==> "email" in body)
      && (r.value.phone.Some? <==> "phone" in body)
    ensures r.Success? && !partial ==> r.value.name.Some? && r.value.subject.Some? && r.value.email.Some?
  {
    var f := CleanTeacherFields(s, body, partial, self, emailOk);
    if f.name.Rejected? || f.subject.Rejected? || f.email.Rejected? || f.phone.Rejected? then
      Failure(TeacherErrors(f))
    else
      Success(TeacherData(SuppliedText(f.name), SuppliedText(f.subject), SuppliedText(f.email), Supplied(f.phone)))
  }

  /** The record a new teacher starts from: model defaults. */
  const BlankTeacher := Teacher("", "", "", None)

  /** `setattr` of every supplied field. */
  function ApplyTeacher(t: Teacher, d: TeacherData): Teacher {
    Teacher(d.name.GetOr(t.name), d.subject.GetOr(t.subject), d.email.GetOr(t.email), d.phone.GetOr(t.phone))
  }

  /** A teacher row as the serializer writes it: its strings trimmed and free of NUL, the
      required ones non-blank, the email accepted by the email validator. */
  predicate CleanTeacher(t: Teacher, emailOk: string -> bool) {
    && t.name != [] && Trimmed(t.name) && NulFree(t.name)
    && t.subject != [] && Trimmed(t.subject) && NulFree(t.subject)
    && t.email != [] && Trimmed(t.email) && NulFree(t.email) && emailOk(t.email)
    && (t.phone.Some? ==> Trimmed(t.phone.value) && NulFree(t.phone.value))
  }

  // ---------------------------------------------------------------------
  // StudentSerializer
  // ---------------------------------------------------------------------

  const StudentNameSpec := TextSpec(true, false, false, Some(NameMax), false, None, NameMethod)
  const StudentEmailSpec := TextSpec(true, false, false, Some(EmailMax), true, Some(StudentEmailTakenMsg), NoMethod)
  const ClassIdSpec := PkSpec(true, false)

  /** The roll-number field as declared: an explicit CharField with the
      unique validator and no maximum length. */
  const RollNumberSpecAsWritten := TextSpec(true, false, false, None, false, Some(RollNumberTakenMsg), RollNumberMethod)

  /** The roll-number field bounded by its column width. */
  const RollNumberSpec := TextSpec(true, false, false, Some(RollNumberMax), false, Some(RollNumberTakenMsg), RollNumberMethod)

  datatype StudentFields = StudentFields(
    name: Field<Option<string>>,
    rollNumber: Field<Option<string>>,
    email: Field<Option<string>>,
    classId: Field<Option<Id>>)

  function RollNumbers(s: Store, self: Option<Id>): set<string> {
    set k | k in s.students && Some(k) != self :: s.students[k].rollNumber
  }

  function StudentEmails(s: Store, self: Option<Id>): set<string> {
    set k | k in s.students && Some(k) != self :: s.students[k].email
  }

  function CleanStudentFields(s: Store, body: Body, partial: bool, self: Option<Id>,
                              emailOk: string -> bool): StudentFields {
    StudentFields(
      TextField(Get(body, "name"), StudentNameSpec, partial, {}, emailOk),
      TextField(Get(body, "rollNumber"), RollNumberSpec, partial, RollNumbers(s, self), emailOk),
      TextField(Get(body, "email"), StudentEmailSpec, partial, StudentEmails(s, self), emailOk),
      PkField(Get(body, "classId"), ClassIdSpec, partial, s.classes.Keys))
  }

  /** Validated data of a student, under storage names. */
  datatype StudentData = StudentData(
    name: Option<string>,
    rollNumber: Option<string>,
    email: Option<string>,
    classAssigned: Option<Id>)

  predicate StudentDataSound(s: Store, d: StudentData, self: Option<Id>, emailOk: string -> bool) {
    && (d.name.Some? ==> d.name.value != [] && Trimmed(d.name.value) && NulFree(d.name.value) && |d.name.value| <= NameMax)
    && (d.rollNumber.Some? ==>
          && d.rollNumber.value != [] && Trimmed(d.rollNumber.value) && NulFree(d.rollNumber.value) && |d.rollNumber.value| <= RollNumberMax
          && d.rollNumber.value !in RollNumbers(s, self))
    && (d.email.Some? ==>
          && d.email.value != [] && Trimmed(d.email.value) && NulFree(d.email.value) && |d.email.value| <= EmailMax
          && emailOk(d.email.value) && d.email.value !in StudentEmails(s, self))
    && (d.classAssigned.Some? ==> d.classAssigned.value in s.classes)
  }

  /** The error map of a student body: one entry per rejected field. */
  function StudentErrors(f: StudentFields): (e: Errors)
    ensures e.Keys <= {"name", "rollNumber", "email", "classId"}
    ensures ("name" in e <==> f.name.Rejected?) && ("rollNumber" in e <==> f.rollNumber.Rejected?)
    ensures ("email" in e <==> f.email.Rejected?) && ("classId" in e <==> f.classId.Rejected?)
    ensures f.rollNumber.Rejected? ==> e["rollNumber"] == f.rollNumber.messages
    ensures f.classId.Rejected? ==> e["classId"] == f.classId.messages
  {
    Report("name", f.name) + Report("rollNumber", f.rollNumber)
    + Report("email", f.email) + Report("classId", f.classId)
  }

  /** `StudentSerializer.is_valid()`; `rollNumber` and `classId` are the wire
      names of `roll_number` and `class_assigned`. */
  function ValidateStudent(s: Store, body: Body, partial: bool, self: Option<Id>,
                           emailOk: string -> bool): (r: Result<StudentData, Errors>)
    ensures var f := CleanStudentFields(s, body, partial, self, emailOk);
      && (r.Failure? <==> f.name.Rejected? || f.rollNumber.Rejected? || f.email.Rejected? || f.classId.Rejected?)
      && (r.Failure? ==> r.error == StudentErrors(f))
    ensures r.Success? ==> StudentDataSound(s, r.value, self, emailOk)
    ensures r.Success? ==>
      && (r.value.name.Some? <==> "name" in body)
      && (r.value.rollNumber.Some? <==> "rollNumber" in body)
      && (r.value.email.Some? <==> "email" in body)
      && (r.value.classAssigned.Some? <==> "classId" in body)
    ensures r.Success? && !partial ==>
      r.value.name.Some? && r.value.rollNumber.Some? && r.value.email.Some? && r.value.classAssigned.Some?
  {
    var f := CleanStudentFields(s, body, partial, self, emailOk);
    if f.name.Rejected? || f.rollNumber.Rejected? || f.email.Rejected? || f.classId.Rejected? then
      Failure(StudentErrors(f))
    else
      var classAssigned := if f.classId.Clean? && f.classId.value.Some? then Some(f.classId.value.value) else None;
      Success(StudentData(SuppliedText(f.name), SuppliedText(f.rollNumber), SuppliedText(f.email), classAssigned))
  }

  /** A new student before its fields are set. Key 0 is never stored, so it
      stands for the missing class reference that the database refuses. */
  const BlankStudent := Student("", "", "", 0)

  function ApplyStudent(st: Student, d: StudentData): Student {
    Student(d.name.GetOr(st.name), d.rollNumber.GetOr(st.rollNumber), d.email.GetOr(st.email),
            d.classAssigned.GetOr(st.classAssigned))
  }

  predicate CleanStudent(st: Student, emailOk: string -> bool) {
    && st.name != [] && Trimmed(st.name) && NulFree(st.name)
    && st.rollNumber != [] && Trimmed(st.rollNumber) && NulFree(st.rollNumber)
    && st.email != [] && Trimmed(st.email) && NulFree(st.email) && emailOk(st.email)
  }

  // ---------------------------------------------------------------------
  // SchoolClassSerializer
  // ---------------------------------------------------------------------

  const ClassNameSpec := TextSpec(true, false, false, Some(ClassNameMax), false, Some(ClassNameTakenMsg), ClassNameMethod)
  const TeacherIdSpec := PkSpec(false, true)

  datatype ClassFields = ClassFields(name: Field<Option<string>>, teacherId: Field<Option<Id>>)

  function ClassNames(s: Store, self: Option<Id>): set<string> {
    set k | k in s.classes && Some(k) != self :: s.classes[k].name
  }

  function CleanClassFields(s: Store, body: Body, partial: bool, self: Option<Id>, emailOk: string -> bool): ClassFields {
    ClassFields(
      TextField(Get(body, "name"), ClassNameSpec, partial, ClassNames(s, self), emailOk),
      PkField(Get(body, "teacherId"), TeacherIdSpec, partial, s.teachers.Keys))
  }

  /** Validated data of a class; `teacher` is `Some(None)` when the request
      sets the teacher to null. */
  datatype ClassData = ClassData(name: Option<string>, teacher: Option<Option<Id>>)

  predicate ClassDataSound(s: Store, d: ClassData, self: Option<Id>) {
    && (d.name.Some? ==>
          && d.name.value != [] && Trimmed(d.name.value) && NulFree(d.name.value) && |d.name.value| <= ClassNameMax
          && d.name.value !in ClassNames(s, self))
    && (d.teacher.Some? && d.teacher.value.Some? ==> d.teacher.value.value in s.teachers)
  }

  /** The error map of a class body: one entry per rejected field. */
  function ClassErrors(f: ClassFields): (e: Errors)
    ensures e.Keys <= {"name", "teacherId"}
    ensures ("name" in e <==> f.name.Rejected?) && ("teacherId" in e <==> f.teacherId.Rejected?)
    ensures f.name.Rejected? ==> e["name"] == f.name.messages
    ensures f.teacherId.Rejected? ==> e["teacherId"] == f.teacherId.messages
  {
    Report("name", f.name) + Report("teacherId", f.teacherId)
  }

  /** `SchoolClassSerializer.is_valid()`; `teacherId` is the wire name of
      `teacher`, optional and nullable. */
  function ValidateClass(s: Store, body: Body, partial: bool, self: Option<Id>,
                         emailOk: string -> bool): (r: Result<ClassData, Errors>)
    ensures var f := CleanClassFields(s, body, partial, self, emailOk);
      && (r.Failure? <==> f.name.Rejected? || f.teacherId.Rejected?)
      && (r.Failure? ==> r.error == ClassErrors(f))
    ensures r.Success? ==> ClassDataSound(s, r.value, self)
    ensures r.Success? ==> (r.value.name.Some? <==> "name" in body) && (r.value.teacher.Some? <==> "teacherId" in body)
    ensures r.Success? && !partial ==> r.value.name.Some?
  {
    var f := CleanClassFields(s, body, partial, self, emailOk);
    if f.name.Rejected? || f.teacherId.Rejected? then
      Failure(ClassErrors(f))
    else
      Success(ClassData(SuppliedText(f.name), Supplied(f.teacherId)))
  }

  const BlankClass := SchoolClass("", None)

  predicate CleanClass(c: SchoolClass) {
    c.name != [] && Trimmed(c.name) && NulFree(c.name)
  }

  function ApplyClass(c: SchoolClass, d: ClassData): SchoolClass {
    SchoolClass(d.name.GetOr(c.name), d.teacher.GetOr(c.teacher))
  }
}

/** `serializer.save()` for each record kind: validated data written through
    the store, which enforces its own constraints as a last line of defence. */
module Saving {
  import opened Results
  import opened Text
  import opened Wire
  import opened Models
  import opened Serializers

  /** Why a create or update did not happen: the body failed validation
      (a 400), or the database refused the row (an unhandled error). */
  datatype WriteError = Invalid(errors: Errors) | Refused(cause: StoreError)

  /** Validated teacher data, merged over a record the store already
      accepts (or over the blank record with every field supplied), is a
      row the store accepts under `self`. */
  lemma TeacherRowAccepted(s: Store, base: Teacher, d: TeacherData, self: Id, emailOk: string -> bool)
    requires Valid(s)
    requires TeacherDataSound(s, d, if self in s.teachers then Some(self) else None, emailOk)
    requires self in s.teachers ==> base == s.teachers[self]
    requires self !in s.teachers ==> d.name.Some? && d.subject.Some? && d.email.Some? && base == BlankTeacher
    ensures TeacherFits(ApplyTeacher(base, d))
    ensures TeacherEmailFree(s.teachers, ApplyTeacher(base, d).email, self)
  {
    var t := ApplyTeacher(base, d);
    var me := if self in s.teachers then Some(self) else None;
    forall k | k in s.teachers && k != self
      ensures s.teachers[k].email != t.email
    {
      assert s.teachers[k].email in TeacherEmails(s, me);
    }
  }

  lemma ClassRowAccepted(s: Store, base: SchoolClass, d: ClassData, self: Id)
    requires Valid(s)
    requires ClassDataSound(s, d, if self in s.classes then Some(self) else None)
    requires self in s.classes ==> base == s.classes[self]
    requires self !in s.classes ==> d.name.Some? && base == BlankClass
    ensures var c := ApplyClass(base, d);
      ClassFits(c) && ClassNameFree(s.classes, c.name, self) && (c.teacher.None? || c.teacher.value in s.teachers)
  {
    var c := ApplyClass(base, d);
    var me := if self in s.classes then Some(self) else None;
    forall k | k in s.classes && k != self
      ensures s.classes[k].name != c.name
    {
      assert s.classes[k].name in ClassNames(s, me);
    }
  }

  lemma StudentRowAccepted(s: Store, base: Student, d: StudentData, self: Id, emailOk: string -> bool)
    requires Valid(s)
    requires StudentDataSound(s, d, if self in s.students then Some(self) else None, emailOk)
    requires self in s.students ==> base == s.students[self]
    requires self !in s.students ==>
      d.name.Some? && d.rollNumber.Some? && d.email.Some? && d.classAssigned.Some? && base == BlankStudent
    ensures var st := ApplyStudent(base, d);
      && StudentFits(st) && st.classAssigned in s.classes
      && RollNumberFree(s.students, st.rollNumber, self)
      && StudentEmailFree(s.students, st.email, self)
  {
    var st := ApplyStudent(base, d);
    var me := if self in s.students then Some(self) else None;
    forall k | k in s.students && k != self
      ensures s.students[k].rollNumber != st.rollNumber && s.students[k].email != st.email
    {
      assert s.students[k].rollNumber in RollNumbers(s, me);
      assert s.students[k].email in StudentEmails(s, me);
    }
  }

  /** Create: validate the whole body, then insert. On a valid store the
      insert is never refused, and the new row holds the trimmed values. */
  function CreateTeacher(s: Store, body: Body, emailOk: string -> bool): (r: Result<(Store, Id), WriteError>)
    ensures Valid(s) ==> (r.Success? <==> ValidateTeacher(s, body, false, None, emailOk).Success?)
    ensures r.Failure? && Valid(s) ==> r.error.Invalid?
    ensures var v := ValidateTeacher(s, body, false, None, emailOk); v.Failure? ==> r == Failure(Invalid(v.error))
    ensures r.Success? ==> ValidateTeacher(s, body, false, None, emailOk).Success?
    ensures r.Success? ==> var (s', id) := r.value;
      && s'.teachers.Keys == s.teachers.Keys + {id}
      && s'.teachers[id] == ApplyTeacher(BlankTeacher, ValidateTeacher(s, body, false, None, emailOk).value)
      && s'.classes == s.classes && s'.students == s.students
    ensures Valid(s) && r.Success? ==> Valid(r.value.0) && r.value.1 !in s.teachers
    ensures r.Success? ==> r.value.1 == s.nextTeacher
  {
    var v := ValidateTeacher(s, body, false, None, emailOk);
    if v.Failure? then
      Failure(Invalid(v.error))
    else
      var d := v.value;
      var t := ApplyTeacher(BlankTeacher, d);
      assert Valid(s) ==> InsertTeacher(s, t).Success? by {
        if Valid(s) {
          assert s.nextTeacher !in s.teachers;
          TeacherRowAccepted(s, BlankTeacher, d, s.nextTeacher, emailOk);
        }
      }
      match InsertTeacher(s, t)
      case Failure(e) => Failure(Refused(e))
      case Success(res) => Success(res)
  }

  /** Update: validate the body against the stored record (`partial` for
      PATCH), then write the merged record back under the same key. */
  function ChangeTeacher(s: Store, id: Id, body: Body, partial: bool, emailOk: string -> bool): (r: Result<Store, WriteError>)
    requires id in s.teachers
    ensures Valid(s) ==> (r.Success? <==> ValidateTeacher(s, body, partial, Some(id), emailOk).Success?)
    ensures r.Failure? && Valid(s) ==> r.error.Invalid?
    ensures var v := ValidateTeacher(s, body, partial, Some(id), emailOk); v.Failure? ==> r == Failure(Invalid(v.error))
    ensures r.Success? ==> var v := ValidateTeacher(s, body, partial, Some(id), emailOk);
      && v.Success?
      && r.value == s.(teachers := s.teachers[id := ApplyTeacher(s.teachers[id], v.value)])
    ensures Valid(s) && r.Success? ==> Valid(r.value)
  {
    var v := ValidateTeacher(s, body, partial, Some(id), emailOk);
    if v.Failure? then
      Failure(Invalid(v.error))
    else
      var t := ApplyTeacher(s.teachers[id], v.value);
      assert Valid(s) ==> UpdateTeacher(s, id, t).Success? by {
        if Valid(s) {
          TeacherRowAccepted(s, s.teachers[id], v.value, id, emailOk);
        }
      }
      match UpdateTeacher(s, id, t)
      case Failure(e) => Failure(Refused(e))
      case Success(s') => Success(s')
  }

  function CreateClass(s: Store, body: Body, emailOk: string -> bool): (r: Result<(Store, Id), WriteError>)
    ensures Valid(s) ==> (r.Success? <==> ValidateClass(s, body, false, None, emailOk).Success?)
    ensures r.Failure? && Valid(s) ==> r.error.Invalid?
    ensures var v := ValidateClass(s, body, false, None, emailOk); v.Failure? ==> r == Failure(Invalid(v.error))
    ensures r.Success? ==> ValidateClass(s, body, false, None, emailOk).Success?
    ensures r.Success? ==> var (s', id) := r.value;
      && s'.classes.Keys == s.classes.Keys + {id}
      && s'.classes[id] == ApplyClass(BlankClass, ValidateClass(s, body, false, None, emailOk).value)
      && s'.teachers == s.teachers && s'.students == s.students
    ensures Valid(s) && r.Success? ==> Valid(r.value.0) && r.value.1 !in s.classes
    ensures r.Success? ==> r.value.1 == s.nextClass
  {
    var v := ValidateClass(s, body, false, None, emailOk);
    if v.Failure? then
      Failure(Invalid(v.error))
    else
      var c := ApplyClass(BlankClass, v.value);
      assert Valid(s) ==> InsertClass(s, c).Success? by {
        if Valid(s) {
          assert s.nextClass !in s.classes;
          ClassRowAccepted(s, BlankClass, v.value, s.nextClass);
        }
      }
      match InsertClass(s, c)
      case Failure(e) => Failure(Refused(e))
      case Success(res) => Success(res)
  }

  function ChangeClass(s: Store, id: Id, body: Body, partial: bool, emailOk: string -> bool): (r: Result<Store, WriteError>)
    requires id in s.classes
    ensures Valid(s) ==> (r.Success? <==> ValidateClass(s, body, partial, Some(id), emailOk).Success?)
    ensures r.Failure? && Valid(s) ==> r.error.Invalid?
    ensures var v := ValidateClass(s, body, partial, Some(id), emailOk); v.Failure? ==> r == Failure(Invalid(v.error))
    ensures r.Success? ==> var v := ValidateClass(s, body, partial, Some(id), emailOk);
      && v.Success?
      && r.value == s.(classes := s.classes[id := ApplyClass(s.classes[id], v.value)])
    ensures Valid(s) && r.Success? ==> Valid(r.value)
  {
    var v := ValidateClass(s, body, partial, Some(id), emailOk);
    if v.Failure? then
      Failure(Invalid(v.error))
    else
      var c := ApplyClass(s.classes[id], v.value);
      assert Valid(s) ==> UpdateClass(s, id, c).Success? by {
        if Valid(s) {
          ClassRowAccepted(s, s.classes[id], v.value, id);
        }
      }
      match UpdateClass(s, id, c)
      case Failure(e) => Failure(Refused(e))
      case Success(s') => Success(s')
  }

  function CreateStudent(s: Store, body: Body, emailOk: string -> bool): (r: Result<(Store, Id), WriteError>)
    ensures Valid(s) ==> (r.Success? <==> ValidateStudent(s, body, false, None, emailOk).Success?)
    ensures r.Failure? && Valid(s) ==> r.error.Invalid?
    ensures var v := ValidateStudent(s, body, false, None, emailOk); v.Failure? ==> r == Failure(Invalid(v.error))
    ensures r.Success? ==> ValidateStudent(s, body, false, None, emailOk).Success?
    ensures r.Success? ==> var (s', id) := r.value;
      && s'.students.Keys == s.students.Keys + {id}
      && s'.students[id] == ApplyStudent(BlankStudent, ValidateStudent(s, body, false, None, emailOk).value)
      && s'.teachers == s.teachers && s'.classes == s.classes
    ensures Valid(s) && r.Success? ==> Valid(r.value.0) && r.value.1 !in s.students
    ensures r.Success? ==> r.value.1 == s.nextStudent
  {
    var v := ValidateStudent(s, body, false, None, emailOk);
    if v.Failure? then
      Failure(Invalid(v.error))
    else
      var st := ApplyStudent(BlankStudent, v.value);
      assert Valid(s) ==> InsertStudent(s, st).Success? by {
        if Valid(s) {
          assert s.nextStudent !in s.students;
          StudentRowAccepted(s, BlankStudent, v.value, s.nextStudent, emailOk);
        }
      }
      match InsertStudent(s, st)
      case Failure(e) => Failure(Refused(e))
      case Success(res) => Success(res)
  }

  function ChangeStudent(s: Store, id: Id, body: Body, partial: bool, emailOk: string -> bool): (r: Result<Store, WriteError>)
    requires id in s.students
    ensures Valid(s) ==> (r.Success? <==> ValidateStudent(s, body, partial, Some(id), emailOk).Success?)
    ensures r.Failure? && Valid(s) ==> r.error.Invalid?
    ensures var v := ValidateStudent(s, body, partial, Some(id), emailOk); v.Failure? ==> r == Failure(Invalid(v.error))
    ensures r.Success? ==> var v := ValidateStudent(s, body, partial, Some(id), emailOk);
      && v.Success?
      && r.value == s.(students := s.students[id := ApplyStudent(s.students[id], v.value)])
    ensures Valid(s) && r.Success? ==> Valid(r.value)
  {
    var v := ValidateStudent(s, body, partial, Some(id), emailOk);
    if v.Failure? then
      Failure(Invalid(v.error))
    else
      var st := ApplyStudent(s.students[id], v.value);
      assert Valid(s) ==> UpdateStudent(s, id, st).Success? by {
        if Valid(s) {
          StudentRowAccepted(s, s.students[id], v.value, id, emailOk);
        }
      }
      match UpdateStudent(s, id, st)
      case Failure(e) => Failure(Refused(e))
      case Success(s') => Success(s')
  }

  // What a successful write stores, field by field: a string field holds
  // the trimmed string, a reference holds the key given, and on update a
  // field the body leaves out keeps its stored value.

  lemma CreatedTeacherHolds(s: Store, body: Body, emailOk: string -> bool)
    requires CreateTeacher(s, body, emailOk).Success?
    ensures var (s', id) := CreateTeacher(s, body, emailOk).value; var t := s'.teachers[id];
      && (body["name"].JStr? ==> t.name == Trim(body["name"].s))
      && (body["subject"].JStr? ==> t.subject == Trim(body["subject"].s))
      && (body["email"].JStr? ==> t.email == Trim(body["email"].s))
      && ("phone" !in body || body["phone"] == JNull ==> t.phone == None)
      && ("phone" in body && body["phone"].JStr? ==> t.phone == Some(Trim(body["phone"].s)))
  {
  }

  lemma ChangedTeacherHolds(s: Store, id: Id, body: Body, partial: bool, emailOk: string -> bool)
    requires id in s.teachers && ChangeTeacher(s, id, body, partial, emailOk).Success?
    ensures var t := ChangeTeacher(s, id, body, partial, emailOk).value.teachers[id]; var was := s.teachers[id];
      && ("name" !in body ==> t.name == was.name)
      && ("name" in body && body["name"].JStr? ==> t.name == Trim(body["name"].s))
      && ("subject" !in body ==> t.subject == was.subject)
      && ("subject" in body && body["subject"].JStr? ==> t.subject == Trim(body["subject"].s))
      && ("email" !in body ==> t.email == was.email)
      && ("email" in body && body["email"].JStr? ==> t.email == Trim(body["email"].s))
      && ("phone" !in body ==> t.phone == was.phone)
      && ("phone" in body && body["phone"] == JNull ==> t.phone == None)
      && ("phone" in body && body["phone"].JStr? ==> t.phone == Some(Trim(body["phone"].s)))
  {
  }

  lemma CreatedClassHolds(s: Store, body: Body, emailOk: string -> bool)
    requires CreateClass(s, body, emailOk).Success?
    ensures var (s', id) := CreateClass(s, body, emailOk).value; var c := s'.classes[id];
      && (body["name"].JStr? ==> c.name == Trim(body["name"].s))
      && ("teacherId" !in body || body["teacherId"] == JNull || body["teacherId"] == JStr("") ==> c.teacher == None)
      && ("teacherId" in body && body["teacherId"].JInt? ==> c.teacher == Some(body["teacherId"].i as nat))
  {
  }

  lemma ChangedClassHolds(s: Store, id: Id, body: Body, partial: bool, emailOk: string -> bool)
    requires id in s.classes && ChangeClass(s, id, body, partial, emailOk).Success?
    ensures var c := ChangeClass(s, id, body, partial, emailOk).value.classes[id]; var was := s.classes[id];
      && ("name" !in body ==> c.name == was.name)
      && ("name" in body && body["name"].JStr? ==> c.name == Trim(body["name"].s))
      && ("teacherId" !in body ==> c.teacher == was.teacher)
      && ("teacherId" in body && (body["teacherId"] == JNull || body["teacherId"] == JStr("")) ==> c.teacher == None)
      && ("teacherId" in body && body["teacherId"].JInt? ==> c.teacher == Some(body["teacherId"].i as nat))
  {
  }

  lemma CreatedStudentHolds(s: Store, body: Body, emailOk: string -> bool)
    requires CreateStudent(s, body, emailOk).Success?
    ensures var (s', id) := CreateStudent(s, body, emailOk).value; var st := s'.students[id];
      && (body["name"].JStr? ==> st.name == Trim(body["name"].s))
      && (body["rollNumber"].JStr? ==> st.rollNumber == Trim(body["rollNumber"].s))
      && (body["email"].JStr? ==> st.email == Trim(body["email"].s))
      && (body["classId"].JInt? ==> st.classAssigned == body["classId"].i)
      && (body["classId"].JStr? ==> ParseInt(body["classId"].s) == Some(st.classAssigned))
  {
  }

  lemma ChangedStudentHolds(s: Store, id: Id, body: Body, partial: bool, emailOk: string -> bool)
    requires id in s.students && ChangeStudent(s, id, body, partial, emailOk).Success?
    ensures var st := ChangeStudent(s, id, body, partial, emailOk).value.students[id]; var was := s.students[id];
      && ("name" !in body ==> st.name == was.name)
      && ("name" in body && body["name"].JStr? ==> st.name == Trim(body["name"].s))
      && ("rollNumber" !in body ==> st.rollNumber == was.rollNumber)
      && ("rollNumber" in body && body["rollNumber"].JStr? ==> st.rollNumber == Trim(body["rollNumber"].s))
      && ("email" !in body ==> st.email == was.email)
      && ("email" in body && body["email"].JStr? ==> st.email == Trim(body["email"].s))
      && ("classId" !in body ==> st.classAssigned == was.classAssigned)
      && ("classId" in body && body["classId"].JInt? ==> st.classAssigned == body["classId"].i)
      && ("classId" in body && body["classId"].JStr? ==> ParseInt(body["classId"].s) == Some(st.classAssigned))
  {
  }

  // Every row the API writes is clean: creates start from validated data,
  // and updates merge validated data over a clean row.

  lemma CreatedTeacherClean(s: Store, body: Body, emailOk: string -> bool)
    requires CreateTeacher(s, body, emailOk).Success?
    ensures var (s', id) := CreateTeacher(s, body, emailOk).value; CleanTeacher(s'.teachers[id], emailOk)
  {
  }

  lemma ChangedTeacherClean(s: Store, id: Id, body: Body, partial: bool, emailOk: string -> bool)
    requires id in s.teachers && CleanTeacher(s.teachers[id], emailOk)
    requires ChangeTeacher(s, id, body, partial, emailOk).Success?
    ensures CleanTeacher(ChangeTeacher(s, id, body, partial, emailOk).value.teachers[id], emailOk)
  {
  }

  lemma CreatedClassClean(s: Store, body: Body, emailOk: string -> bool)
    requires CreateClass(s, body, emailOk).Success?
    ensures var (s', id) := CreateClass(s, body, emailOk).value; CleanClass(s'.classes[id])
  {
  }

  lemma ChangedClassClean(s: Store, id: Id, body: Body, partial: bool, emailOk: string -> bool)
    requires id in s.classes && CleanClass(s.classes[id])
    requires ChangeClass(s, id, body, partial, emailOk).Success?
    ensures CleanClass(ChangeClass(s, id, body, partial, emailOk).value.classes[id])
  {
  }

  lemma CreatedStudentClean(s: Store, body: Body, emailOk: string -> bool)
    requires CreateStudent(s, body, emailOk).Success?
    ensures var (s', id) := CreateStudent(s, body, emailOk).value; CleanStudent(s'.students[id], emailOk)
  {
  }

  lemma ChangedStudentClean(s: Store, id: Id, body: Body, partial: bool, emailOk: string -> bool)
    requires id in s.students && CleanStudent(s.students[id], emailOk)
    requires ChangeStudent(s, id, body, partial, emailOk).Success?
    ensures CleanStudent(ChangeStudent(s, id, body, partial, emailOk).value.students[id], emailOk)
  {
  }
}

=== FILE: shapes.dfy ===
/** The JSON shapes the serializers render: the standard shape of each
    record kind, the brief nested shapes, and the class detail shape with
    its teacher and its enrolled students. */
module Shapes {
  import opened Results
  import opened Text
  import opened Wire
  import opened Models
  import opened Keys

  /** A foreign key as `to_representation` renders it: `str(pk)`. */
  function RefJson(id: Id): Json {
    JStr(NatToString(id))
  }

  /** A rendered foreign key reads back as the key it came from. */
  lemma RefJsonParses(id: Id)
    ensures RefJson(id).JStr? && RefJson(id).s != []
    ensures ParseNat(RefJson(id).s) == Some(id) && ParseInt(RefJson(id).s) == Some(id)
  {
    ParseNatToString(id);
    ParseIntToString(id);
  }

  function OptionalText(v: Option<string>): Json {
    match v
    case None => JNull
    case Some(t) => JStr(t)
  }

  /** TeacherSerializer: every column under its own name. */
  function TeacherShape(id: Id, t: Teacher): Body {
    map["id" := JInt(id), "name" := JStr(t.name), "subject" := JStr(t.subject),
        "email" := JStr(t.email), "phone" := OptionalText(t.phone)]
  }

  /** StudentSerializer: `roll_number` as `rollNumber`, and the class key
      as the string `classId`. */
  function StudentShape(id: Id, st: Student): Body {
    map["id" := JInt(id), "name" := JStr(st.name), "rollNumber" := JStr(st.rollNumber),
        "email" := JStr(st.email), "classId" := RefJson(st.classAssigned)]
  }

  /** SchoolClassSerializer: the teacher key as the string `teacherId`, or
      null. */
  function ClassShape(id: Id, c: SchoolClass): Body {
    map["id" := JInt(id), "name" := JStr(c.name),
        "teacherId" := if c.teacher.Some? then RefJson(c.teacher.value) else JNull]
  }

  /** SimpleTeacherSerializer: a teacher without the phone. */
  function TeacherBrief(id: Id, t: Teacher): Json {
    JObj(map["id" := JInt(id), "name" := JStr(t.name), "subject" := JStr(t.subject), "email" := JStr(t.email)])
  }

  /** StudentListSerializer: a student under storage names, without its class. */
  function StudentBrief(id: Id, st: Student): Json {
    JObj(map["id" := JInt(id), "name" := JStr(st.name), "roll_number" := JStr(st.rollNumber), "email" := JStr(st.email)])
  }

  /** The teacher shape carries every column under its own name, and a
      missing phone as null. */
  lemma TeacherShapeWire(id: Id, t: Teacher)
    ensures var r := TeacherShape(id, t);
      && r.Keys == {"id", "name", "subject", "email", "phone"}
      && r["id"] == JInt(id) && r["email"] == JStr(t.email)
      && (r["phone"] == JNull <==> t.phone.None?)
  {
  }

  /** The student shape uses the wire names `rollNumber` and `classId`,
      never the storage names, and its class reference reads back as the
      class key. */
  lemma StudentShapeWire(id: Id, st: Student)
    ensures var r := StudentShape(id, st);
      && r.Keys == {"id", "name", "rollNumber", "email", "classId"}
      && r["rollNumber"] == JStr(st.rollNumber)
      && r["classId"].JStr? && ParseInt(r["classId"].s) == Some(st.classAssigned as int)
  {
    RefJsonParses(st.classAssigned);
  }

  /** The class shape names its teacher `teacherId`: null exactly when the
      class has no teacher, otherwise a string reading back as the key. */
  lemma ClassShapeWire(id: Id, c: SchoolClass)
    ensures var r := ClassShape(id, c);
      && r.Keys == {"id", "name", "teacherId"}
      && (r["teacherId"] == JNull <==> c.teacher.None?)
      && (c.teacher.Some? ==> r["teacherId"].JStr? && ParseInt(r["teacherId"].s) == Some(c.teacher.value as int))
  {
    if c.teacher.Some? {
      RefJsonParses(c.teacher.value);
    }
  }

  /** The nested shapes: a teacher without the phone, a student under
      storage names without its class. */
  lemma BriefShapes(id: Id, t: Teacher, k: Id, st: Student)
    ensures TeacherBrief(id, t).JObj? && TeacherBrief(id, t).fields.Keys == {"id", "name", "subject", "email"}
    ensures StudentBrief(k, st).JObj? && StudentBrief(k, st).fields.Keys == {"id", "name", "roll_number", "email"}
  {
  }

  // ---------------------------------------------------------------------
  // The order of a class's students: the Student model's default ordering
  // by name. The model compares names by code point and, among equal
  // names, by key; the database leaves both to its collation and plan.
  // ---------------------------------------------------------------------

  predicate AllIn(m: map<Id, Student>, xs: seq<Id>) {
    forall i :: 0 <= i < |xs| ==> xs[i] in m
  }

  predicate Distinct(xs: seq<Id>) {
    forall i, j :: 0 <= i < j < |xs| ==> xs[i] != xs[j]
  }

  /** Student `a` is listed before student `b`. */
  predicate Precedes(m: map<Id, Student>, a: Id, b: Id)
    requires a in m && b in m
  {
    if m[a].name == m[b].name then a < b else NoLater(m[a].name, m[b].name)
  }

  predicate ByName(m: map<Id, Student>, xs: seq<Id>)
    requires AllIn(m, xs)
  {
    forall i, j :: 0 <= i < j < |xs| ==> Precedes(m, xs[i], xs[j])
  }

  lemma PrecedesTotal(m: map<Id, Student>, a: Id, b: Id)
    requires a in m && b in m && a != b
    ensures Precedes(m, a, b) || Precedes(m, b, a)
  {
    NoLaterTotal(m[a].name, m[b].name);
  }

  lemma PrecedesTransitive(m: map<Id, Student>, a: Id, b: Id, c: Id)
    requires a in m && b in m && c in m
    requires Precedes(m, a, b) && Precedes(m, b, c)
    ensures Precedes(m, a, c)
  {
    var x, y, z := m[a].name, m[b].name, m[c].name;
    if x != y && y != z {
      NoLaterTransitive(x, y, z);
      if x == z {
        NoLaterAntisymmetric(x, y);
      }
    }
  }

  /** `Precedes` is irreflexive, so a list in that order has no repeats. */
  lemma ByNameDistinct(m: map<Id, Student>, xs: seq<Id>)
    requires AllIn(m, xs) && ByName(m, xs)
    ensures Distinct(xs)
  {
  }

  /** Puts `x` into a list ordered by name, at its place. */
  function InsertByName(m: map<Id, Student>, x: Id, xs: seq<Id>): (r: seq<Id>)
    requires x in m && AllIn(m, xs) && ByName(m, xs) && x !in xs
    ensures |r| == |xs| + 1
    ensures forall k :: k in r <==> k == x || k in xs
    ensures AllIn(m, r) && ByName(m, r)
  {
    if xs == [] then
      [x]
    else if Precedes(m, x, xs[0]) then
      var r := [x] + xs;
      forall i, j | 0 <= i < j < |r|
        ensures Precedes(m, r[i], r[j])
      {
        if i == 0 && j > 1 {
          PrecedesTransitive(m, x, xs[0], xs[j - 1]);
        }
      }
      r
    else
      PrecedesTotal(m, x, xs[0]);
      var rest := InsertByName(m, x, xs[1..]);
      var r := [xs[0]] + rest;
      forall j | 0 <= j < |rest|
        ensures Precedes(m, xs[0], rest[j])
      {
        assert rest[j] == x || rest[j] in xs[1..];
      }
      forall i, j | 0 <= i < j < |r|
        ensures Precedes(m, r[i], r[j])
      {
        if i > 0 {
          assert r[i] == rest[i - 1] && r[j] == rest[j - 1];
        }
      }
      assert forall k :: k in xs <==> k == xs[0] || k in xs[1..];
      r
  }

  /** The records of `xs`, ordered by name: a rearrangement of `xs`. */
  function SortByName(m: map<Id, Student>, xs: seq<Id>): (r: seq<Id>)
    requires AllIn(m, xs) && Distinct(xs)
    ensures |r| == |xs|
    ensures forall k :: k in r <==> k in xs
    ensures AllIn(m, r) && ByName(m, r)
  {
    if xs == [] then
      []
    else
      var rest := SortByName(m, xs[1..]);
      assert forall k :: k in xs <==> k == xs[0] || k in xs[1..];
      InsertByName(m, xs[0], rest)
  }

  /** Two lists in name order with the same members are the same list, so
      the order of a class's students is fully determined. */
  lemma {:induction false} ByNameUnique(m: map<Id, Student>, xs: seq<Id>, ys: seq<Id>)
    requires AllIn(m, xs) && AllIn(m, ys) && ByName(m, xs) && ByName(m, ys)
    requires forall k :: k in xs <==> k in ys
    ensures xs == ys
  {
    if xs == [] || ys == [] {
      NonEmptyHasHead(xs);
      NonEmptyHasHead(ys);
    } else {
      assert xs[0] in ys && ys[0] in xs;
      if xs[0] != ys[0] {
        var i :| 0 <= i < |ys| && ys[i] == xs[0];
        var j :| 0 <= j < |xs| && xs[j] == ys[0];
        assert Precedes(m, ys[0], xs[0]) && Precedes(m, xs[0], ys[0]);
        PrecedesTransitive(m, xs[0], ys[0], xs[0]);
        assert false;
      }
      ByNameDistinct(m, xs);
      ByNameDistinct(m, ys);
      forall k
        ensures k in xs[1..] <==> k in ys[1..]
      {
        assert k in xs <==> k == xs[0] || k in xs[1..];
        assert k in ys <==> k == ys[0] || k in ys[1..];
        if k in xs[1..] {
          var p :| 0 <= p < |xs[1..]| && xs[1..][p] == k;
          assert xs[p + 1] == k && xs[0] != k;
        }
        if k in ys[1..] {
          var p :| 0 <= p < |ys[1..]| && ys[1..][p] == k;
          assert ys[p + 1] == k && ys[0] != k;
        }
      }
      ByNameUnique(m, xs[1..], ys[1..]);
      assert xs == [xs[0]] + xs[1..] && ys == [ys[0]] + ys[1..];
    }
  }

  /** The keys of the students of class `id`, in the order the nested
      `students` list shows them. */
  function Enrolled(s: Store, id: Id): (r: seq<Id>)
    ensures AllIn(s.students, r) && ByName(s.students, r)
    ensures forall k :: k in r ==> k in s.students && s.students[k].classAssigned == id
    ensures KeysBelow(s.students, s.nextStudent) ==>
      forall k :: k in s.students && s.students[k].classAssigned == id ==> k in r
  {
    var all := IdsBelow(s.students, s.nextStudent);
    var mine := Filter(all, k => k in s.students && s.students[k].classAssigned == id);
    FilterIncreasing(all, k => k in s.students && s.students[k].classAssigned == id);
    SortByName(s.students, mine)
  }

  function StudentBriefs(m: map<Id, Student>, ids: seq<Id>): (r: seq<Json>)
    requires AllIn(m, ids)
    ensures |r| == |ids|
    ensures forall i :: 0 <= i < |ids| ==> r[i] == StudentBrief(ids[i], m[ids[i]])
  {
    if ids == [] then [] else [StudentBrief(ids[0], m[ids[0]])] + StudentBriefs(m, ids[1..])
  }

  /** SchoolClassDetailSerializer: the standard class shape, plus the
      teacher in brief (or null) and the class's students in brief. */
  function ClassDetailShape(s: Store, id: Id, c: SchoolClass): Body {
    ClassShape(id, c)["teacher" := TeacherOf(s, c)]["students" := JArr(StudentBriefs(s.students, Enrolled(s, id)))]
  }

  /** The nested `teacher` of a class detail: the brief of its teacher, or
      null. */
  function TeacherOf(s: Store, c: SchoolClass): Json {
    if c.teacher.Some? && c.teacher.value in s.teachers
    then TeacherBrief(c.teacher.value, s.teachers[c.teacher.value]) else JNull
  }

  /** The fields of a class shape extended by a teacher and a student list. */
  lemma DetailKeys(id: Id, c: SchoolClass, t: Json, st: Json)
    ensures var d := ClassShape(id, c)["teacher" := t]["students" := st];
      && d.Keys == {"id", "name", "teacherId", "teacher", "students"}
      && d["id"] == JInt(id) && d["name"] == JStr(c.name)
      && d["teacherId"] == ClassShape(id, c)["teacherId"]
      && d["teacher"] == t && d["students"] == st
  {
  }

  /** The detail shape lists each student of the class once, and nothing
      else, in name order. */
  lemma DetailListsClassStudents(s: Store, id: Id)
    requires Valid(s) && id in s.classes
    ensures var d := ClassDetailShape(s, id, s.classes[id]);
      && "students" in d && d["students"].JArr?
      && var e := Enrolled(s, id);
         && |d["students"].items| == |e|
         && Distinct(e)
         && (forall k :: k in e <==> k in s.students && s.students[k].classAssigned == id)
         && (forall i :: 0 <= i < |e| ==> d["students"].items[i] == StudentBrief(e[i], s.students[e[i]]))
  {
    ByNameDistinct(s.students, Enrolled(s, id));
  }

  /** Besides `students`, the detail shape is the standard shape plus the
      brief of the class's teacher, or null. */
  lemma DetailExtendsClassShape(s: Store, id: Id)
    requires Valid(s) && id in s.classes
    ensures var c := s.classes[id]; var d := ClassDetailShape(s, id, c);
      && d.Keys == {"id", "name", "teacherId", "teacher", "students"}
      && d["id"] == JInt(id) && d["name"] == JStr(c.name)
      && d["teacherId"] == ClassShape(id, c)["teacherId"]
      && d["teacher"] == if c.teacher.Some? then TeacherBrief(c.teacher.value, s.teachers[c.teacher.value]) else JNull
  {
    var c := s.classes[id];
    DetailKeys(id, c, TeacherOf(s, c), JArr(StudentBriefs(s.students, Enrolled(s, id))));
  }
}

=== FILE: text.dfy ===
/** The few string operations the system relies on, with the semantics of
    Python's `str.strip()`, `str.split()`, `in` on strings and `str(int)`. */
module Text {
  import opened Results

  /** Python's `str.isspace()` on one character: the characters that
      `strip()` removes and `split()` splits on. */
  predicate IsSpace(c: char) {
    || c == ' '
    || ('\t' <= c <= '\r')
    || ('\U{1C}' <= c <= '\U{1F}')
    || c == '\U{85}'
    || c == '\U{A0}'
    || c == '\U{1680}'
    || ('\U{2000}' <= c <= '\U{200A}')
    || c == '\U{2028}'
    || c == '\U{2029}'
    || c == '\U{202F}'
    || c == '\U{205F}'
    || c == '\U{3000}'
  }

  predicate AllSpace(s: string) {
    forall i :: 0 <= i < |s| ==> IsSpace(s[i])
  }

  /** Neither end of `s` is whitespace (vacuously true of the empty string). */
  predicate Trimmed(s: string) {
    s == [] || (!IsSpace(s[0]) && !IsSpace(s[|s| - 1]))
  }

  /** No NUL character: what the null-character validator of a text field
      demands of the cleaned value. */
  predicate NulFree(s: string) {
    '\0' !in s
  }

  /** `s` with its leading whitespace removed. */
  function TrimStart(s: string): string {
    if |s| > 0 && IsSpace(s[0]) then TrimStart(s[1..]) else s
  }

  /** `TrimStart` cuts a whitespace prefix and leaves a suffix that does not
      start with whitespace. */
  lemma {:induction false} TrimStartShape(s: string)
    ensures var r := TrimStart(s);
      && |r| <= |s| && r == s[|s| - |r|..]
      && AllSpace(s[..|s| - |r|])
      && (r == [] || !IsSpace(r[0]))
  {
    if |s| > 0 && IsSpace(s[0]) {
      TrimStartShape(s[1..]);
      var r := TrimStart(s[1..]);
      assert s[..|s| - |r|] == [s[0]] + s[1..][..|s| - 1 - |r|];
    }
  }

  /** `s` with its trailing whitespace removed. */
  function TrimEnd(s: string): string {
    if |s| > 0 && IsSpace(s[|s| - 1]) then TrimEnd(s[..|s| - 1]) else s
  }

  /** `TrimEnd` cuts a whitespace suffix and leaves a prefix that does not
      end with whitespace. */
  lemma {:induction false} TrimEndShape(s: string)
    ensures var r := TrimEnd(s);
      && |r| <= |s| && r == s[..|r|]
      && AllSpace(s[|r|..])
      && (r == [] || !IsSpace(r[|r| - 1]))
  {
    if |s| > 0 && IsSpace(s[|s| - 1]) {
      TrimEndShape(s[..|s| - 1]);
      var r := TrimEnd(s[..|s| - 1]);
      assert s[|r|..] == s[..|s| - 1][|r|..] + [s[|s| - 1]];
    }
  }

  /** Python's `s.strip()`: the middle part of `s` left once the whitespace
      on both ends is cut off. */
  function Trim(s: string): (r: string)
    ensures |r| <= |s|
    ensures Trimmed(r)
    ensures r == [] <==> AllSpace(s)
    ensures Trimmed(s) ==> r == s
  {
    var r := TrimEnd(TrimStart(s));
    TrimShape(s, TrimStart(s), r);
    r
  }

  /** What `strip()` cuts off is whitespace on both ends: the input is
      whitespace, then the result, then whitespace. */
  lemma TrimSplits(s: string)
    ensures exists i :: 0 <= i <= |s| - |Trim(s)| && SplitsAround(s, i, Trim(s))
  {
    var a := TrimStart(s);
    TrimShape(s, a, Trim(s));
    assert SplitsAround(s, |s| - |a|, Trim(s));
  }

  /** `strip()` keeps every character that is not whitespace. */
  lemma TrimKeeps(s: string, c: char)
    requires c in s && !IsSpace(c)
    ensures c in Trim(s)
  {
    TrimSplits(s);
    var r := Trim(s);
    var i :| 0 <= i <= |s| - |r| && SplitsAround(s, i, r);
    var j :| 0 <= j < |s| && s[j] == c;
    assert r[j - i] == c;
  }

  /** `strip()` neither adds nor removes a NUL, which is not whitespace. */
  lemma TrimNulFree(s: string)
    ensures NulFree(Trim(s)) <==> NulFree(s)
  {
    if !NulFree(s) {
      TrimKeeps(s, '\0');
    }
    if !NulFree(Trim(s)) {
      TrimSplits(s);
      var r := Trim(s);
      var i :| 0 <= i <= |s| - |r| && SplitsAround(s, i, r);
      var j :| 0 <= j < |r| && r[j] == '\0';
      assert s[i + j] == '\0';
    }
  }

  /** `s` is whitespace, then `r` starting at position `i`, then whitespace. */
  predicate SplitsAround(s: string, i: int, r: string)
    requires 0 <= i <= |s| - |r|
  {
    && s[i..i + |r|] == r
    && AllSpace(s[..i])
    && AllSpace(s[i + |r|..])
  }

  lemma TrimShape(s: string, a: string, r: string)
    requires a == TrimStart(s) && r == TrimEnd(a)
    ensures |r| <= |a| <= |s| && (r == [] || (!IsSpace(r[0]) && !IsSpace(r[|r| - 1])))
    ensures r == [] <==> AllSpace(s)
    ensures |s| - |a| <= |s| - |r| && SplitsAround(s, |s| - |a|, r)
  {
    TrimStartShape(s);
    TrimEndShape(a);
    var i := |s| - |a|;
    assert a == s[i..];
    TrimEmpty(s, a, r, i);
    TrimMiddle(s, a, r, i);
  }

  lemma TrimMiddle(s: string, a: string, r: string, i: nat)
    requires i <= |s| && a == s[i..] && AllSpace(s[..i])
    requires |r| <= |a| && r == a[..|r|] && AllSpace(a[|r|..])
    ensures i <= |s| - |r| && SplitsAround(s, i, r)
  {
    assert s[i..i + |r|] == r;
    assert s[i + |r|..] == a[|r|..];
  }

  lemma TrimEmpty(s: string, a: string, r: string, i: nat)
    requires i <= |s| && a == s[i..] && AllSpace(s[..i]) && (a == [] || !IsSpace(a[0]))
    requires |r| <= |a| && r == a[..|r|] && AllSpace(a[|r|..])
    ensures r == [] <==> AllSpace(s)
  {
    if r == [] {
      assert a[|r|..] == a;
      assert s == s[..i] + a;
      AllSpaceConcat(s[..i], a);
    } else {
      assert s[i] == a[0];
    }
  }

  lemma AllSpaceConcat(x: string, y: string)
    requires AllSpace(x) && AllSpace(y)
    ensures AllSpace(x + y)
  {
    forall k | 0 <= k < |x + y|
      ensures IsSpace((x + y)[k])
    {
      if k >= |x| {
        assert (x + y)[k] == y[k - |x|];
      }
    }
  }

  /** Trimming a trimmed string changes nothing; every `validate_<field>`
      method strips a value that the field has already stripped. */
  lemma TrimIdempotent(s: string)
    ensures Trim(Trim(s)) == Trim(s)
  {
  }

  /** `needle` occurs in `hay` starting at position `i`. */
  predicate OccursAt(hay: string, needle: string, i: int) {
    0 <= i && i + |needle| <= |hay| && hay[i..i + |needle|] == needle
  }

  /** Python's `needle in hay`, computed by scanning for a prefix match. */
  function Contains(hay: string, needle: string): (r: bool)
    ensures r <==> exists i :: OccursAt(hay, needle, i)
  {
    if needle <= hay then
      assert OccursAt(hay, needle, 0);
      true
    else if |hay| == 0 then
      false
    else
      var r := Contains(hay[1..], needle);
      if r then
        var i :| OccursAt(hay[1..], needle, i);
        assert OccursAt(hay, needle, i + 1);
        r
      else
        assert forall i :: OccursAt(hay, needle, i) ==> i == 0 || OccursAt(hay[1..], needle, i - 1);
        r
  }

  predicate IsDigit(c: char) {
    '0' <= c <= '9'
  }

  predicate AllDigits(s: string) {
    forall i :: 0 <= i < |s| ==> IsDigit(s[i])
  }

  function DigitChar(d: nat): char
    requires d < 10
  {
    ('0' as int + d) as char
  }

  function DigitValue(c: char): nat
    requires IsDigit(c)
  {
    c as int - '0' as int
  }

  /** Python's `str(n)` for a non-negative integer: its canonical decimal
      numeral. */
  function NatToString(n: nat): (r: string)
    ensures |r| >= 1 && AllDigits(r)
    ensures |r| > 1 ==> r[0] != '0'
  {
    if n < 10 then [DigitChar(n)] else NatToString(n / 10) + [DigitChar(n % 10)]
  }

  /** Python's `str(i)` for any integer: a minus sign exactly for a
      negative number, then the numeral of its magnitude. */
  function IntToString(i: int): (r: string)
    ensures IsIntNumeral(r)
    ensures r[0] == '-' <==> i < 0
    ensures r[0] != '+'
  {
    if i < 0 then "-" + NatToString(-i) else NatToString(i)
  }

  /** The strings `ParseInt` reads: an optional sign, then one or more
      decimal digits. */
  predicate IsIntNumeral(s: string) {
    && |s| > 0
    && var digits := if s[0] == '-' || s[0] == '+' then s[1..] else s;
       |digits| > 0 && AllDigits(digits)
  }

  /** The digits of a numeral, after its sign if it has one. */
  function Unsigned(s: string): string
    requires |s| > 0
  {
    if s[0] == '-' || s[0] == '+' then s[1..] else s
  }

  /** A rendered integer is never blank: it starts with a digit or a sign. */
  lemma IntToStringNotBlank(i: int)
    ensures !AllSpace(IntToString(i))
    ensures Trim(IntToString(i)) == IntToString(i)
  {
    var r := IntToString(i);
    assert IsDigit(r[0]) || r[0] == '-';
    assert IsDigit(r[|r| - 1]);
  }

  /** The value of a decimal numeral read left to right. */
  function DigitsValue(s: string): nat
    requires AllDigits(s)
  {
    if s == [] then 0 else DigitsValue(s[..|s| - 1]) * 10 + DigitValue(s[|s| - 1])
  }

  /** The number a non-empty run of decimal digits denotes, and nothing for
      any other string. Leading zeros are accepted, as `int()` does. */
  function ParseNat(s: string): (r: Option<nat>)
    ensures r.Some? <==> |s| > 0 && AllDigits(s)
  {
    if |s| > 0 && AllDigits(s) then Some(DigitsValue(s)) else None
  }

  /** Python's `int()` on a string, for an optional sign followed by
      decimal digits; nothing for any other string. */
  function ParseInt(s: string): (r: Option<int>)
    ensures r.Some? <==> IsIntNumeral(s)
    ensures r.Some? ==> ParseNat(Unsigned(s)) == Some(if r.value < 0 then -r.value else r.value)
    ensures r.Some? && r.value < 0 ==> s[0] == '-'
    ensures r.Some? && r.value > 0 ==> s[0] != '-'
    ensures r.Some? && r.value >= 0 && |s| > 0 && IsDigit(s[0]) ==> ParseNat(s) == Some(r.value)
    ensures ParseNat(s).Some? ==> r == Some(ParseNat(s).value)
    ensures r.Some? ==> |s| > 0
  {
    if |s| > 0 && (s[0] == '-' || s[0] == '+') then
      match ParseNat(s[1..])
      case Some(n) => var v: int := if s[0] == '-' then -(n as int) else n; Some(v)
      case None => None
    else
      match ParseNat(s)
      case Some(n) => var v: int := n; Some(v)
      case None => None
  }

  /** A rendered number reads back as itself through `int()` too. */
  lemma ParseIntToString(n: nat)
    ensures ParseInt(NatToString(n)) == Some(n)
  {
    ParseNatToString(n);
  }

  /** `int(str(i)) == i` for every integer, negative ones included. */
  lemma ParseIntOfIntToString(i: int)
    ensures ParseInt(IntToString(i)) == Some(i)
  {
    if i < 0 {
      var r := IntToString(i);
      assert r[1..] == NatToString(-i);
      ParseNatToString(-i);
    } else {
      ParseNatToString(i);
    }
  }

  /** Reading back the numeral `NatToString` writes gives the number again. */
  lemma {:induction false} ParseNatToString(n: nat)
    ensures ParseNat(NatToString(n)) == Some(n)
  {
    DigitsOfNatToString(n);
  }

  lemma {:induction false} DigitsOfNatToString(n: nat)
    ensures DigitsValue(NatToString(n)) == n
  {
    var s := NatToString(n);
    if n < 10 {
      assert s[..0] == [];
    } else {
      var p := NatToString(n / 10);
      assert s[..|s| - 1] == p;
      DigitsOfNatToString(n / 10);
    }
  }

  /** Distinct numbers have distinct numerals, so a rendered id names one
      record. */
  lemma NatToStringInjective(a: nat, b: nat)
    requires NatToString(a) == NatToString(b)
    ensures a == b
  {
    ParseNatToString(a);
    ParseNatToString(b);
  }

  /** The characters the search filter splits its parameter on: whitespace,
      and commas, which it first turns into spaces. */
  predicate IsSeparator(c: char) {
    IsSpace(c) || c == ','
  }

  predicate NoSeparator(s: string) {
    forall i :: 0 <= i < |s| ==> !IsSeparator(s[i])
  }

  /** The longest separator-free prefix of `s`. */
  function Word(s: string): (w: string)
    requires s != [] && !IsSeparator(s[0])
    ensures 1 <= |w| <= |s| && w == s[..|w|] && NoSeparator(w)
    ensures |w| == |s| || IsSeparator(s[|w|])
  {
    if |s| == 1 || IsSeparator(s[1]) then
      s[..1]
    else
      var w := Word(s[1..]);
      assert [s[0]] + w == s[..|w| + 1];
      [s[0]] + w
  }

  /** `params.replace(',', ' ').split()`: the search terms of a `search`
      parameter, in order. */
  function Terms(s: string): (r: seq<string>)
    ensures forall k :: 0 <= k < |r| ==> r[k] != [] && NoSeparator(r[k])
    ensures r == [] <==> forall i :: 0 <= i < |s| ==> IsSeparator(s[i])
    decreases |s|
  {
    if s == [] then
      []
    else if IsSeparator(s[0]) then
      var r := Terms(s[1..]);
      assert forall i :: 1 <= i < |s| ==> s[i] == s[1..][i - 1];
      r
    else
      var w := Word(s);
      [w] + Terms(s[|w|..])
  }

  predicate AllSeparators(g: string) {
    forall i :: 0 <= i < |g| ==> IsSeparator(g[i])
  }

  /** `gaps[0] + terms[0] + gaps[1] + ... + terms[n - 1] + gaps[n]`. */
  function Weave(gaps: seq<string>, terms: seq<string>): string
    requires |gaps| == |terms| + 1
    decreases |terms|
  {
    if terms == [] then gaps[0] else gaps[0] + terms[0] + Weave(gaps[1..], terms[1..])
  }

  /** `s` is separator runs alternating with `terms`: the terms are the
      maximal separator-free runs of `s`, in order, since every gap between
      two terms holds at least one separator. */
  predicate SplitsInto(s: string, gaps: seq<string>, terms: seq<string>) {
    && |gaps| == |terms| + 1
    && Weave(gaps, terms) == s
    && (forall j :: 0 <= j < |gaps| ==> AllSeparators(gaps[j]))
    && (forall j :: 0 < j < |terms| ==> gaps[j] != [])
    && (forall k :: 0 <= k < |terms| ==> terms[k] != [] && NoSeparator(terms[k]))
  }

  /** The separator runs around the terms of `s`. */
  function Gaps(s: string): (g: seq<string>)
    ensures |g| == |Terms(s)| + 1
    ensures s != [] && IsSeparator(s[0]) ==> g[0] != []
    decreases |s|
  {
    if s == [] then
      [[]]
    else if IsSeparator(s[0]) then
      var g := Gaps(s[1..]);
      [[s[0]] + g[0]] + g[1..]
    else
      [[]] + Gaps(s[|Word(s)|..])
  }

  /** A separator put in front of a split joins its first gap. */
  lemma AddSeparator(c: char, s: string, gaps: seq<string>, terms: seq<string>)
    requires IsSeparator(c) && SplitsInto(s, gaps, terms)
    ensures SplitsInto([c] + s, [[c] + gaps[0]] + gaps[1..], terms)
  {
    var g := [[c] + gaps[0]] + gaps[1..];
    WeaveHead(gaps, terms, [c]);
    assert forall j :: 0 < j < |g| ==> g[j] == gaps[j];
  }

  /** A word put in front of a split that starts with a separator becomes
      its first term, after an empty gap. */
  lemma AddTerm(w: string, s: string, gaps: seq<string>, terms: seq<string>)
    requires w != [] && NoSeparator(w) && SplitsInto(s, gaps, terms)
    requires terms != [] ==> gaps[0] != []
    ensures SplitsInto(w + s, [[]] + gaps, [w] + terms)
  {
    var g, r := [[]] + gaps, [w] + terms;
    assert g[1..] == gaps && r[1..] == terms;
    assert Weave(g, r) == [] + w + Weave(gaps, terms);
    assert forall j :: 0 < j < |g| ==> g[j] == gaps[j - 1];
    assert forall k :: 0 < k < |r| ==> r[k] == terms[k - 1];
  }

  /** `Terms` splits its input: the input is its terms woven with the
      separator runs between them. */
  lemma {:induction false} TermsSplit(s: string)
    ensures SplitsInto(s, Gaps(s), Terms(s))
    decreases |s|
  {
    if s == [] {
    } else if IsSeparator(s[0]) {
      TermsSplit(s[1..]);
      AddSeparator(s[0], s[1..], Gaps(s[1..]), Terms(s[1..]));
      assert [s[0]] + s[1..] == s;
      assert Terms(s) == Terms(s[1..]) by {
        assert forall i :: 1 <= i < |s| ==> s[i] == s[1..][i - 1];
      }
    } else {
      var w := Word(s);
      var rest := s[|w|..];
      TermsSplit(rest);
      AddTerm(w, rest, Gaps(rest), Terms(rest));
      assert w + rest == s;
    }
  }

  /** Prefixing separators to the first gap prefixes them to the weave. */
  lemma WeaveHead(gaps: seq<string>, terms: seq<string>, p: string)
    requires |gaps| == |terms| + 1
    ensures Weave([p + gaps[0]] + gaps[1..], terms) == p + Weave(gaps, terms)
  {
    var g' := [p + gaps[0]] + gaps[1..];
    assert g'[0] == p + gaps[0] && g'[1..] == gaps[1..];
  }

  /** The longest separator-free prefix of a word followed by a separator
      or the end is that word. */
  lemma {:induction false} WordOf(w: string, rest: string)
    requires w != [] && NoSeparator(w) && (rest == [] || IsSeparator(rest[0]))
    ensures Word(w + rest) == w
    decreases |w|
  {
    var s := w + rest;
    if |s| == 1 || IsSeparator(s[1]) {
    } else {
      assert s[1..] == w[1..] + rest;
      WordOf(w[1..], rest);
      assert [s[0]] + w[1..] == w;
    }
  }

  /** A weave whose first gap is non-empty whenever a term follows it is
      empty or starts with a separator. */
  lemma {:induction false} WeaveStart(gaps: seq<string>, terms: seq<string>)
    requires |gaps| == |terms| + 1 && (terms != [] ==> gaps[0] != [])
    requires forall j :: 0 <= j < |gaps| ==> AllSeparators(gaps[j])
    ensures var s := Weave(gaps, terms); s == [] || IsSeparator(s[0])
  {
    if terms != [] {
      assert Weave(gaps, terms)[0] == gaps[0][0];
    }
  }

  /** A split whose first gap is not empty starts with a separator, and
      the rest of the input splits with that separator dropped. */
  lemma DropSeparator(s: string, gaps: seq<string>, terms: seq<string>)
    requires SplitsInto(s, gaps, terms) && gaps[0] != []
    ensures s != [] && IsSeparator(s[0])
    ensures SplitsInto(s[1..], [gaps[0][1..]] + gaps[1..], terms)
  {
    var g := [gaps[0][1..]] + gaps[1..];
    assert g[0] == gaps[0][1..] && g[1..] == gaps[1..];
    assert [gaps[0][0]] + g[0] == gaps[0];
    assert [[gaps[0][0]] + g[0]] + g[1..] == gaps;
    WeaveHead(g, terms, [gaps[0][0]]);
    assert s == [gaps[0][0]] + Weave(g, terms);
    assert s[1..] == Weave(g, terms);
    assert forall j :: 0 < j < |g| ==> g[j] == gaps[j];
  }

  /** A non-empty split whose first gap is empty starts with its first
      term, which a separator or the end follows; the rest splits into the
      remaining gaps and terms. */
  lemma DropTerm(s: string, gaps: seq<string>, terms: seq<string>)
    requires SplitsInto(s, gaps, terms) && gaps[0] == [] && s != []
    ensures terms != []
    ensures var rest := Weave(gaps[1..], terms[1..]);
      && s == terms[0] + rest
      && (rest == [] || IsSeparator(rest[0]))
      && SplitsInto(rest, gaps[1..], terms[1..])
  {
    assert terms != [];
    var rest := Weave(gaps[1..], terms[1..]);
    WeaveStart(gaps[1..], terms[1..]);
    assert forall j :: 0 < j < |terms| - 1 ==> gaps[1..][j] == gaps[j + 1];
  }

  /** The split is unique: whatever gaps and terms weave into `s` under
      the rules of `SplitsInto`, the terms are `Terms(s)`. */
  lemma {:induction false} SplitUnique(s: string, gaps: seq<string>, terms: seq<string>)
    requires SplitsInto(s, gaps, terms)
    ensures terms == Terms(s)
    decreases |s|
  {
    if s == [] {
    } else if gaps[0] != [] {
      DropSeparator(s, gaps, terms);
      SplitUnique(s[1..], [gaps[0][1..]] + gaps[1..], terms);
    } else {
      DropTerm(s, gaps, terms);
      var rest := Weave(gaps[1..], terms[1..]);
      WordOf(terms[0], rest);
      assert s[|terms[0]|..] == rest;
      SplitUnique(rest, gaps[1..], terms[1..]);
    }
  }

  /** The terms of a search parameter are exactly its maximal
      separator-free runs, in order. */
  lemma TermsAreRuns(s: string, terms: seq<string>)
    ensures terms == Terms(s) <==> exists gaps :: SplitsInto(s, gaps, terms)
  {
    if terms == Terms(s) {
      TermsSplit(s);
    }
    if exists gaps :: SplitsInto(s, gaps, terms) {
      var gaps :| SplitsInto(s, gaps, terms);
      SplitUnique(s, gaps, terms);
    }
  }

  /** A search parameter with no separator in it is one single term. */
  lemma SingleTerm(t: string)
    requires t != [] && NoSeparator(t)
    ensures Terms(t) == [t]
  {
    var w := Word(t);
    assert w == t;
    assert t[|w|..] == [];
  }

  /** `a <= b` in code-point lexicographic order, the order Python and a
      binary collation both use for strings. */
  predicate NoLater(a: string, b: string)
    decreases |a|
  {
    a == [] || (b != [] && (a[0] < b[0] || (a[0] == b[0] && NoLater(a[1..], b[1..]))))
  }

  lemma {:induction false} NoLaterTotal(a: string, b: string)
    ensures NoLater(a, b) || NoLater(b, a)
    decreases |a|
  {
    if a != [] && b != [] && a[0] == b[0] {
      NoLaterTotal(a[1..], b[1..]);
    }
  }

  lemma {:induction false} NoLaterAntisymmetric(a: string, b: string)
    requires NoLater(a, b) && NoLater(b, a)
    ensures a == b
    decreases |a|
  {
    if a != [] {
      NoLaterAntisymmetric(a[1..], b[1..]);
      assert a == [a[0]] + a[1..] && b == [b[0]] + b[1..];
    }
  }

  lemma {:induction false} NoLaterTransitive(a: string, b: string, c: string)
    requires NoLater(a, b) && NoLater(b, c)
    ensures NoLater(a, c)
    decreases |a|
  {
    if a != [] && a[0] == b[0] && b[0] == c[0] {
      NoLaterTransitive(a[1..], b[1..], c[1..]);
    }
  }
}

=== FILE: views.dfy ===
/** The three resource endpoints: authentication, the query pipeline
    (`get_queryset`, search, equality filters), page-number pagination,
    object lookup, and the five actions of a model viewset. */
module Views {
  import opened Results
  import opened Text
  import opened Wire
  import opened Models
  import opened Keys
  import opened Serializers
  import opened Saving
  import opened Shapes

  datatype Resource = Teachers | Classes | Students

  /** A detail route names its record by the path segment `key`, which the
      router lets be any text without `/` or `.`. */
  datatype Action =
    | List(query: Query)
    | Create(body: Body)
    | Retrieve(key: string, query: Query)
    | Update(key: string, body: Body, partial: bool, query: Query)
    | Destroy(key: string, query: Query)

  /** `authenticated` is whether the bearer token in the request verified. */
  datatype Request = Request(authenticated: bool, resource: Resource, action: Action)

  /** The list envelope: the total count, the numbers of the neighbouring
      pages when they exist, and the records of this page. */
  datatype Page = Page(count: nat, next: Option<nat>, previous: Option<nat>, results: seq<Json>)

  datatype Response =
    | Listed(page: Page)          // 200, a page of records
    | Ok(body: Body)              // 200, one record
    | Created(body: Body)         // 201
    | NoContent                   // 204
    | Unauthorized                // 401
    | NotFound(detail: string)    // 404
    | BadRequest(errors: Errors)  // 400, messages by field
    | BadQuery(messages: seq<string>)  // 400, a bare list of messages
    | ServerError                 // 500, an exception no handler catches

  const NotFoundMsg := "Not found."
  const InvalidPageMsg := "Invalid page."
  const InvalidChoiceMsg := "Select a valid choice. That choice is not one of the available choices."

  /** The detail of the 404 for a well-formed key no record matches. */
  function NoMatchMsg(res: Resource): string {
    match res
    case Teachers => "No Teacher matches the given query."
    case Classes => "No SchoolClass matches the given query."
    case Students => "No Student matches the given query."
  }

  function Param(q: Query, name: string): string {
    if name in q then q[name] else ""
  }

  // ---------------------------------------------------------------------
  // Rows of a table
  // ---------------------------------------------------------------------

  predicate Exists(s: Store, res: Resource, k: Id) {
    match res
    case Teachers => k in s.teachers
    case Classes => k in s.classes
    case Students => k in s.students
  }

  function Next(s: Store, res: Resource): Id {
    match res
    case Teachers => s.nextTeacher
    case Classes => s.nextClass
    case Students => s.nextStudent
  }

  /** `Model.objects.all().order_by('id')`. */
  function Table(s: Store, res: Resource): (r: seq<Id>)
    ensures Increasing(r)
    ensures forall k :: k in r ==> Exists(s, res, k)
    ensures Valid(s) ==> forall k :: Exists(s, res, k) ==> k in r
  {
    match res
    case Teachers => IdsBelow(s.teachers, s.nextTeacher)
    case Classes => IdsBelow(s.classes, s.nextClass)
    case Students => IdsBelow(s.students, s.nextStudent)
  }

  // ---------------------------------------------------------------------
  // Search: `search_fields`, every term in some field
  // ---------------------------------------------------------------------

  /** The values the resource's `search_fields` name, for row `k`. */
  function SearchText(s: Store, res: Resource, k: Id): seq<string>
    requires Exists(s, res, k)
  {
    match res
    case Teachers => [s.teachers[k].name, s.teachers[k].subject, s.teachers[k].email]
    case Classes => [s.classes[k].name]
    case Students => [s.students[k].name, s.students[k].rollNumber, s.students[k].email]
  }

  predicate AnyContains(fields: seq<string>, term: string) {
    exists i :: 0 <= i < |fields| && Contains(fields[i], term)
  }

  predicate MatchesAll(fields: seq<string>, terms: seq<string>) {
    forall j :: 0 <= j < |terms| ==> AnyContains(fields, terms[j])
  }

  predicate Found(s: Store, res: Resource, q: Query, k: Id) {
    Exists(s, res, k) && MatchesAll(SearchText(s, res, k), Terms(Param(q, "search")))
  }

  // ---------------------------------------------------------------------
  // Equality filters: `filterset_fields`, and the `classId` parameter
  // ---------------------------------------------------------------------

  /** What the filterset form asks for: nothing, one subject, or rows that
      reference one stored key. */
  datatype Narrow = Everything | BySubject(subject: string) | ByRef(target: Id)

  /** A model-choice field: empty means no filter, otherwise the value must
      be the key of a stored row. */
  function ChoiceOf(name: string, q: Query, ids: set<Id>): (r: Result<Narrow, Errors>)
    ensures Param(q, name) == "" ==> r == Success(Everything)
    ensures r.Success? && r.value.ByRef? ==> r.value.target in ids && ParseInt(Param(q, name)) == Some(r.value.target)
    ensures r.Failure? <==> (Param(q, name) != "" &&
      (ParseInt(Param(q, name)).None? || ParseInt(Param(q, name)).value < 0 || ParseInt(Param(q, name)).value !in ids))
    ensures r.Failure? ==> r.error == map[name := [InvalidChoiceMsg]]
    ensures r.Success? ==> r.value.Everything? || r.value.ByRef?
  {
    var v := Param(q, name);
    if v == "" then
      Success(Everything)
    else
      match ParseInt(v)
      case Some(i) => if i >= 0 && i in ids then Success(ByRef(i)) else Failure(map[name := [InvalidChoiceMsg]])
      case None => Failure(map[name := [InvalidChoiceMsg]])
  }

  /** The filterset of each resource: `subject` for teachers (a text form
      field: trimmed, empty meaning no filter, a NUL refused), `teacher`
      for classes and `class_assigned` for students (model choices). */
  function FilterSet(s: Store, res: Resource, q: Query): (r: Result<Narrow, Errors>)
    ensures res.Teachers? ==> (r == Success(Everything) <==> AllSpace(Param(q, "subject")))
    ensures res.Teachers? ==> (r.Failure? <==> !NulFree(Param(q, "subject")))
    ensures res.Teachers? && r.Failure? ==> r.error == map["subject" := [NulCharMsg]]
    ensures r.Success? && r.value.BySubject? ==>
      && res.Teachers? && r.value.subject == Trim(Param(q, "subject"))
      && r.value.subject != [] && NulFree(r.value.subject)
    ensures res.Classes? ==> r == ChoiceOf("teacher", q, s.teachers.Keys)
    ensures res.Students? ==> r == ChoiceOf("class_assigned", q, s.classes.Keys)
  {
    match res
    case Teachers =>
      var v := Trim(Param(q, "subject"));
      TrimNulFree(Param(q, "subject"));
      if v == "" then Success(Everything)
      else if !NulFree(v) then Failure(map["subject" := [NulCharMsg]])
      else Success(BySubject(v))
    case Classes => ChoiceOf("teacher", q, s.teachers.Keys)
    case Students => ChoiceOf("class_assigned", q, s.classes.Keys)
  }

  predicate Narrowed(s: Store, res: Resource, n: Narrow, k: Id)
    requires Exists(s, res, k)
  {
    match n
    case Everything => true
    case BySubject(v) => res.Teachers? && s.teachers[k].subject == v
    case ByRef(t) =>
      match res
      case Teachers => false
      case Classes => s.classes[k].teacher == Some(t)
      case Students => s.students[k].classAssigned == t
  }

  /** `StudentViewSet.get_queryset`: a non-empty `classId` keeps the
      students of that class; one that is not an integer raises. */
  function ClassIdScope(s: Store, q: Query, ids: seq<Id>): (r: Result<seq<Id>, Response>)
    ensures Param(q, "classId") == "" ==> r == Success(ids)
    ensures r.Failure? <==> Param(q, "classId") != "" && ParseInt(Param(q, "classId")).None?
    ensures r.Failure? ==> r.error == ServerError
    ensures r.Success? && Param(q, "classId") != "" ==>
      forall k :: k in r.value <==> (k in ids && k in s.students
        && s.students[k].classAssigned as int == ParseInt(Param(q, "classId")).value)
    ensures Increasing(ids) && r.Success? ==> Increasing(r.value)
  {
    var v := Param(q, "classId");
    if v == "" then
      Success(ids)
    else
      match ParseInt(v)
      case None => Failure(ServerError)
      case Some(c) =>
        var p := (k: nat) => k in s.students && s.students[k].classAssigned as int == c;
        FilterIncreasingIf(ids, p);
        Success(Filter(ids, p))
  }

  lemma FilterIncreasingIf(xs: seq<nat>, p: nat -> bool)
    ensures Increasing(xs) ==> Increasing(Filter(xs, p))
  {
    if Increasing(xs) {
      FilterIncreasing(xs, p);
    }
  }

  /** The condition `get_queryset` puts on row `k`: on the student routes,
      a non-empty `classId` must be the integer key of the row's class. */
  predicate ClassOk(s: Store, res: Resource, q: Query, k: Id) {
    res.Students? && Param(q, "classId") != "" ==>
      && ParseInt(Param(q, "classId")).Some? && k in s.students
      && s.students[k].classAssigned as int == ParseInt(Param(q, "classId")).value
  }

  /** Whether row `k` is in the queryset a request's parameters select,
      given that they are well formed. */
  predicate Selected(s: Store, res: Resource, q: Query, n: Narrow, k: Id) {
    Found(s, res, q, k) && Narrowed(s, res, n, k) && ClassOk(s, res, q, k)
  }

  /** `SearchFilter`: the rows every search term occurs in, in some
      search field. No terms, no filtering. */
  function Search(s: Store, res: Resource, q: Query, ids: seq<Id>): (r: seq<Id>)
    ensures forall k :: k in r <==> k in ids && Found(s, res, q, k)
    ensures Terms(Param(q, "search")) == [] ==> forall k :: k in ids && Exists(s, res, k) ==> k in r
    ensures Increasing(ids) ==> Increasing(r)
  {
    var p := (k: nat) => Found(s, res, q, k);
    FilterIncreasingIf(ids, p);
    Filter(ids, p)
  }

  /** `DjangoFilterBackend` once its form is valid. */
  function Restrict(s: Store, res: Resource, n: Narrow, ids: seq<Id>): (r: seq<Id>)
    ensures forall k :: k in r <==> k in ids && Exists(s, res, k) && Narrowed(s, res, n, k)
    ensures Increasing(ids) ==> Increasing(r)
  {
    var p := (k: nat) => Exists(s, res, k) && Narrowed(s, res, n, k);
    FilterIncreasingIf(ids, p);
    Filter(ids, p)
  }

  /** A `classId` parameter on the student routes that `int()` cannot read:
      `get_queryset` raises on it. */
  predicate ClassIdBad(res: Resource, q: Query) {
    res.Students? && Param(q, "classId") != "" && ParseInt(Param(q, "classId")).None?
  }

  /** `get_queryset()`: the table in key order, narrowed by `classId` on
      the student routes. */
  function Rows(s: Store, res: Resource, q: Query): (r: Result<seq<Id>, Response>)
    ensures r.Failure? <==> ClassIdBad(res, q)
    ensures r.Failure? ==> r.error == ServerError
    ensures r.Success? ==> Increasing(r.value)
    ensures r.Success? ==> forall k :: k in r.value ==> Exists(s, res, k) && ClassOk(s, res, q, k)
    ensures r.Success? && Valid(s) ==> forall k :: Exists(s, res, k) && ClassOk(s, res, q, k) ==> k in r.value
  {
    if res.Students? then ClassIdScope(s, q, Table(s, res)) else Success(Table(s, res))
  }

  /** `filter_queryset(get_queryset())`: the selected rows in key order, or
      the error one of the steps raises. The search backend runs first and
      reads `?search=` through a text field that keeps whitespace and
      refuses a null character; its error is a bare list of messages. Which
      rows are selected is stated by `ScopeSelects`. */
  function Scope(s: Store, res: Resource, q: Query): (r: Result<seq<Id>, Response>)
    ensures r.Failure? ==> r.error.ServerError? || r.error.BadQuery? || r.error.BadRequest?
    ensures (r.Failure? && r.error.ServerError?) <==> ClassIdBad(res, q)
    ensures (r.Failure? && r.error.BadQuery?) <==> !ClassIdBad(res, q) && !NulFree(Param(q, "search"))
    ensures r.Failure? && r.error.BadQuery? ==> r.error.messages == [NulCharMsg]
    ensures r.Failure? && r.error.BadRequest? ==>
      NulFree(Param(q, "search")) && FilterSet(s, res, q).Failure? && r.error.errors == FilterSet(s, res, q).error
    ensures r.Success? ==>
      NulFree(Param(q, "search")) && FilterSet(s, res, q).Success? && Increasing(r.value) && AllExist(s, res, r.value)
  {
    var rows :- Rows(s, res, q);
    if !NulFree(Param(q, "search")) then Failure(BadQuery([NulCharMsg]))
    else match FilterSet(s, res, q)
    case Failure(e) => Failure(BadRequest(e))
    case Success(n) => Success(Restrict(s, res, n, Search(s, res, q, rows)))
  }

  /** The last two stages, search then the equality filter, keep a row
      exactly when it is in their input and selected. */
  lemma StagesSelect(s: Store, res: Resource, q: Query, n: Narrow, rows: seq<Id>, k: Id)
    ensures k in Restrict(s, res, n, Search(s, res, q, rows)) <==>
      k in rows && Exists(s, res, k) && Found(s, res, q, k) && Narrowed(s, res, n, k)
  {
  }

  /** `Scope` is the last two stages applied to `get_queryset()`. */
  lemma ScopeStages(s: Store, res: Resource, q: Query, n: Narrow)
    requires Scope(s, res, q).Success? && FilterSet(s, res, q) == Success(n)
    ensures Rows(s, res, q).Success?
    ensures Scope(s, res, q) == Success(Restrict(s, res, n, Search(s, res, q, Rows(s, res, q).value)))
  {
  }

  /** Every row `Scope` keeps is stored and selected by the parameters. */
  lemma ScopeSound(s: Store, res: Resource, q: Query, n: Narrow, k: Id)
    requires Scope(s, res, q).Success? && FilterSet(s, res, q) == Success(n)
    requires k in Scope(s, res, q).value
    ensures Exists(s, res, k) && Selected(s, res, q, n, k)
  {
    var rows := Rows(s, res, q).value;
    ScopeStages(s, res, q, n);
    StagesSelect(s, res, q, n, rows, k);
  }

  /** On a valid store, every stored row the parameters select is kept. */
  lemma ScopeComplete(s: Store, res: Resource, q: Query, n: Narrow, k: Id)
    requires Scope(s, res, q).Success? && FilterSet(s, res, q) == Success(n)
    requires Valid(s) && Exists(s, res, k) && Selected(s, res, q, n, k)
    ensures k in Scope(s, res, q).value
  {
    var rows := Rows(s, res, q).value;
    ScopeStages(s, res, q, n);
    assert k in rows;
    StagesSelect(s, res, q, n, rows, k);
  }

  /** On a valid store, the rows `Scope` keeps are exactly the stored rows
      the parameters select. */
  lemma ScopeSelects(s: Store, res: Resource, q: Query, n: Narrow, k: Id)
    requires Valid(s) && Scope(s, res, q).Success? && FilterSet(s, res, q) == Success(n)
    ensures k in Scope(s, res, q).value <==> Exists(s, res, k) && Selected(s, res, q, n, k)
  {
    if k in Scope(s, res, q).value {
      ScopeSound(s, res, q, n, k);
    }
    if Exists(s, res, k) && Selected(s, res, q, n, k) {
      ScopeComplete(s, res, q, n, k);
    }
  }

  // ---------------------------------------------------------------------
  // Page-number pagination: 10 rows a page unless `page_size` asks for
  // another size, at most 100
  // ---------------------------------------------------------------------

  const PageSizeDefault: nat := 10
  const PageSizeMax: nat := 100

  /** `get_page_size`: a positive integer `page_size` is honoured up to the
      maximum; anything else falls back to the default. */
  function PageSize(q: Query): (n: nat)
    ensures 1 <= n <= PageSizeMax
    ensures forall k: int :: ParseInt(Param(q, "page_size")) == Some(k) && 1 <= k ==>
      n == if k <= PageSizeMax then k else PageSizeMax
    ensures (ParseInt(Param(q, "page_size")).None? || ParseInt(Param(q, "page_size")).value < 1) ==>
      n == PageSizeDefault
  {
    match ParseInt(Param(q, "page_size"))
    case Some(k) =>
      if k < 1 then PageSizeDefault else if k <= PageSizeMax then k else PageSizeMax
    case None => PageSizeDefault
  }

  /** The number of pages of `count` rows: never zero, since the first
      page exists even when it is empty. */
  function NumPages(count: nat, size: nat): (r: nat)
    requires size >= 1
    ensures r >= 1
    ensures count <= r * size
    ensures r == 1 || (r - 1) * size < count
  {
    if count == 0 then 1 else
      var r := (count + size - 1) / size;
      assert r * size <= count + size - 1 < r * size + size;
      r
  }

  /** `get_page_number` and `validate_number`: the page a `page` parameter
      selects, or nothing when it is not a page that exists. An absent or
      empty parameter means the first page, `last` the last one. */
  function PageNumber(q: Query, pages: nat): (r: Option<nat>)
    requires pages >= 1
    ensures r.Some? ==> 1 <= r.value <= pages
    ensures Param(q, "page") == "" ==> r == Some(1)
    ensures Param(q, "page") == "last" ==> r == Some(pages)
    ensures forall k: int :: ParseInt(Param(q, "page")) == Some(k) ==>
      (r.Some? <==> 1 <= k <= pages) && (r.Some? ==> r.value == k)
    ensures Param(q, "page") != "" && Param(q, "page") != "last" && ParseInt(Param(q, "page")).None? ==> r.None?
  {
    var v := Param(q, "page");
    if v == "" then Some(1)
    else if v == "last" then Some(pages)
    else
      match ParseInt(v)
      case Some(k) => if 1 <= k <= pages then Some(k) else None
      case None => None
  }

  /** The rows of page `k`. */
  function Window<T>(xs: seq<T>, k: nat, size: nat): seq<T>
    requires k >= 1 && size >= 1
  {
    var lo := (k - 1) * size;
    var hi := k * size;
    if lo >= |xs| then [] else if hi >= |xs| then xs[lo..] else xs[lo..hi]
  }

  lemma MulMonotone(a: nat, b: nat, c: nat)
    requires a <= b
    ensures a * c <= b * c
  {
  }

  lemma MulSucc(a: nat, b: nat)
    ensures (a + 1) * b == a * b + b
  {
  }

  /** Position `j` of page `k`, whose first row is row `lo`, is row `lo + j`. */
  lemma WindowIndex<T>(xs: seq<T>, k: nat, size: nat, lo: nat, j: nat)
    requires k >= 1 && size >= 1 && lo == (k - 1) * size && k * size == lo + size
    requires j < size && lo + j < |xs|
    ensures j < |Window(xs, k, size)| && Window(xs, k, size)[j] == xs[lo + j]
  {
  }

  /** Row `i` is row `i % size` of the `i / size`-th full block, and that
      block starts a page. */
  lemma RowPage(count: nat, size: nat, i: nat, d: nat, m: nat)
    requires size >= 1 && i < count && d == i / size && m == i % size
    ensures i == d * size + m && m < size
    ensures (d + 1) * size == d * size + size
    ensures d + 1 <= NumPages(count, size)
  {
    var n := NumPages(count, size);
    if n < d + 1 {
      MulMonotone(n, d, size);
      assert false;
    }
  }

  /** Row `i` is on page `i / size + 1`, at position `i % size`: every row is
      on exactly one page, and the pages keep the order of the rows. */
  lemma PagePosition<T>(xs: seq<T>, size: nat, i: nat)
    requires size >= 1 && i < |xs|
    ensures var k := i / size + 1;
      && k <= NumPages(|xs|, size)
      && i % size < |Window(xs, k, size)|
      && Window(xs, k, size)[i % size] == xs[i]
  {
    var d := i / size;
    var m := i % size;
    RowPage(|xs|, size, i, d, m);
    WindowIndex(xs, d + 1, size, d * size, m);
  }

  /** Every page but the last is full, and the last holds the rest. */
  lemma PageSizes<T>(xs: seq<T>, size: nat, k: nat)
    requires size >= 1 && 1 <= k <= NumPages(|xs|, size)
    ensures k < NumPages(|xs|, size) ==> |Window(xs, k, size)| == size
    ensures k == NumPages(|xs|, size) ==> |Window(xs, k, size)| == |xs| - (k - 1) * size
  {
    var n := NumPages(|xs|, size);
    var lo := (k - 1) * size;
    var hi := k * size;
    MulSucc(k - 1, size);
    assert hi == lo + size;
    if k < n {
      MulMonotone(k, n - 1, size);
      assert hi < |xs|;
    } else {
      assert lo == (n - 1) * size && |xs| <= hi;
    }
  }

  /** `paginate_queryset`: the rows of the selected page, its number and
      the page count; an invalid page is a 404. */
  function Paginate(ids: seq<Id>, q: Query): (r: Result<(seq<Id>, nat, nat), Response>)
    ensures r.Failure? <==> PageNumber(q, NumPages(|ids|, PageSize(q))).None?
    ensures r.Failure? ==> r.error == NotFound(InvalidPageMsg)
    ensures r.Success? ==> var (rows, k, pages) := r.value;
      && pages == NumPages(|ids|, PageSize(q))
      && Some(k) == PageNumber(q, pages)
      && 1 <= k <= pages
      && rows == Window(ids, k, PageSize(q))
  {
    var size := PageSize(q);
    var pages := NumPages(|ids|, size);
    match PageNumber(q, pages)
    case None => Failure(NotFound(InvalidPageMsg))
    case Some(k) => Success((Window(ids, k, size), k, pages))
  }

  // ---------------------------------------------------------------------
  // Rendering and lookup
  // ---------------------------------------------------------------------

  /** One row in the shape of the action's serializer; only `retrieve` of a
      class uses the detail shape. */
  function RenderBody(s: Store, res: Resource, k: Id, detail: bool): Body
    requires Exists(s, res, k)
  {
    match res
    case Teachers => TeacherShape(k, s.teachers[k])
    case Students => StudentShape(k, s.students[k])
    case Classes => if detail then ClassDetailShape(s, k, s.classes[k]) else ClassShape(k, s.classes[k])
  }

  predicate AllExist(s: Store, res: Resource, ids: seq<Id>) {
    forall k :: k in ids ==> Exists(s, res, k)
  }

  function RenderAll(s: Store, res: Resource, ids: seq<Id>): (r: seq<Json>)
    requires AllExist(s, res, ids)
    ensures |r| == |ids|
    ensures forall i :: 0 <= i < |ids| ==> r[i] == JObj(RenderBody(s, res, ids[i], false))
  {
    if ids == [] then [] else [JObj(RenderBody(s, res, ids[0], false))] + RenderAll(s, res, ids[1..])
  }

  lemma WindowExists(s: Store, res: Resource, ids: seq<Id>, k: nat, size: nat)
    requires k >= 1 && size >= 1 && AllExist(s, res, ids)
    ensures AllExist(s, res, Window(ids, k, size))
  {
    forall x | x in Window(ids, k, size)
      ensures x in ids
    {
    }
  }

  /** `has_next` is `number < num_pages`, which holds exactly when rows
      remain after this page. */
  lemma NextMeansMore(count: nat, size: nat, k: nat)
    requires size >= 1 && 1 <= k <= NumPages(count, size)
    ensures k < NumPages(count, size) <==> k * size < count
  {
    var n := NumPages(count, size);
    if k < n {
      MulMonotone(k, n - 1, size);
    } else {
      MulMonotone(n, k, size);
    }
  }

  /** Page `k` of the rows `ids`, `size` rows a page. */
  function PageAt(s: Store, res: Resource, ids: seq<Id>, size: nat, k: nat): (p: Page)
    requires AllExist(s, res, ids)
    requires size >= 1 && 1 <= k <= NumPages(|ids|, size)
    ensures p.count == |ids|
    ensures p.results == RenderAll(s, res, Window(ids, k, size))
    ensures p.next.Some? <==> k * size < |ids|
    ensures p.next.Some? ==> p.next.value == k + 1
    ensures p.previous.Some? <==> k > 1
    ensures p.previous.Some? ==> p.previous.value == k - 1
  {
    NextMeansMore(|ids|, size, k);
    WindowExists(s, res, ids, k, size);
    var next := if k < NumPages(|ids|, size) then Some(k + 1) else None;
    var previous := if k > 1 then Some(k - 1) else None;
    Page(|ids|, next, previous, RenderAll(s, res, Window(ids, k, size)))
  }

  /** One page of the rows `ids`, as the parameters select it. */
  function PageOf(s: Store, res: Resource, ids: seq<Id>, q: Query): (r: Response)
    requires AllExist(s, res, ids)
    ensures r.Listed? || r == NotFound(InvalidPageMsg)
    ensures r.Listed? <==> PageNumber(q, NumPages(|ids|, PageSize(q))).Some?
    ensures r.Listed? ==>
      r.page == PageAt(s, res, ids, PageSize(q), PageNumber(q, NumPages(|ids|, PageSize(q))).value)
  {
    var size := PageSize(q);
    var pages := NumPages(|ids|, size);
    match PageNumber(q, pages)
    case None => NotFound(InvalidPageMsg)
    case Some(k) => Listed(PageAt(s, res, ids, size, k))
  }

  /** `list`: a page of the selected rows, or the error selecting them
      raised. */
  function ListPage(s: Store, res: Resource, q: Query): (r: Response)
    ensures r.Listed? || r.NotFound? || r.BadQuery? || r.BadRequest? || r.ServerError?
    ensures Scope(s, res, q).Failure? ==> r == Scope(s, res, q).error
    ensures Scope(s, res, q).Success? ==> r == PageOf(s, res, Scope(s, res, q).value, q)
    ensures r.ServerError? <==> ClassIdBad(res, q)
  {
    match Scope(s, res, q)
    case Failure(e) => e
    case Success(ids) => PageOf(s, res, ids, q)
  }

  /** `get_object`: the row the key names among the selected rows. A key
      that is not an integer is a plain 404; an integer no selected row has
      is a 404 naming the model. */
  function Locate(s: Store, res: Resource, key: string, q: Query): (r: Result<Id, Response>)
    ensures Scope(s, res, q).Failure? ==> r == Failure(Scope(s, res, q).error)
    ensures Scope(s, res, q).Success? && ParseInt(key).None? ==> r == Failure(NotFound(NotFoundMsg))
    ensures Scope(s, res, q).Success? && ParseInt(key).Some? ==>
      && (r.Success? <==> ParseInt(key).value >= 0 && ParseInt(key).value in Scope(s, res, q).value)
      && (r.Failure? ==> r.error == NotFound(NoMatchMsg(res)))
    ensures r.Success? ==> Exists(s, res, r.value) && ParseInt(key) == Some(r.value)
    ensures r.Failure? ==> r.error.ServerError? || r.error.BadQuery? || r.error.BadRequest? || r.error.NotFound?
    ensures r.Failure? && r.error.ServerError? <==> ClassIdBad(res, q)
  {
    var ids :- Scope(s, res, q);
    match ParseInt(key)
    case None => Failure(NotFound(NotFoundMsg))
    case Some(i) => if i >= 0 && i in ids then Success(i) else Failure(NotFound(NoMatchMsg(res)))
  }

  // ---------------------------------------------------------------------
  // The actions
  // ---------------------------------------------------------------------

  /** `create` of a teacher: 201 with the new row, 400 with the field
      errors, or the store's refusal, which nothing handles. */
  function CreateTeacherIn(s: Store, body: Body, emailOk: string -> bool): (r: (Store, Response))
    ensures r.1.Created? || r.1.BadRequest? || r.1.ServerError?
    ensures !r.1.Created? ==> r.0 == s
    ensures Valid(s) ==> Valid(r.0) && !r.1.ServerError?
    ensures r.1.Created? ==> exists id :: (Valid(s) ==> id !in s.teachers) && id in r.0.teachers && r.1.body == TeacherShape(id, r.0.teachers[id])
  {
    match CreateTeacher(s, body, emailOk)
    case Success((s', id)) => (s', Created(TeacherShape(id, s'.teachers[id])))
    case Failure(Invalid(e)) => (s, BadRequest(e))
    case Failure(Refused(_)) => (s, ServerError)
  }

  function CreateClassIn(s: Store, body: Body, emailOk: string -> bool): (r: (Store, Response))
    ensures r.1.Created? || r.1.BadRequest? || r.1.ServerError?
    ensures !r.1.Created? ==> r.0 == s
    ensures Valid(s) ==> Valid(r.0) && !r.1.ServerError?
    ensures r.1.Created? ==> exists id :: (Valid(s) ==> id !in s.classes) && id in r.0.classes && r.1.body == ClassShape(id, r.0.classes[id])
  {
    match CreateClass(s, body, emailOk)
    case Success((s', id)) => (s', Created(ClassShape(id, s'.classes[id])))
    case Failure(Invalid(e)) => (s, BadRequest(e))
    case Failure(Refused(_)) => (s, ServerError)
  }

  function CreateStudentIn(s: Store, body: Body, emailOk: string -> bool): (r: (Store, Response))
    ensures r.1.Created? || r.1.BadRequest? || r.1.ServerError?
    ensures !r.1.Created? ==> r.0 == s
    ensures Valid(s) ==> Valid(r.0) && !r.1.ServerError?
    ensures r.1.Created? ==> exists id :: (Valid(s) ==> id !in s.students) && id in r.0.students && r.1.body == StudentShape(id, r.0.students[id])
  {
    match CreateStudent(s, body, emailOk)
    case Success((s', id)) => (s', Created(StudentShape(id, s'.students[id])))
    case Failure(Invalid(e)) => (s, BadRequest(e))
    case Failure(Refused(_)) => (s, ServerError)
  }

  function CreateIn(s: Store, res: Resource, body: Body, emailOk: string -> bool): (r: (Store, Response))
    ensures r.1.Created? || r.1.BadRequest? || r.1.ServerError?
    ensures !r.1.Created? ==> r.0 == s
    ensures Valid(s) ==> Valid(r.0) && !r.1.ServerError?
  {
    match res
    case Teachers => CreateTeacherIn(s, body, emailOk)
    case Classes => CreateClassIn(s, body, emailOk)
    case Students => CreateStudentIn(s, body, emailOk)
  }

  /** `update` and `partial_update` of a teacher: 200 with the row as
      stored, or 400 with the field errors. */
  function UpdateTeacherIn(s: Store, id: Id, body: Body, partial: bool, emailOk: string -> bool): (r: (Store, Response))
    requires id in s.teachers
    ensures r.1.Ok? || r.1.BadRequest? || r.1.ServerError?
    ensures !r.1.Ok? ==> r.0 == s
    ensures Valid(s) ==> Valid(r.0) && !r.1.ServerError?
    ensures r.1.Ok? ==> id in r.0.teachers && r.1.body == TeacherShape(id, r.0.teachers[id])
  {
    match ChangeTeacher(s, id, body, partial, emailOk)
    case Success(s') => (s', Ok(TeacherShape(id, s'.teachers[id])))
    case Failure(Invalid(e)) => (s, BadRequest(e))
    case Failure(Refused(_)) => (s, ServerError)
  }

  function UpdateClassIn(s: Store, id: Id, body: Body, partial: bool, emailOk: string -> bool): (r: (Store, Response))
    requires id in s.classes
    ensures r.1.Ok? || r.1.BadRequest? || r.1.ServerError?
    ensures !r.1.Ok? ==> r.0 == s
    ensures Valid(s) ==> Valid(r.0) && !r.1.ServerError?
    ensures r.1.Ok? ==> id in r.0.classes && r.1.body == ClassShape(id, r.0.classes[id])
  {
    match ChangeClass(s, id, body, partial, emailOk)
    case Success(s') => (s', Ok(ClassShape(id, s'.classes[id])))
    case Failure(Invalid(e)) => (s, BadRequest(e))
    case Failure(Refused(_)) => (s, ServerError)
  }

  function UpdateStudentIn(s: Store, id: Id, body: Body, partial: bool, emailOk: string -> bool): (r: (Store, Response))
    requires id in s.students
    ensures r.1.Ok? || r.1.BadRequest? || r.1.ServerError?
    ensures !r.1.Ok? ==> r.0 == s
    ensures Valid(s) ==> Valid(r.0) && !r.1.ServerError?
    ensures r.1.Ok? ==> id in r.0.students && r.1.body == StudentShape(id, r.0.students[id])
  {
    match ChangeStudent(s, id, body, partial, emailOk)
    case Success(s') => (s', Ok(StudentShape(id, s'.students[id])))
    case Failure(Invalid(e)) => (s, BadRequest(e))
    case Failure(Refused(_)) => (s, ServerError)
  }

  function UpdateIn(s: Store, res: Resource, id: Id, body: Body, partial: bool, emailOk: string -> bool): (r: (Store, Response))
    requires Exists(s, res, id)
    ensures r.1.Ok? || r.1.BadRequest? || r.1.ServerError?
    ensures !r.1.Ok? ==> r.0 == s
    ensures Valid(s) ==> Valid(r.0) && !r.1.ServerError?
    ensures r.1.Ok? ==> Exists(r.0, res, id) && r.1.body == RenderBody(r.0, res, id, false)
  {
    match res
    case Teachers => UpdateTeacherIn(s, id, body, partial, emailOk)
    case Classes => UpdateClassIn(s, id, body, partial, emailOk)
    case Students => UpdateStudentIn(s, id, body, partial, emailOk)
  }

  /** `destroy` of a located row, with the referential actions. */
  function DestroyIn(s: Store, res: Resource, id: Id): (r: Store)
    requires Exists(s, res, id)
    ensures !Exists(r, res, id)
    ensures Valid(s) ==> Valid(r)
    ensures res.Teachers? ==> r == DeleteTeacher(s, id)
    ensures res.Classes? ==> r == DeleteClass(s, id)
    ensures res.Students? ==> r == DeleteStudent(s, id)
  {
    match res
    case Teachers =>
      assert Valid(s) ==> Valid(DeleteTeacher(s, id)) by {
        if Valid(s) {
          DeleteTeacherKeepsValid(s, id);
        }
      }
      DeleteTeacher(s, id)
    case Classes =>
      assert Valid(s) ==> Valid(DeleteClass(s, id)) by {
        if Valid(s) {
          DeleteClassKeepsValid(s, id);
        }
      }
      DeleteClass(s, id)
    case Students => DeleteStudent(s, id)
  }

  /** The query of the request, if its action has one. */
  function QueryOf(a: Action): Query {
    match a
    case List(q) => q
    case Create(_) => map[]
    case Retrieve(_, q) => q
    case Update(_, _, _, q) => q
    case Destroy(_, q) => q
  }

  /** The one unhandled error a valid store can meet: a `classId` that is
      not an integer, on a student route that reads the queryset. */
  predicate ClassIdRaises(req: Request) {
    !req.action.Create? && ClassIdBad(req.resource, QueryOf(req.action))
  }

  /** `retrieve`: the located row, classes in the detail shape. */
  function RetrieveAt(s: Store, res: Resource, key: string, q: Query): (r: Response)
    ensures r.Ok? <==> Locate(s, res, key, q).Success?
    ensures r.Ok? ==> r.body == RenderBody(s, res, Locate(s, res, key, q).value, true)
    ensures !r.Ok? ==> r == Locate(s, res, key, q).error
    ensures r.ServerError? <==> ClassIdBad(res, q)
  {
    match Locate(s, res, key, q)
    case Failure(e) => e
    case Success(id) => Ok(RenderBody(s, res, id, true))
  }

  /** `update` and `partial_update`: locate, then write. */
  function UpdateAt(s: Store, res: Resource, key: string, body: Body, partial: bool, q: Query, emailOk: string -> bool): (r: (Store, Response))
    ensures Locate(s, res, key, q).Failure? ==> r == (s, Locate(s, res, key, q).error)
    ensures Locate(s, res, key, q).Success? ==> r == UpdateIn(s, res, Locate(s, res, key, q).value, body, partial, emailOk)
    ensures !r.1.Ok? ==> r.0 == s
    ensures Valid(s) ==> Valid(r.0)
    ensures Valid(s) && r.1.ServerError? ==> ClassIdBad(res, q)
  {
    match Locate(s, res, key, q)
    case Failure(e) => (s, e)
    case Success(id) => UpdateIn(s, res, id, body, partial, emailOk)
  }

  /** `destroy`: locate, then delete. */
  function DestroyAt(s: Store, res: Resource, key: string, q: Query): (r: (Store, Response))
    ensures Locate(s, res, key, q).Failure? ==> r == (s, Locate(s, res, key, q).error)
    ensures Locate(s, res, key, q).Success? ==> r == (DestroyIn(s, res, Locate(s, res, key, q).value), NoContent)
    ensures !r.1.NoContent? ==> r.0 == s
    ensures Valid(s) ==> Valid(r.0)
    ensures r.1.ServerError? <==> ClassIdBad(res, q)
  {
    match Locate(s, res, key, q)
    case Failure(e) => (s, e)
    case Success(id) => (DestroyIn(s, res, id), NoContent)
  }

  /** One request against the store: the permission check first, then the
      action. Returns the store after the request and the response. */
  function Handle(s: Store, req: Request, emailOk: string -> bool): (r: (Store, Response))
    ensures !req.authenticated ==> r == (s, Unauthorized)
    ensures req.action.List? || req.action.Retrieve? ==> r.0 == s
    ensures !(r.1.Created? || r.1.Ok? || r.1.NoContent?) ==> r.0 == s
    ensures Valid(s) ==> Valid(r.0)
    ensures Valid(s) && r.1.ServerError? ==> ClassIdRaises(req)
  {
    if !req.authenticated then
      (s, Unauthorized)
    else
      match req.action
      case List(q) => (s, ListPage(s, req.resource, q))
      case Create(body) => CreateIn(s, req.resource, body, emailOk)
      case Retrieve(key, q) => (s, RetrieveAt(s, req.resource, key, q))
      case Update(key, body, partial, q) => UpdateAt(s, req.resource, key, body, partial, q, emailOk)
      case Destroy(key, q) => DestroyAt(s, req.resource, key, q)
  }
}

=== FILE: wire.dfy ===
/** JSON values as they cross the API boundary: request bodies, query
    strings and response payloads. */
module Wire {

  datatype Json =
    | JNull
    | JBool(b: bool)
    | JInt(i: int)
    | JStr(s: string)
    | JArr(items: seq<Json>)
    | JObj(fields: map<string, Json>)

  /** A request body: a JSON object, keyed by wire field names. */
  type Body = map<string, Json>

  /** The query string of a request. When a parameter repeats, the last
      value is the one every consumer reads, so one value per name suffices. */
  type Query = map<string, string>
}
